=== FILE: README.md ===
# SecureChat core, modelled in Dafny

SecureChat is a peer-to-peer end-to-end encrypted messenger. Its core library
keeps everything on the device in a sled key-value tree, where each record is
encrypted under a master key. The master key is itself sealed under a key
derived from the user's password with Argon2id. The core also contains:

- an Ed25519 identity;
- an X25519 message key pair used for two-Diffie-Hellman message encryption
  (static×static and ephemeral×static keys, HKDF-SHA256, then AES-256-GCM);
- a ratchet state record;
- the value types of the wire protocol;
- a peer table;
- an application object, `SecureChat`, that ties accounts, contacts,
  conversations, messages, profile, network events and encrypted backups
  together.

The model covers these five source files:

| file | modules |
|---|---|
| `core/src/crypto.rs` | `Crypto` |
| `core/src/storage.rs` | `Storage` |
| `core/src/protocol.rs` | `Protocol` |
| `core/src/network.rs` | `Network` |
| `core/src/lib.rs` | `Chat` |

Supporting modules hold the pieces the code takes from libraries:

- `Primitives`: the cryptographic primitives, as function values with laws;
- `Serde`: bincode and JSON codecs with a round-trip law;
- `Sled`: the tree as a sorted association list;
- `Utf8`, `Base64` (section 4 of RFC 4648) and `Hex`: text encodings;
- `Sorting`: Rust's stable `sort_by`;
- `Bytes`: fixed-width integers;
- `Wrappers`: `Option` and `Result`.

Every cryptographic primitive is a field of a `Suite`. Properties that need the
primitives to behave hold for every suite satisfying `Suite.Laws()`:

- AEAD correctness, and integrity: opening succeeds only on a sealing;
- X25519 commutativity;
- HKDF output length;
- Ed25519 sign/verify;
- fixed digest and key lengths.

`Primitives.LawsSatisfiable` exhibits a suite that meets the laws, so assuming
them is not contradictory.

Randomness and clock readings are parameters of the operations that use them:

- salts, nonces, keys and the bytes behind generated ids come from `OsRng` /
  `thread_rng` in the code;
- clock readings come from `OffsetDateTime::now_utc` / `Instant::now`.

Panics (an out-of-range slice, `copy_from_slice` of a wrong length) become
`Err(Panic(..))`. Other failures become `Err(Failure(message))`, carrying the
message the code attaches. Where `crypto.rs` formats the library error after
its message, the model appends that error's fixed debug text: `": Error"` for
the AEAD error and `": InvalidLength"` for HKDF's length error.

Where the code changes state, the model does too:

- `Storage.SecureStorage` is a class whose `db` field the store operations
  reassign.
- `Crypto.DoubleRatchet` is a class updated in place by `Ratchet`.
- `Network.PeerManager` holds its peers in a `map` field.
- `Chat.SecureChat` is a class whose account fields are overwritten.
- The scans that push into a vector, the command loop and the event loop are
  `while` loops, proved against specification functions (`DecodeAll`,
  `MessagesPage`, `FirstWithContact`, `Emitted`).

## Model

| member | source | states |
|---|---|---|
| Primitives.Seal | core/src/crypto.rs:98-100 | AES-GCM encryption fails exactly when the plaintext is longer than section 5.2.1.1 of NIST SP 800-38D allows |
| Primitives.Expand | core/src/crypto.rs:247-249 | HKDF expand succeeds exactly when the output length is at most 255·HashLen (section 2.3 of RFC 5869), and then has that length |
| Primitives.LawsSatisfiable | core/src/crypto.rs:98-100 | some suite of primitives satisfies every law the model assumes |
| Crypto.PasswordKey | core/src/crypto.rs:83-93 | the derived key is the first 32 bytes of the Argon2id hash; with a conforming suite it is always produced |
| Crypto.FromPassword | core/src/crypto.rs:78-108 | the stored record carries the salt and nonce drawn, and the returned key is the drawn master key; with a conforming suite it never fails |
| Crypto.Unlock | core/src/crypto.rs:111-135 | a success means the stored ciphertext is the sealing of the returned key under the password-derived key, so a wrong password cannot yield a different key |
| Crypto.MasterKeyRoundTrip | core/src/crypto.rs:365-371 | unlocking a fresh record with the same password returns the master key it was made for |
| Crypto.GenerateIdentity | core/src/crypto.rs:152-160 | the verifying key belongs to the generated signing key |
| Crypto.Verify | core/src/crypto.rs:168-171 | succeeds exactly when strict Ed25519 verification accepts |
| Crypto.SignThenVerify | core/src/crypto.rs:408-417 | a signature made with an identity verifies under its public key |
| Crypto.EncryptIdentity | core/src/crypto.rs:174-188 | the public key stays in clear with the nonce, the secret key is sealed under the master key, and encryption cannot fail |
| Crypto.DecryptIdentity | core/src/crypto.rs:191-207 | the public key is recomputed from the decrypted secret, so any result is a matching key pair; a success means the stored ciphertext seals that secret |
| Crypto.IdentityRoundTrip | core/src/crypto.rs:375-387 | decrypting an encrypted identity under the same master key returns the same key pair, hence the same public key |
| Crypto.GenerateMessageKeys | core/src/crypto.rs:218-226 | the public key is the X25519 public key of the secret |
| Crypto.MessageKey | core/src/crypto.rs:243-249 | the HKDF step over dh1‖dh2 with label "SecureChat-v1" never fails and yields a 32-byte AES key |
| Crypto.KeyAgreement | core/src/crypto.rs:239-249 | sender (static×static, ephemeral×static) and recipient (static×static, static×ephemeral) derive the same key |
| Crypto.EncryptMessage | core/src/crypto.rs:229-264 | fails only on an over-long message; the result carries the sender's and the ephemeral public keys and the nonce, and seals the message under the sender's derived key |
| Crypto.DecryptMessage | core/src/crypto.rs:267-295 | a success means the ciphertext is the sealing of the result under the recipient's derived key and the carried nonce, so a tampered message or wrong key never yields other plaintext |
| Crypto.MessageRoundTrip | core/src/crypto.rs:390-405 | what a sender encrypts for a recipient's public key, the recipient decrypts to the same bytes |
| Crypto.RatchetKeys | core/src/crypto.rs:313-324 | the three ratchet expansions from one root key never fail and each yields 32 bytes |
| Crypto.DoubleRatchet.Initialize | core/src/crypto.rs:300-309 | root key is the shared secret, no chain keys, both counters zero, nothing skipped |
| Crypto.DoubleRatchet.Ratchet | core/src/crypto.rs:312-334 | succeeds exactly when the three expansions of the old root key succeed; then root and chain keys are those expansions and both counters are zero; on failure nothing changes; the skipped list never changes; the remote key plays no part |
| Protocol.GenerateId | core/src/protocol.rs:171-176 | an id is 24 Base64 characters and decodes back to the random bytes it was made from |
| Protocol.NewContact | core/src/protocol.rs:179-189 | copies id, name and key; not verified, not blocked, never seen |
| Protocol.Fingerprint | core/src/protocol.rs:191-194 | 32 lowercase hex digits, the hex of the first 16 bytes of the BLAKE3 digest of the public key alone |
| Protocol.PreviewText | core/src/protocol.rs:198-223 | a text of at most 100 bytes is shown whole; a longer one is its first 100 bytes plus "..."; it panics exactly when no prefix is 100 bytes long; the fixed labels of the other kinds |
| Protocol.TextPreviewBound | core/src/protocol.rs:200-206 | a text preview is at most 103 bytes |
| Protocol.PreviewTextPanics | core/src/protocol.rs:202-203 | a 101-byte text whose byte 100 falls inside a character makes the preview panic |
| Protocol.PreviewTextCorrected | core/src/protocol.rs:198-223 | the preview cut at the last character boundary not after byte 100: a prefix of at most 100 bytes, maximal, plus "..."; other kinds as the code gives them |
| Protocol.PreviewTextCorrectedAgrees | core/src/protocol.rs:198-223 | wherever the code does not panic, the corrected preview equals the code's |
| Protocol.NewConversation | core/src/protocol.rs:227-240 | created and updated at the same instant, no preview, nothing unread, not archived or pinned, no ratchet state |
| Protocol.SerializeEnvelope | core/src/protocol.rs:244-252 | with a round-tripping codec, serialising then deserialising an envelope gives it back |
| Protocol.DeserializeEnvelope | core/src/protocol.rs:249-252 | failures carry the "Failed to deserialize message envelope" context |
| Storage.PrefixesExclusive | core/src/storage.rs:16-23 | no key starts with two different record prefixes |
| Storage.MessagePrefixSelects | core/src/storage.rs:245-256 | among equally long conversation ids, a conversation's message prefix selects exactly that conversation's message keys |
| Storage.Encrypt | core/src/storage.rs:123-148 | the stored frame is salt(16) ‖ nonce(12) ‖ ciphertext, so 28 + the ciphertext length; fails only on an over-long input |
| Storage.Decrypt | core/src/storage.rs:150-172 | input shorter than 28 bytes is rejected before the cipher; a success means bytes 28.. seal the result under the nonce at 16..28 |
| Storage.FrameRoundTrip | core/src/storage.rs:123-172 | decrypting an encrypted frame under the same master key gives the data back |
| Storage.DecryptIgnoresSalt | core/src/storage.rs:156-165 | the salt bytes play no part in decryption |
| Storage.EncodeValue | core/src/storage.rs:89-95 | a record's stored bytes are produced exactly when its serialization fits the cipher |
| Storage.DecodeValue | core/src/storage.rs:102-108 | a stored value shorter than a frame header is rejected as invalid |
| Storage.ValueRoundTrip | core/src/storage.rs:89-114 | decoding the stored bytes of a value gives the value back |
| Storage.Read | core/src/storage.rs:102-114 | an absent key reads as `Ok(None)` and only an absent key does |
| Storage.ReadAfterWrite | core/src/storage.rs:89-114 | `get(k)` after `put(k, v)` returns `Some(v)` |
| Storage.ReadAfterDelete | core/src/storage.rs:102-121 | `get(k)` after `delete(k)` returns `None` |
| Storage.ReadSameEntry | core/src/storage.rs:101-112 | a read depends only on the entry at its key |
| Storage.DecodeAll | core/src/storage.rs:193-203 | a successful scan decodes every entry, one value per entry in order |
| Storage.DecodeAllPrefixErr | core/src/storage.rs:195-200 | once a prefix of the entries fails, the scan fails with that error |
| Storage.DecodeAllStep | core/src/storage.rs:195-201 | one more entry extends the scan exactly when it decodes, and otherwise the scan returns its error |
| Storage.MessagesPage | core/src/storage.rs:254-272 | fails exactly when decoding the first min(`limit`, n) entries under the conversation's prefix (in key order) fails, with that error; otherwise a permutation of those decoded messages, sorted ascending by timestamp |
| Storage.Position | core/src/storage.rs:288 | the index of the first message with the id, or none |
| Storage.WindowBefore | core/src/storage.rs:288-295 | with the anchor at pos, exactly positions [pos - min(pos, limit), pos), never the anchor; without it, the last min(n, limit) messages |
| Storage.AllConversations | core/src/storage.rs:228-242 | fails exactly when decoding the "cv:" scan fails, with that error; otherwise a permutation of every decoded conversation record, sorted by `updated_at` descending |
| Storage.FirstWithContact | core/src/storage.rs:219-226 | the first conversation in order whose contact matches, or none exactly when no conversation matches |
| Storage.ReadSetting | core/src/storage.rs:323-335 | an absent setting reads as `None`; a read value is the stored bytes decoded as UTF-8 |
| Storage.SettingRoundTrip | core/src/storage.rs:315-335 | `get_setting` after `set_setting` returns the value |
| Storage.OpenOutcome | core/src/storage.rs:27-51 | only an explicit master key opens the tree; with none, a tree without a master-key record fails with "New database needs master key generation", one whose record deserializes fails with "Database exists but needs unlock", and one whose record does not fails with "Failed to deserialize master key" |
| Storage.CreateOutcome | core/src/storage.rs:53-69 | creation stores the serialized master-key record under "mk:" and changes no other key; it fails exactly when `MasterKey::from_password` does, under "Failed to generate master key" (a panic stays a panic), which never happens with a conforming suite |
| Storage.UnlockOutcome | core/src/storage.rs:71-87 | a missing record gives "No master key found", an unreadable one "Failed to deserialize master key"; otherwise the outcome of `MasterKey::unlock`, its failure reported as "Failed to unlock database - wrong password?" and a panic passed through |
| Storage.CreateThenUnlock | core/src/storage.rs:53-87 | a tree created with a password unlocks with it to the same master key |
| Storage.UnlockReadsRecord | core/src/storage.rs:71-87 | unlocking reads only the "mk:" record: trees that agree on it unlock alike |
| Storage.SecureStorage.Open | core/src/storage.rs:27-51 | opens exactly when `OpenOutcome` succeeds, over the existing tree, with its key |
| Storage.SecureStorage.Create | core/src/storage.rs:53-69 | a new store over the tree `CreateOutcome` gives, or its error |
| Storage.SecureStorage.Unlock | core/src/storage.rs:71-87 | a new store over the existing tree with the unlocked key exactly when `UnlockOutcome` succeeds, otherwise its error (a panic in unlocking stays a panic) |
| Storage.SecureStorage.Put | core/src/storage.rs:89-100 | inserts the encoded value at the key, or fails leaving the tree unchanged; the value reads back; every other key keeps its value |
| Storage.SecureStorage.Delete | core/src/storage.rs:116-121 | the key is absent afterwards and every other key keeps its value |
| Storage.SecureStorage.LoadAll | core/src/storage.rs:193-203 | the decrypt-and-deserialize loop returns `DecodeAll` of the scanned entries, so its first error |
| Storage.SecureStorage.StoreIdentity | core/src/storage.rs:175-177 | puts the identity at "id:self"; it reads back and nothing else changes |
| Storage.SecureStorage.StoreContact | core/src/storage.rs:185-187 | puts the contact at "ct:" + id; it reads back and nothing else changes |
| Storage.SecureStorage.GetAllContacts | core/src/storage.rs:193-203 | every record under "ct:" decoded in key order, or the first error |
| Storage.SecureStorage.DeleteContact | core/src/storage.rs:205-207 | removes "ct:" + id; the contact then reads as absent |
| Storage.SecureStorage.StoreConversation | core/src/storage.rs:211-213 | puts the conversation at "cv:" + id; it reads back and nothing else changes |
| Storage.SecureStorage.GetAllConversations | core/src/storage.rs:228-242 | the loop's result is `AllConversations` of the tree: the first decoding error, or every conversation record newest first |
| Storage.SecureStorage.GetConversationByContact | core/src/storage.rs:219-226 | the first match in newest-first order, none, or the listing error |
| Storage.SecureStorage.StoreMessage | core/src/storage.rs:244-247 | puts the message at "msg:" + conversation + "/" + id; it reads back and nothing else changes |
| Storage.SecureStorage.GetMessages | core/src/storage.rs:254-272 | the loop that breaks at `limit` returns `MessagesPage`: the first decoding error among the first `limit` entries, or those messages sorted by timestamp |
| Storage.SecureStorage.GetMessagesBefore | core/src/storage.rs:274-296 | all of the conversation's messages sorted by timestamp, then `WindowBefore`; or the first decoding error |
| Storage.SecureStorage.DeleteMessage | core/src/storage.rs:298-301 | removes the message's key |
| Storage.SecureStorage.StoreProfile | core/src/storage.rs:305-307 | puts the profile at "pf:self"; it reads back and nothing else changes |
| Storage.SecureStorage.SetSetting | core/src/storage.rs:315-321 | stores the value's UTF-8 bytes unencrypted at "st:" + key; it reads back |
| Storage.SecureStorage.StoreDevice | core/src/storage.rs:337-339 | puts the device at "dv:" + id; it reads back and nothing else changes |
| Storage.SecureStorage.GetAllDevices | core/src/storage.rs:345-356 | every record under "dv:" decoded in key order, or the first error |
| Network.DefaultConfig | core/src/network.rs:52-63 | TCP and QUIC listen addresses, no bootstrap peers, mDNS on, topic "securechat-v1" |
| Network.HandleCommand | core/src/network.rs:248-288 | asks to stop exactly on `Shutdown`; fails exactly when a `ConnectPeer` address does not parse (the parser's error, as it is) or cannot be dialled ("Failed to dial peer") |
| Network.RunCommands | core/src/network.rs:183-197 | handles commands in order and ends after the first `Shutdown` or when the commands run out, with no failing command before that point; or it returns the error of the first failing command, every earlier one having returned `Ok(false)` |
| Network.PeerManager.constructor | core/src/network.rs:311-315 | the table starts empty |
| Network.PeerManager.AddPeer | core/src/network.rs:317-319 | the peer is filed under its id, replacing any entry with that id; every other entry is unchanged |
| Network.PeerManager.GetPeer | core/src/network.rs:321-323 | found exactly when the id is known, and the entry has that id |
| Network.PeerManager.UpdateLastSeen | core/src/network.rs:325-329 | an unknown id changes nothing; a known one changes only that peer's `last_seen` |
| Network.PeerManager.GetTrustedPeers | core/src/network.rs:331-333 | exactly the stored peers that are trusted, each once |
| Network.QrKeyLength | core/src/network.rs:347-353 | the key part of a contact QR is 44 characters |
| Network.GenerateContactQr | core/src/network.rs:347-353 | the fixed prefix, a 44-character key part that the standard decoder reads back as the key, "&name=", then the name unescaped |
| Network.QrKeyCanonical | core/src/network.rs:347-353 | the key part is exactly the standard Base64 encoding of the key, since no other string decodes to it |
| Network.ParseContactQr | core/src/network.rs:356-360 | every input is rejected with "QR parsing not implemented" |
| Chat.HandleProtocolMessage | core/src/lib.rs:208-219 | yields an event exactly for a contact request: `ContactRequestReceived` attributed to the peer |
| Chat.TranslateEvent | core/src/lib.rs:188-200 | peer connected ⇔ `ContactOnline`; peer disconnected ⇔ `ContactOffline`; contact request ⇔ `ContactRequestReceived`, all with the peer's id; nothing else is emitted |
| Chat.Emitted | core/src/lib.rs:183-206 | at most one UI event per received network event; which events, and in what order, is stated by `EmittedAppend`, `EmittedContains` and `EmittedPresence` |
| Chat.EmittedAppend | core/src/lib.rs:187-205 | the events of two batches received in sequence are the events of each, in order |
| Chat.EmittedContains | core/src/lib.rs:187-205 | an event is emitted exactly when some received network event translates to it |
| Chat.EmittedPresence | core/src/lib.rs:193-198 | `ContactOnline(id)` / `ContactOffline(id)` is emitted exactly when `PeerConnected(id)` / `PeerDisconnected(id)` was received |
| Chat.RunEventLoop | core/src/lib.rs:183-206 | the while loop forwards exactly `Emitted` of the received events |
| Chat.BackupLayout | core/src/lib.rs:370-376 | the backup is 4 + L + 12 + ciphertext bytes long |
| Chat.SplitBackup | core/src/lib.rs:370-376 | a backup splits only into the parts it was laid out from |
| Chat.SplitLayout | core/src/lib.rs:370-376 | a backup laid out from a key store shorter than 2^32 splits back into its three parts |
| Chat.EncryptBackup | core/src/lib.rs:355-378 | succeeds exactly when the JSON fits the cipher; the result is the big-endian key-store length, the serialized key store, the nonce and the JSON sealed under the fresh backup key |
| Chat.OpenBackup | core/src/lib.rs:355-376 | opening only succeeds on bytes that split as a backup |
| Chat.BackupRoundTrip | core/src/lib.rs:337-378 | a backup opened with its password yields the JSON it was made from |
| Wrappers.Context | core/src/lib.rs:73-74 | an error context replaces a failure's message and leaves a panic as it is |
| Chat.OutgoingText | core/src/lib.rs:235-249 | an outgoing text from "self", at the given time, not sent, delivered or read, replying to nothing |
| Chat.MergeProfile | core/src/lib.rs:305-326 | only the given fields change, the status becomes `Some`, avatar and creation time are kept, and a missing profile starts as "Anonymous" with no status |
| Chat.MergeNothing | core/src/lib.rs:305-326 | updating no field leaves a stored profile as it is |
| Chat.MergeIdempotent | core/src/lib.rs:305-326 | applying the same update twice equals applying it once |
| Chat.OneContactOneConversation | core/src/lib.rs:440-459 | from a tree with no contacts or conversations, storing one contact and one conversation leaves exactly that conversation and that contact |
| Chat.SecureChat.New | core/src/lib.rs:53-63 | the given device id or a generated one; no store, identity, keys, network or profile |
| Chat.SecureChat.CreateAccount | core/src/lib.rs:66-113 | the command channel is untouched; fails with "Failed to create database" leaving the object unchanged, or installs the new store, in which every key other than the master-key and the three account records keeps its value from the tree at the path; it then succeeds exactly when the identity, profile and device records all fit the cipher, and each field is set exactly when its record was stored; on success the tree unlocks with the password to the master key, and identity, profile and device read back |
| Chat.SecureChat.StoreAccountRecords | core/src/lib.rs:85-110 | stores identity, profile and device in order, stopping at the first that does not fit; identity and message keys are set exactly when the identity was stored, the profile exactly when it was; the "mk:" record and every key other than the three records keep their values, a record that was not stored keeps its old value, the command channel is untouched, and on success every record reads back |
| Chat.SecureChat.UnlockAccount | core/src/lib.rs:116-148 | the command channel is untouched; each error context of the code in order, the account fields untouched before decryption succeeds; it succeeds exactly when unlocking, reading and decrypting the identity and reading the profile all succeed; then the identity is the decrypted stored one and the profile the stored one |
| Chat.SecureChat.StartNetwork | core/src/lib.rs:151-173 | a setup failure is reported with its context; otherwise the command channel opens empty; account fields are untouched |
| Chat.SecureChat.StopNetwork | core/src/lib.rs:176-181 | sends `Shutdown` if the channel is open and always succeeds |
| Chat.SecureChat.SendTextMessage | core/src/lib.rs:222-256 | fails if the conversation or its contact is missing or unreadable, leaving the tree unchanged; when both are found it succeeds exactly when the message fits the cipher, storing exactly one outgoing text message under the conversation and returning its id, and the message reads back |
| Chat.SecureChat.GetOrCreateConversation | core/src/lib.rs:269-279 | returns the first matching conversation without storing anything; otherwise stores exactly one new conversation for the contact, which reads back |
| Chat.SecureChat.AddContact | core/src/lib.rs:282-292 | stores exactly one new contact with a generated id and returns it; it reads back |
| Chat.SecureChat.UpdateProfile | core/src/lib.rs:305-326 | with a readable profile it succeeds exactly when `MergeProfile` of it fits the cipher, and then the in-memory and stored profile become that; any failure leaves tree and in-memory profile unchanged |
| Chat.SecureChat.GetPublicKey | core/src/lib.rs:329-334 | "Not authenticated" exactly when no identity is loaded, else its public key |
| Chat.SecureChat.ExportBackup | core/src/lib.rs:337-378 | the first failure among contacts, conversations and profile, else `EncryptBackup` of their JSON |
| Chat.AccountKeysDistinct | core/src/lib.rs:66-113 | the identity, profile and device keys differ from each other and from "mk:", so the records of account creation survive each later store |
| Chat.CreateAndUnlock | core/src/lib.rs:423-432 | an account created on one object unlocks on a second with the same password, which then holds the generated identity |
| Sled.GetInsert | core/src/storage.rs:89-100 | after an insert, the key reads as the new value and every other key as before |
| Sled.GetRemove | core/src/storage.rs:116-121 | after a remove, the key is absent and every other key reads as before |
| Sled.InsertSorted | core/src/storage.rs:89-100 | inserting keeps the tree's keys strictly increasing |
| Sled.RemoveSorted | core/src/storage.rs:116-121 | removing keeps the tree's keys strictly increasing |
| Sled.ScanPrefix | core/src/storage.rs:193-203 | a scan holds exactly the entries whose key starts with the prefix, in tree order |
| Sled.ScanPrefixSorted | core/src/storage.rs:193-203 | a scan of a sorted tree is sorted |
| Sorting.SortBy | core/src/storage.rs:268-269 | `sort_by` returns a permutation of its input, sorted by the key |
| Sorting.InsertByPermutes | core/src/storage.rs:268-269 | one insertion step adds exactly the inserted element |
| Sorting.SortByStable | core/src/storage.rs:238-239 | `sort_by` is stable: the elements with any one key keep their input order |
| Base64.DecodeEncode | core/src/network.rs:347-353 | standard Base64 decodes back to the encoded bytes |
| Base64.EncodeDecode | core/src/network.rs:347-353 | the decoder accepts only canonical encodings (the padding bits of the last digit must be zero), so a string that decodes is the encoding of its bytes |
| Base64.EncodeLength | core/src/protocol.rs:171-176 | the encoding of n bytes is 4·⌈n/3⌉ characters |
| Hex.EncodePrefix | core/src/protocol.rs:191-194 | the first 2k hex digits of a digest are the hex of its first k bytes |
| Hex.EncodeDigits | core/src/protocol.rs:191-194 | the hex string holds only lowercase hex digits |
| Utf8.DecodeEncode | core/src/storage.rs:323-333 | `String::from_utf8` of a string's bytes gives the string back |
| Utf8.DecodeInjective | core/src/storage.rs:323-333 | bytes that decode as UTF-8 are the encoding of what they decode to |
| Utf8.BoundaryPrefix | core/src/protocol.rs:202-203 | a prefix found is exactly n bytes long |
| Utf8.BoundaryPrefixNone | core/src/protocol.rs:202-203 | a miss means no prefix is exactly n bytes long, which is when the slice panics |
| Utf8.FloorPrefix | core/src/protocol.rs:202-203 | the longest prefix of at most n bytes |
| Utf8.FloorPrefixAgrees | core/src/protocol.rs:202-203 | where byte n is a boundary, the longest prefix of at most n bytes is the n-byte one |
| Bytes.BigEndianRoundTrip | core/src/lib.rs:372 | `u32::to_be_bytes` is inverted by reading big-endian |
| Bytes.BigEndianInjective | core/src/lib.rs:372 | any four bytes are the big-endian form of what they read as |
| Bytes.TruncateU32 | core/src/lib.rs:372 | `as u32` keeps a value below 2^32 and otherwise drops a multiple of 2^32 |
| Serde.Serialize | core/src/storage.rs:90-91 | with a round-tripping codec, a serialized value deserializes back |
| Serde.Deserialize | core/src/storage.rs:105-107 | succeeds exactly when the codec reads the bytes, else fails with the given context |

## Findings

| source | as written | input that shows it | evidently intended | confidence | as-written member | corrected member |
|---|---|---|---|---|---|---|
| core/src/protocol.rs:202-203 | a text over 100 bytes is sliced at byte 100, which panics when byte 100 is not a character boundary | 99 × "a" followed by "é" (101 bytes; byte 100 is inside "é") | cut the text at the last character boundary not after byte 100, then append "..." | high; not executed | Protocol.PreviewTextPanics | Protocol.PreviewTextCorrected |

`Protocol.PreviewText` models the code as written. `Protocol.PreviewTextCorrectedAgrees`
shows the corrected preview differs from the code only where the code panics.

## Left out

- Disk and runtime: the sled files, paths, `flush` and `close`. A tree is the
  entry sequence found at the path, and `SecureChat::close` is `stop_network`
  followed by dropping the object.
- Concurrency: the async runtime, locks, spawned tasks and channels.
  `SecureChat` is a sequential object, and the command channel is a sequence
  of commands sent. `start_network` returns an event receiver; the model has
  no receiver and forwards events through `RunEventLoop`.
- The libp2p swarm: `NetworkManager::new`, the swarm part of `run`,
  `handle_swarm_event`, `local_peer_id` and `parse_multiaddr`. Parsing and
  dialling an address are two parameters of `HandleCommand`. The outcome of
  building the manager is a parameter of `StartNetwork`. The `network` field of
  `SecureChat` is not modelled.
- Protocol message effects: a `SendMessage` command is only serialized. Publish
  and disconnect failures are ignored by the code, and the model ignores them
  too.
- The wire formats of bincode, serde_json and Argon2's PHC salt encoding: each
  is a codec with a round-trip law. The argon2 errors "Failed to encode salt"
  and "Failed to hash password" cannot occur with a 32-byte salt and are not
  modelled. An Argon2 hash without output is likewise not modelled.
- `hash_password` and `verify_password` in `core/src/crypto.rs`: nothing in the
  core calls them.
- `generate_random_bytes` and the other random draws: the drawn bytes are
  parameters.
- `detect_platform`: the platform is a parameter of `CreateAccount`.
- Floating-point fields (location latitude, longitude, accuracy): kept as raw
  bits and never computed with.
- The thin delegations of `core/src/lib.rs` (`get_conversations`,
  `get_messages`, `get_contacts`, `get_profile`) are the store operations they
  call. The getters `get_identity`, `get_contact`, `get_conversation`,
  `get_message`, `get_profile` and `get_device` are `Storage.Read` at their
  keys and carry no contract of their own.
- Storage must be open for every `SecureChat` operation that uses it. The code
  creates the object with no store, and these operations could not compile
  against that, so the model requires a store rather than inventing an error.
- Chat.SecureChat.CreateAccount: when a store write after creation fails, the
  contract states which write failed and which fields were set. Through
  `StoreAccountRecords` it states that the failed record, the later ones and
  every other key keep their values. It does not state the error value, or
  the bytes of a record stored before the failure.
- Chat.SecureChat.CreateAccount: the "Failed to encrypt identity" context is
  not modelled. Encrypting a 32-byte secret cannot fail, and
  `Crypto.EncryptIdentity` proves it.
- Chat.CreateAndUnlock: the wrong-password half of the same test is not
  stated. With an abstract AEAD, a key derived from another password could
  open the stored record, so failure is not provable.
- Chat.ChatEvent: the text fields of `ContactRequestReceived` and `Error` are
  named `greeting` and `description`. Dafny gives a field name one type across
  a datatype.
- Chat.BackupLayout: the key-store length is written as `as u32`, which wraps
  above 2^32 bytes. `Chat.SplitLayout` and `Chat.BackupRoundTrip` require a key
  store below that size.
- Chat.OpenBackup: the code has no import of backups, so this inverse is the
  model's own and exists to state the round trip.
- Storage.MessagesPage: the limit applies in key order (random message ids), not
  to the newest messages, exactly as the code does.
- Storage.MessagePrefixSelects: message keys of conversations whose ids differ
  in length can share a scan prefix. The lemma covers generated ids, which are
  all 24 characters.
- Crypto.DoubleRatchet.Ratchet: requires a conforming suite, so that the three
  expansions are 32-byte keys.
- Crypto.Unlock and Crypto.DecryptMessage: a wrong password or key failing is
  stated as "a success is the sealing of the result". The model's AEAD is
  abstract, so it does not promise that two keys never seal alike.
- Per-message chain keys, the skipped-key cache, prekeys and envelope
  signatures: the code does not implement them, and they are not modelled.

=== FILE: base64.dfy ===
/** The standard Base64 encoding with `=` padding (section 4 of RFC 4648),
    as `base64::engine::general_purpose::STANDARD` produces it. */
module Base64 {
  import opened Wrappers
  import opened Bytes

  type Sextet = x: int | 0 <= x < 64

  /** The alphabet of table 1 of RFC 4648. */
  function Digit(v: Sextet): char
  {
    if v < 26 then ('A' as int + v) as char
    else if v < 52 then ('a' as int + (v - 26)) as char
    else if v < 62 then ('0' as int + (v - 52)) as char
    else if v == 62 then '+'
    else '/'
  }

  function ValueOf(c: char): (r: Option<Sextet>)
    ensures r.Some? ==> Digit(r.value) == c
  {
    if 'A' <= c <= 'Z' then Some(c as int - 'A' as int)
    else if 'a' <= c <= 'z' then Some(c as int - 'a' as int + 26)
    else if '0' <= c <= '9' then Some(c as int - '0' as int + 52)
    else if c == '+' then Some(62)
    else if c == '/' then Some(63)
    else None
  }

  lemma ValueOfDigit(v: Sextet)
    ensures ValueOf(Digit(v)) == Some(v)
  {
  }

  function Encode(b: seq<byte>): (s: string)
    decreases |b|
  {
    if |b| == 0 then []
    else if |b| == 1 then PaddedOne(b[0])
    else if |b| == 2 then PaddedTwo(b[0], b[1])
    else
      FullGroup(b[0], b[1], b[2]) + Encode(b[3..])
  }

  /** A final single byte: two digits, the second padded with zero bits,
      then two `=`. */
  function PaddedOne(b0: byte): (q: string)
    ensures |q| == 4
  {
    [Digit(b0 / 4), Digit((b0 % 4) * 16), '=', '=']
  }

  /** Two final bytes: three digits, the last padded with zero bits, then `=`. */
  function PaddedTwo(b0: byte, b1: byte): (q: string)
    ensures |q| == 4
  {
    [Digit(b0 / 4), Digit((b0 % 4) * 16 + b1 / 16), Digit((b1 % 16) * 4), '=']
  }

  /** The four digits of three bytes: 24 bits read as four sextets, most
      significant first. */
  function FullGroup(b0: byte, b1: byte, b2: byte): (q: string)
    ensures |q| == 4
  {
    [Digit(b0 / 4), Digit((b0 % 4) * 16 + b1 / 16), Digit((b1 % 16) * 4 + b2 / 64), Digit(b2 % 64)]
  }

  /** Decodes one group of four characters; `last` allows the padded forms.
      The bits of the last digit beyond the final byte must be zero, as the
      standard engine requires by default (it does not allow trailing bits). */
  function DecodeGroup(q: string, last: bool): Option<seq<byte>>
    requires |q| == 4
  {
    match (ValueOf(q[0]), ValueOf(q[1]), ValueOf(q[2]), ValueOf(q[3]))
    case (Some(v0), Some(v1), Some(v2), Some(v3)) =>
      Some([Hi(v0, v1), Mid(v1, v2), Lo(v2, v3)])
    case (Some(v0), Some(v1), Some(v2), None) =>
      if last && q[3] == '=' && v2 % 4 == 0 then Some([Hi(v0, v1), Mid(v1, v2)]) else None
    case (Some(v0), Some(v1), None, None) =>
      if last && q[2] == '=' && q[3] == '=' && v1 % 16 == 0 then Some([Hi(v0, v1)]) else None
    case _ => None
  }

  /** The three bytes that four sextets carry. */
  function Hi(v0: Sextet, v1: Sextet): byte { v0 * 4 + v1 / 16 }
  function Mid(v1: Sextet, v2: Sextet): byte { (v1 % 16) * 16 + v2 / 4 }
  function Lo(v2: Sextet, v3: Sextet): byte { (v2 % 4) * 64 + v3 }

  lemma SextetsOfBytes(b0: byte, b1: byte, b2: byte)
    ensures Hi(b0 / 4, (b0 % 4) * 16 + b1 / 16) == b0
    ensures Mid((b0 % 4) * 16 + b1 / 16, (b1 % 16) * 4 + b2 / 64) == b1
    ensures Lo((b1 % 16) * 4 + b2 / 64, b2 % 64) == b2
  {
    var v1 := (b0 % 4) * 16 + b1 / 16;
    assert v1 / 16 == b0 % 4 && v1 % 16 == b1 / 16;
    var v2 := (b1 % 16) * 4 + b2 / 64;
    assert v2 / 4 == b1 % 16 && v2 % 4 == b2 / 64;
  }

  /** The sextets that three decoded bytes carry, read back. */
  lemma BytesOfSextets(v0: Sextet, v1: Sextet, v2: Sextet, v3: Sextet)
    ensures Hi(v0, v1) / 4 == v0 && Hi(v0, v1) % 4 == v1 / 16
    ensures Mid(v1, v2) / 16 == v1 % 16 && Mid(v1, v2) % 16 == v2 / 4
    ensures Lo(v2, v3) / 64 == v2 % 4 && Lo(v2, v3) % 64 == v3
  {
  }

  /** A group that decodes is the encoding of its bytes: a full group
      anywhere, a padded one only last. */
  lemma DecodeGroupCanonical(q: string, last: bool, g: seq<byte>)
    requires |q| == 4 && DecodeGroup(q, last) == Some(g)
    ensures 1 <= |g| <= 3 && (!last ==> |g| == 3)
    ensures |g| == 3 ==> q == FullGroup(g[0], g[1], g[2])
    ensures |g| == 2 ==> q == PaddedTwo(g[0], g[1])
    ensures |g| == 1 ==> q == PaddedOne(g[0])
  {
    match (ValueOf(q[0]), ValueOf(q[1]), ValueOf(q[2]), ValueOf(q[3]))
    case (Some(v0), Some(v1), Some(v2), Some(v3)) =>
      BytesOfSextets(v0, v1, v2, v3);
      assert q == [Digit(v0), Digit(v1), Digit(v2), Digit(v3)];
    case (Some(v0), Some(v1), Some(v2), None) =>
      BytesOfSextets(v0, v1, v2, 0);
      assert q == [Digit(v0), Digit(v1), Digit(v2), '='];
    case (Some(v0), Some(v1), None, None) =>
      BytesOfSextets(v0, v1, 0, 0);
      assert q == [Digit(v0), Digit(v1), '=', '='];
  }

  function Decode(s: string): Option<seq<byte>>
    decreases |s|
  {
    if s == [] then Some([])
    else if |s| < 4 then None
    else match DecodeGroup(s[..4], |s| == 4)
      case None => None
      case Some(g) =>
        match Decode(s[4..])
        case None => None
        case Some(rest) => Some(g + rest)
  }

  /** The encoding is 4 characters per started group of 3 bytes: 44
      characters for a 32-byte key. */
  lemma {:induction false} EncodeLength(b: seq<byte>)
    ensures |Encode(b)| == 4 * ((|b| + 2) / 3)
  {
    if |b| >= 3 {
      EncodeLength(b[3..]);
      var n := |b|;
      assert (n + 2) / 3 == (n - 3 + 2) / 3 + 1;
      assert |Encode(b)| == 4 + |Encode(b[3..])|;
    }
  }

  lemma DecodeFullGroup(b0: byte, b1: byte, b2: byte)
    ensures var q := FullGroup(b0, b1, b2);
            DecodeGroup(q, false) == Some([b0, b1, b2]) && DecodeGroup(q, true) == Some([b0, b1, b2])
  {
    ValueOfDigit(b0 / 4);
    ValueOfDigit((b0 % 4) * 16 + b1 / 16);
    ValueOfDigit((b1 % 16) * 4 + b2 / 64);
    ValueOfDigit(b2 % 64);
    SextetsOfBytes(b0, b1, b2);
  }

  /** A single group is decoded as the last group. */
  lemma DecodeLastGroup(q: string, g: seq<byte>)
    requires |q| == 4 && DecodeGroup(q, true) == Some(g)
    ensures Decode(q) == Some(g)
  {
    assert q[..4] == q && q[4..] == [];
    assert g + [] == g;
  }

  lemma DecodePaddedOne(b0: byte)
    ensures DecodeGroup(PaddedOne(b0), true) == Some([b0])
  {
    ValueOfDigit(b0 / 4);
    var v1 := (b0 % 4) * 16;
    assert v1 % 16 == 0;
    ValueOfDigit(v1);
    SextetsOfBytes(b0, 0, 0);
  }

  lemma DecodeEncodeOne(b: seq<byte>)
    requires |b| == 1
    ensures Decode(Encode(b)) == Some(b)
  {
    assert Encode(b) == PaddedOne(b[0]);
    DecodePaddedOne(b[0]);
    DecodeLastGroup(PaddedOne(b[0]), [b[0]]);
    assert [b[0]] == b;
  }

  lemma DecodePaddedTwo(b0: byte, b1: byte)
    ensures DecodeGroup(PaddedTwo(b0, b1), true) == Some([b0, b1])
  {
    ValueOfDigit(b0 / 4);
    ValueOfDigit((b0 % 4) * 16 + b1 / 16);
    var v2 := (b1 % 16) * 4;
    assert v2 % 4 == 0;
    ValueOfDigit(v2);
    SextetsOfBytes(b0, b1, 0);
  }

  lemma DecodeEncodeTwo(b: seq<byte>)
    requires |b| == 2
    ensures Decode(Encode(b)) == Some(b)
  {
    assert Encode(b) == PaddedTwo(b[0], b[1]);
    DecodePaddedTwo(b[0], b[1]);
    DecodeLastGroup(PaddedTwo(b[0], b[1]), [b[0], b[1]]);
    assert [b[0], b[1]] == b;
  }

  /** Decoding an encoding gives the bytes back. */
  lemma {:induction false} DecodeEncode(b: seq<byte>)
    ensures Decode(Encode(b)) == Some(b)
  {
    if |b| == 1 {
      DecodeEncodeOne(b);
    } else if |b| == 2 {
      DecodeEncodeTwo(b);
    } else if |b| >= 3 {
      DecodeEncode(b[3..]);
      DecodeEncodeGroup(b, Encode(b[3..]));
    }
  }

  /** Only canonical encodings decode: a string that decodes is the
      encoding of its bytes, so no two strings decode to the same bytes. */
  lemma {:induction false} EncodeDecode(s: string, b: seq<byte>)
    requires Decode(s) == Some(b)
    ensures Encode(b) == s
    decreases |s|
  {
    if s != [] {
      var g := DecodeGroup(s[..4], |s| == 4).value;
      var rest := Decode(s[4..]).value;
      assert b == g + rest;
      DecodeGroupCanonical(s[..4], |s| == 4, g);
      if |s| == 4 {
        assert s[4..] == [] && rest == [] && b == g;
        if |g| == 3 {
          assert Encode(b) == FullGroup(b[0], b[1], b[2]) + Encode(b[3..]);
          assert b[3..] == [];
        }
        assert s == s[..4];
      } else {
        EncodeDecode(s[4..], rest);
        assert b[..3] == g && b[3..] == rest;
        assert Encode(b) == FullGroup(b[0], b[1], b[2]) + Encode(b[3..]);
        assert s == s[..4] + s[4..];
      }
    }
  }

  /** The inductive step: a full group of three bytes in front of a tail
      that round-trips. */
  lemma DecodeEncodeGroup(b: seq<byte>, rest: string)
    requires |b| >= 3 && rest == Encode(b[3..]) && Decode(rest) == Some(b[3..])
    ensures Decode(Encode(b)) == Some(b)
  {
    var q := FullGroup(b[0], b[1], b[2]);
    assert Encode(b) == q + rest;
    DecodeFullGroup(b[0], b[1], b[2]);
    DecodeCons(q, rest, [b[0], b[1], b[2]], b[3..]);
    assert b == [b[0], b[1], b[2]] + b[3..];
  }

  /** A decodable group followed by a decodable remainder decodes to the
      concatenation. */
  lemma DecodeCons(q: string, rest: string, g: seq<byte>, r: seq<byte>)
    requires |q| == 4 && DecodeGroup(q, rest == []) == Some(g) && Decode(rest) == Some(r)
    ensures Decode(q + rest) == Some(g + r)
  {
    var s := q + rest;
    assert s[..4] == q && s[4..] == rest;
  }

  /** Every character of an encoding is an alphabet digit or padding: in
      particular never `&`, `?` or `#`. */
  lemma {:induction false} EncodeAlphabet(b: seq<byte>)
    ensures forall i :: 0 <= i < |Encode(b)| ==> ValueOf(Encode(b)[i]).Some? || Encode(b)[i] == '='
  {
    if |b| >= 3 {
      EncodeAlphabet(b[3..]);
      var s := Encode(b);
      forall i | 0 <= i < |s| ensures ValueOf(s[i]).Some? || s[i] == '=' {
        if i < 4 {
          ValueOfDigit(if i == 0 then b[0] / 4 else if i == 1 then (b[0] % 4) * 16 + b[1] / 16
                       else if i == 2 then (b[1] % 16) * 4 + b[2] / 64 else b[2] % 64);
        } else {
          assert s[i] == Encode(b[3..])[i - 4];
        }
      }
    } else if |b| == 1 {
      ValueOfDigit(b[0] / 4);
      ValueOfDigit((b[0] % 4) * 16);
    } else if |b| == 2 {
      ValueOfDigit(b[0] / 4);
      ValueOfDigit((b[0] % 4) * 16 + b[1] / 16);
      ValueOfDigit((b[1] % 16) * 4);
    }
  }
}

=== FILE: bytes.dfy ===
/** Machine-level byte and integer types, and the big-endian `u32` layout. */
module Bytes {

  type byte = x: int | 0 <= x < 0x100

  type u32 = x: int | 0 <= x < 0x1_0000_0000

  /** Fixed-size byte arrays (`[u8; N]`). */
  type Bytes32 = s: seq<byte> | |s| == 32 witness Zeros(32)
  type Bytes16 = s: seq<byte> | |s| == 16 witness Zeros(16)
  type Bytes12 = s: seq<byte> | |s| == 12 witness Zeros(12)

  function Zeros(n: nat): (z: seq<byte>)
    ensures |z| == n && forall i :: 0 <= i < n ==> z[i] == 0
  {
    seq(n, _ => 0)
  }

  /** `n as u32`: Rust's truncating cast from `usize`. */
  function TruncateU32(n: nat): (r: u32)
    ensures n < 0x1_0000_0000 ==> r == n
    ensures (n - r) % 0x1_0000_0000 == 0
  {
    n % 0x1_0000_0000
  }

  /** `u32::to_be_bytes`: base-256 digits, most significant first. */
  function U32ToBigEndian(x: u32): (b: seq<byte>)
    ensures |b| == 4
  {
    var x1 := x / 0x100;
    var x2 := x1 / 0x100;
    [x2 / 0x100, x2 % 0x100, x1 % 0x100, x % 0x100]
  }

  /** `u32::from_be_bytes`. */
  function BigEndianToU32(b: seq<byte>): (x: u32)
    requires |b| == 4
  {
    (b[0] as int) * 0x100_0000 + (b[1] as int) * 0x1_0000 + (b[2] as int) * 0x100 + b[3] as int
  }

  lemma BigEndianRoundTrip(x: u32)
    ensures BigEndianToU32(U32ToBigEndian(x)) == x
  {
    var x1 := x / 0x100;
    var x2 := x1 / 0x100;
    assert x == x1 * 0x100 + x % 0x100 && x1 == x2 * 0x100 + x1 % 0x100;
    assert x2 == (x2 / 0x100) * 0x100 + x2 % 0x100;
  }

  lemma BigEndianInjective(b: seq<byte>)
    requires |b| == 4
    ensures U32ToBigEndian(BigEndianToU32(b)) == b
  {
    var x2 := (b[0] as int) * 0x100 + b[1] as int;
    var x1 := x2 * 0x100 + b[2] as int;
    assert BigEndianToU32(b) == x1 * 0x100 + b[3] as int;
    SplitDigit(x1, b[3] as int, 0x100);
    SplitDigit(x2, b[2] as int, 0x100);
    SplitDigit(b[0] as int, b[1] as int, 0x100);
  }

  /** Division by `m` splits `hi * m + lo` back into its digits. */
  lemma SplitDigit(hi: nat, lo: nat, m: nat)
    requires 0 < m && lo < m
    ensures (hi * m + lo) / m == hi && (hi * m + lo) % m == lo
  {
    var n := hi * m + lo;
    var q, r := n / m, n % m;
    assert n == q * m + r && 0 <= r < m;
    assert (hi - q) * m == r - lo;
    if hi > q {
      AtLeastOnce(hi - q, m);
    } else if hi < q {
      AtLeastOnce(q - hi, m);
    }
  }

  lemma AtLeastOnce(d: nat, m: nat)
    requires d >= 1
    ensures d * m >= m
  {
    var e := d - 1;
    assert d * m == e * m + m;
  }
}

=== FILE: chat.dfy ===
/** The application facade of `core/src/lib.rs`: the `SecureChat` object
    over the encrypted store, the translation of network events into UI
    events, and the layout of the encrypted backup. */
module Chat {
  import opened Wrappers
  import opened Bytes
  import opened Primitives
  import opened Crypto
  import opened Protocol
  import opened Storage
  import Network
  import Serde
  import Sled
  import Sorting

  // ===== Events =====

  /** Events for the UI. Two fields are renamed because Dafny gives a field
      name one type across a datatype: the text of a contact request is
      `greeting`, the text of an error is `description`. */
  datatype ChatEvent =
    | MessageReceived(conversationId: string, message: LocalMessage)
    | MessageSent(conversationId: string, messageId: string)
    | MessageDelivered(conversationId: string, messageId: string)
    | MessageRead(conversationId: string, messageId: string)
    | ContactOnline(contactId: string)
    | ContactOffline(contactId: string)
    | ContactRequestReceived(contactId: string, displayName: string, greeting: string)
    | SyncCompleted
    | Error(description: string)

  /** `handle_protocol_message`: only a contact request reaches the UI, and
      it is attributed to the peer it came from. */
  function HandleProtocolMessage(peerId: string, message: ProtocolMessage): (r: Option<ChatEvent>)
    ensures r.Some? <==> message.ContactRequest?
    ensures r.Some? ==> r.value == ContactRequestReceived(peerId, message.requesterName, message.message)
  {
    match message
    case ContactRequest(name, greeting, _) => Some(ContactRequestReceived(peerId, name, greeting))
    case _ => None
  }

  /** One turn of `network_event_loop`: the UI event a network event
      becomes, if any. Presence changes keep the peer id. */
  function TranslateEvent(event: Network.NetworkEvent): (r: Option<ChatEvent>)
    ensures r.Some? ==> r.value.ContactOnline? || r.value.ContactOffline? || r.value.ContactRequestReceived?
    ensures (r.Some? && r.value.ContactOnline?) <==> event.PeerConnected?
    ensures (r.Some? && r.value.ContactOffline?) <==> event.PeerDisconnected?
    ensures (r.Some? && r.value.ContactRequestReceived?) <==> event.MessageReceived? && event.message.ContactRequest?
    ensures r.Some? ==> r.value.contactId == event.peerId
  {
    match event
    case MessageReceived(peerId, message) => HandleProtocolMessage(peerId, message)
    case PeerConnected(peerId) => Some(ContactOnline(peerId))
    case PeerDisconnected(peerId) => Some(ContactOffline(peerId))
    case _ => None
  }

  function AsSeq(e: Option<ChatEvent>): seq<ChatEvent>
  {
    if e.Some? then [e.value] else []
  }

  /** Everything the loop sends to the UI for a stream of network events. */
  function Emitted(events: seq<Network.NetworkEvent>): (out: seq<ChatEvent>)
    ensures |out| <= |events|
  {
    if events == [] then []
    else Emitted(events[..|events| - 1]) + AsSeq(TranslateEvent(events[|events| - 1]))
  }

  /** The loop keeps the order of the stream: events emitted for a later
      part come after those for an earlier part. */
  lemma {:induction false} EmittedAppend(a: seq<Network.NetworkEvent>, b: seq<Network.NetworkEvent>)
    ensures Emitted(a + b) == Emitted(a) + Emitted(b)
    decreases |b|
  {
    if b != [] {
      var last := |b| - 1;
      assert (a + b)[..|a + b| - 1] == a + b[..last];
      EmittedAppend(a, b[..last]);
    } else {
      assert a + b == a;
    }
  }

  /** A UI event is emitted exactly when some network event translates to it. */
  lemma {:induction false} EmittedContains(events: seq<Network.NetworkEvent>, x: ChatEvent)
    ensures x in Emitted(events) <==> exists e :: e in events && TranslateEvent(e) == Some(x)
  {
    if events != [] {
      var init := events[..|events| - 1];
      var last := events[|events| - 1];
      EmittedContains(init, x);
      assert events == init + [last];
      if x in Emitted(events) && x !in Emitted(init) {
        assert TranslateEvent(last) == Some(x);
      }
      if e :| e in events && TranslateEvent(e) == Some(x) {
        if e != last {
          assert e in init;
        }
      }
    }
  }

  /** A contact is reported online exactly when the stream holds a
      connection of that peer, and offline exactly when it holds a
      disconnection. */
  lemma EmittedPresence(events: seq<Network.NetworkEvent>, id: string)
    ensures ContactOnline(id) in Emitted(events) <==> Network.PeerConnected(id) in events
    ensures ContactOffline(id) in Emitted(events) <==> Network.PeerDisconnected(id) in events
  {
    EmittedContains(events, ContactOnline(id));
    EmittedContains(events, ContactOffline(id));
    assert TranslateEvent(Network.PeerConnected(id)) == Some(ContactOnline(id));
    assert TranslateEvent(Network.PeerDisconnected(id)) == Some(ContactOffline(id));
  }

  /** `network_event_loop`: receives until the channel closes, forwarding
      every translated event. Send failures on the UI channel are ignored
      by the code, so every translated event counts as sent. */
  method RunEventLoop(events: seq<Network.NetworkEvent>) returns (sent: seq<ChatEvent>)
    ensures sent == Emitted(events)
  {
    sent := [];
    var i := 0;
    while i < |events|
      invariant 0 <= i <= |events|
      invariant sent == Emitted(events[..i])
    {
      var chatEvent := TranslateEvent(events[i]);
      assert events[..i + 1][..i] == events[..i];
      if chatEvent.Some? {
        sent := sent + [chatEvent.value];
      }
      i := i + 1;
    }
    assert events[..i] == events;
  }

  // ===== Backup =====

  /** The JSON document `export_backup` encrypts. */
  datatype Backup = Backup(
    version: nat,
    contacts: seq<Contact>,
    conversations: seq<Conversation>,
    profile: Option<UserProfile>)

  const BackupVersion: nat := 1

  /** The byte layout of a backup: the length of the serialized key store
      as a big-endian `u32` (the `as u32` cast wraps), the key store, the
      12-byte nonce, the ciphertext. */
  function BackupLayout(keyStore: seq<byte>, nonce: Bytes12, ciphertext: seq<byte>): (b: seq<byte>)
    ensures |b| == 4 + |keyStore| + 12 + |ciphertext|
  {
    U32ToBigEndian(TruncateU32(|keyStore|)) + keyStore + nonce + ciphertext
  }

  /** Reads a backup's layout: the inverse of `BackupLayout`. */
  function SplitBackup(b: seq<byte>): (r: Option<(seq<byte>, Bytes12, seq<byte>)>)
    ensures r.Some? ==> b == BackupLayout(r.value.0, r.value.1, r.value.2)
  {
    if |b| < 4 then None
    else
      var n := BigEndianToU32(b[..4]);
      if |b| < 4 + n + 12 then None
      else
        BigEndianInjective(b[..4]);
        assert b == b[..4] + b[4..4 + n] + b[4 + n..4 + n + 12] + b[4 + n + 12..];
        Some((b[4..4 + n], b[4 + n..4 + n + 12], b[4 + n + 12..]))
  }

  /** A layout whose key store fits the `u32` length field reads back into
      its three parts. */
  lemma SplitLayout(keyStore: seq<byte>, nonce: Bytes12, ciphertext: seq<byte>)
    requires |keyStore| < 0x1_0000_0000
    ensures SplitBackup(BackupLayout(keyStore, nonce, ciphertext)) == Some((keyStore, nonce, ciphertext))
  {
    var b := BackupLayout(keyStore, nonce, ciphertext);
    BigEndianRoundTrip(|keyStore|);
    assert b[..4] == U32ToBigEndian(|keyStore|);
    var n := |keyStore|;
    assert b[4..4 + n] == keyStore && b[4 + n..4 + n + 12] == nonce && b[4 + n + 12..] == ciphertext;
  }

  /** The encryption half of `export_backup`: a fresh password-protected
      master key (`MasterKey::from_password`, its three random draws as
      parameters), the JSON sealed under that key with a fresh nonce, and
      the layout around them. */
  function EncryptBackup(c: Suite, keyCodec: Serde.Codec<MasterKey>, json: seq<byte>, password: string,
                         salt: Bytes32, nonce: Bytes12, backupKey: Bytes32, backupNonce: Bytes12): (r: Result<seq<byte>>)
    ensures c.Laws() ==> (r.Ok? <==> |json| <= GcmMaxPlaintext)
    ensures c.Laws() && |json| > GcmMaxPlaintext ==> r == Err(Failure("aead::Error"))
    ensures r.Ok? ==> FromPassword(c, password, salt, nonce, backupKey).Ok?
    ensures r.Ok? ==> r.value == BackupLayout(keyCodec.ser(FromPassword(c, password, salt, nonce, backupKey).value.0),
                                              backupNonce, c.aesGcmSeal(backupKey, backupNonce, json))
  {
    match FromPassword(c, password, salt, nonce, backupKey)
    case Err(e) => Err(e)
    case Ok((store, key)) =>
      match Seal(c, key, backupNonce, json)
      case None => Err(Failure("aead::Error"))
      case Some(ct) =>
        Ok(BackupLayout(keyCodec.ser(store), backupNonce, ct))
  }

  /** What restoring a backup would do, the inverse of `EncryptBackup`:
      read the layout, unlock the key store with the password, open the
      ciphertext. */
  function OpenBackup(c: Suite, keyCodec: Serde.Codec<MasterKey>, b: seq<byte>, password: string): (r: Option<seq<byte>>)
    ensures r.Some? ==> SplitBackup(b).Some?
  {
    match SplitBackup(b)
    case None => None
    case Some((keyBytes, nonce, ciphertext)) =>
      match keyCodec.de(keyBytes)
      case None => None
      case Some(store) =>
        match Unlock(c, store, password)
        case Err(_) => None
        case Ok(key) => c.aesGcmOpen(key, nonce, ciphertext)
  }

  /** A backup opens with its password to the JSON it was made from. */
  lemma BackupRoundTrip(c: Suite, keyCodec: Serde.Codec<MasterKey>, json: seq<byte>, password: string,
                        salt: Bytes32, nonce: Bytes12, backupKey: Bytes32, backupNonce: Bytes12)
    requires c.Laws() && keyCodec.RoundTrips()
    requires |json| <= GcmMaxPlaintext
    requires |keyCodec.ser(FromPassword(c, password, salt, nonce, backupKey).value.0)| < 0x1_0000_0000
    ensures EncryptBackup(c, keyCodec, json, password, salt, nonce, backupKey, backupNonce).Ok?
    ensures OpenBackup(c, keyCodec, EncryptBackup(c, keyCodec, json, password, salt, nonce, backupKey, backupNonce).value,
                       password) == Some(json)
  {
    MasterKeyRoundTrip(c, password, salt, nonce, backupKey);
    var store := FromPassword(c, password, salt, nonce, backupKey).value.0;
    var ct := c.aesGcmSeal(backupKey, backupNonce, json);
    SplitLayout(keyCodec.ser(store), backupNonce, ct);
  }

  // ===== Records the facade builds =====

  /** The random salt and nonce of one stored record's frame. */
  datatype Frame = Frame(salt: Bytes16, nonce: Bytes12)

  const SelfSender: string := "self"
  const Anonymous: string := "Anonymous"
  const DeviceSuffix: string := "'s Device"

  /** The message `send_text_message` stores: outgoing, from "self", not
      yet sent, delivered or read, and no reply. */
  function OutgoingText(id: string, conversationId: string, text: string, now: Timestamp): (m: LocalMessage)
    ensures m.id == id && m.conversationId == conversationId && m.content == Text(text) && m.timestamp == now
    ensures m.senderId == SelfSender && m.isOutgoing
    ensures !m.sent && !m.delivered && !m.read && m.replyTo.None?
  {
    LocalMessage(id, conversationId, SelfSender, true, Text(text), now, false, false, false, None)
  }

  /** The profile `update_profile` stores: the stored profile, or an
      "Anonymous" one created now, with each given field replaced. */
  function MergeProfile(stored: Option<UserProfile>, displayName: Option<string>, statusMessage: Option<string>,
                        now: Timestamp): (p: UserProfile)
    ensures displayName.Some? ==> p.displayName == displayName.value
    ensures displayName.None? ==> p.displayName == if stored.Some? then stored.value.displayName else Anonymous
    ensures statusMessage.Some? ==> p.statusMessage == statusMessage
    ensures statusMessage.None? ==> p.statusMessage == if stored.Some? then stored.value.statusMessage else None
    ensures p.avatar == if stored.Some? then stored.value.avatar else None
    ensures p.createdAt == if stored.Some? then stored.value.createdAt else now
  {
    var base := if stored.Some? then stored.value else UserProfile(Anonymous, None, None, now);
    var named := if displayName.Some? then base.(displayName := displayName.value) else base;
    if statusMessage.Some? then named.(statusMessage := statusMessage) else named
  }

  /** Updating with no fields leaves a stored profile as it is. */
  lemma MergeNothing(p: UserProfile, now: Timestamp)
    ensures MergeProfile(Some(p), None, None, now) == p
  {
  }

  /** Repeating an update changes nothing more. */
  lemma MergeIdempotent(stored: Option<UserProfile>, displayName: Option<string>, statusMessage: Option<string>,
                        now: Timestamp, later: Timestamp)
    ensures var p := MergeProfile(stored, displayName, statusMessage, now);
      MergeProfile(Some(p), displayName, statusMessage, later) == p
  {
  }

  /** The scenario of the contacts-and-conversations test: on a store with
      no contacts and no conversations, storing one contact leaves no
      conversation to find (so `get_or_create_conversation` creates one),
      and storing that conversation then lists exactly one contact and one
      conversation. */
  lemma OneContactOneConversation(c: Suite, codecs: Codecs, masterKey: Bytes32, db: seq<Sled.Entry>,
                                  contact: Contact, conv: Conversation, contactFrame: Frame, convFrame: Frame)
    requires c.Laws() && codecs.RoundTrip()
    requires Sled.ScanPrefix(db, PrefixContact) == [] && Sled.ScanPrefix(db, PrefixConversation) == []
    requires EncodeValue(c, codecs.contact, masterKey, contact, contactFrame.salt, contactFrame.nonce).Ok?
    requires EncodeValue(c, codecs.conversation, masterKey, conv, convFrame.salt, convFrame.nonce).Ok?
    ensures
      var db1 := Sled.Insert(db, ContactKey(contact.id),
                             EncodeValue(c, codecs.contact, masterKey, contact, contactFrame.salt, contactFrame.nonce).value);
      var db2 := Sled.Insert(db1, ConversationKey(conv.id),
                             EncodeValue(c, codecs.conversation, masterKey, conv, convFrame.salt, convFrame.nonce).value);
      && AllConversations(c, codecs.conversation, masterKey, db1) == Ok([])
      && AllConversations(c, codecs.conversation, masterKey, db2) == Ok([conv])
      && DecodeAll(c, codecs.contact, masterKey, Sled.ScanPrefix(db2, PrefixContact), "Failed to deserialize contact")
         == Ok([contact])
  {
    var v1 := EncodeValue(c, codecs.contact, masterKey, contact, contactFrame.salt, contactFrame.nonce).value;
    var v2 := EncodeValue(c, codecs.conversation, masterKey, conv, convFrame.salt, convFrame.nonce).value;
    var db1 := Sled.Insert(db, ContactKey(contact.id), v1);
    var db2 := Sled.Insert(db1, ConversationKey(conv.id), v2);
    ScansAfterStores(db, contact.id, v1, db1, conv.id, v2, db2);
    ValueRoundTrip(c, codecs.contact, masterKey, contact, contactFrame.salt, contactFrame.nonce, "Failed to deserialize contact");
    ValueRoundTrip(c, codecs.conversation, masterKey, conv, convFrame.salt, convFrame.nonce, "Failed to deserialize conversation");
    DecodeOne(c, codecs.contact, masterKey, Sled.Entry(ContactKey(contact.id), v1), "Failed to deserialize contact", contact);
    DecodeOne(c, codecs.conversation, masterKey, Sled.Entry(ConversationKey(conv.id), v2), "Failed to deserialize conversation", conv);
    assert DecodeAll(c, codecs.conversation, masterKey, [], "Failed to deserialize conversation") == Ok([]);
    assert Sorting.SortBy([conv], NewestFirst) == [conv];
  }

  /** The scans after storing a contact, then a conversation, into a store
      that had neither. */
  lemma ScansAfterStores(db: seq<Sled.Entry>, contactId: string, v1: seq<byte>, db1: seq<Sled.Entry>,
                         convId: string, v2: seq<byte>, db2: seq<Sled.Entry>)
    requires Sled.ScanPrefix(db, PrefixContact) == [] && Sled.ScanPrefix(db, PrefixConversation) == []
    requires db1 == Sled.Insert(db, ContactKey(contactId), v1)
    requires db2 == Sled.Insert(db1, ConversationKey(convId), v2)
    ensures Sled.ScanPrefix(db1, PrefixConversation) == []
    ensures Sled.ScanPrefix(db2, PrefixConversation) == [Sled.Entry(ConversationKey(convId), v2)]
    ensures Sled.ScanPrefix(db2, PrefixContact) == [Sled.Entry(ContactKey(contactId), v1)]
  {
    var k1 := ContactKey(contactId);
    var k2 := ConversationKey(convId);
    assert k1[1] != PrefixConversation[1] && k2[1] != PrefixContact[1];
    assert k1[..3] == PrefixContact && k2[..3] == PrefixConversation;
    Sled.ScanPrefixInsertFirst(db, PrefixContact, k1, v1);
    Sled.ScanPrefixInsertOther(db, PrefixConversation, k1, v1);
    Sled.ScanPrefixInsertFirst(db1, PrefixConversation, k2, v2);
    Sled.ScanPrefixInsertOther(db1, PrefixContact, k2, v2);
  }

  lemma DecodeOne<T(!new)>(c: Suite, codec: Serde.Codec<T>, masterKey: Bytes32, e: Sled.Entry, context: string, x: T)
    requires DecodeValue(c, codec, masterKey, e.value, context) == Ok(x)
    ensures DecodeAll(c, codec, masterKey, [e], context) == Ok([x])
  {
    assert [e][..0] == [];
    assert DecodeAll(c, codec, masterKey, [], context) == Ok([]);
    assert [] + [x] == [x];
  }

  // ===== The application object =====

  /** `SecureChat`: one sequential object. The store is `null` until an
      account is created or unlocked; `commands` is the sending side of the
      network command channel, as the commands sent on it so far, `None`
      until the network is started. */
  class SecureChat {
    var storage: SecureStorage?
    var identity: Option<IdentityKeyPair>
    var messageKeys: Option<MessageKeyPair>
    var commands: Option<seq<Network.NetworkCommand>>
    var profile: Option<UserProfile>
    const deviceId: string

    ghost predicate Valid()
      reads this, storage
    {
      storage != null ==> storage.Valid()
    }

    /** `SecureChat::new`, with the random bytes of a generated device id
        as a parameter. */
    constructor New(deviceId: Option<string>, random: Bytes16)
      ensures this.deviceId == if deviceId.Some? then deviceId.value else GenerateId(random)
      ensures storage == null && identity.None? && messageKeys.None? && commands.None? && profile.None?
      ensures Valid()
    {
      this.deviceId := if deviceId.Some? then deviceId.value else GenerateId(random);
      storage := null;
      identity := None;
      messageKeys := None;
      commands := None;
      profile := None;
    }

    /** `create_account`, over the tree found at the path. The random draws
        (master key salt, nonce and key; identity seed and nonce; message
        key secret; the frames of the three records) and the two clock
        readings are parameters. The new store replaces the old one as
        soon as it exists, even if a later step fails. Encrypting the
        identity cannot fail (its 32-byte secret is far below the AES-GCM
        limit), so its "Failed to encrypt identity" context never applies. */
    method CreateAccount(c: Suite, codecs: Codecs, existing: seq<Sled.Entry>, password: string, displayName: string,
                         keySalt: Bytes32, keyNonce: Bytes12, masterKey: Bytes32,
                         identitySeed: Bytes32, identityNonce: Bytes12, messageSecret: Bytes32,
                         identityFrame: Frame, profileFrame: Frame, deviceFrame: Frame,
                         createdAt: Timestamp, lastSeen: Timestamp, platform: Platform) returns (r: Result<Unit>)
      requires Valid() && Sled.Sorted(existing)
      modifies this
      ensures Valid() && commands == old(commands)
      ensures CreateOutcome(c, codecs, existing, password, keySalt, keyNonce, masterKey).Err? ==>
        && r == Err(Context(CreateOutcome(c, codecs, existing, password, keySalt, keyNonce, masterKey).error,
                            "Failed to create database"))
        && storage == old(storage) && identity == old(identity) && messageKeys == old(messageKeys)
        && profile == old(profile)
      ensures CreateOutcome(c, codecs, existing, password, keySalt, keyNonce, masterKey).Ok? ==>
        && storage != null && fresh(storage) && storage.masterKey == masterKey
        && forall k :: k != PrefixMasterKey && k != IdentityKey() && k != ProfileKey() && k != DeviceKey(deviceId) ==>
             Sled.Get(storage.db, k) == Sled.Get(existing, k)
      ensures CreateOutcome(c, codecs, existing, password, keySalt, keyNonce, masterKey).Ok? ==>
        var id := GenerateIdentity(c, identitySeed);
        var encrypted := EncryptIdentity(c, id, masterKey, identityNonce).value;
        var identityFits := EncodeValue(c, codecs.identity, masterKey, encrypted, identityFrame.salt, identityFrame.nonce).Ok?;
        var profileFits := EncodeValue(c, codecs.profile, masterKey, UserProfile(displayName, None, None, createdAt),
                                       profileFrame.salt, profileFrame.nonce).Ok?;
        var deviceFits := EncodeValue(c, codecs.device, masterKey,
                                      DeviceInfo(deviceId, displayName + DeviceSuffix, platform, lastSeen, encrypted),
                                      deviceFrame.salt, deviceFrame.nonce).Ok?;
        && (r.Ok? <==> identityFits && profileFits && deviceFits)
        && (!identityFits ==> identity == old(identity) && messageKeys == old(messageKeys) && profile == old(profile))
        && (identityFits ==> identity == Some(id) && messageKeys == Some(GenerateMessageKeys(c, messageSecret)))
        && (identityFits && !profileFits ==> profile == old(profile))
        && (identityFits && profileFits ==> profile == Some(UserProfile(displayName, None, None, createdAt)))
      ensures r.Ok? ==>
        && identity == Some(GenerateIdentity(c, identitySeed))
        && messageKeys == Some(GenerateMessageKeys(c, messageSecret))
        && profile == Some(UserProfile(displayName, None, None, createdAt))
      ensures r.Ok? && c.Laws() && codecs.RoundTrip() ==>
        && storage != null
        && UnlockOutcome(c, codecs, storage.db, password) == Ok(masterKey)
        && storage.GetIdentity(c, codecs) == Ok(Some(EncryptIdentity(c, GenerateIdentity(c, identitySeed), masterKey, identityNonce).value))
        && DecryptIdentity(c, EncryptIdentity(c, GenerateIdentity(c, identitySeed), masterKey, identityNonce).value, masterKey)
           == Ok(GenerateIdentity(c, identitySeed))
        && storage.GetProfile(c, codecs) == Ok(profile)
        && storage.GetDevice(c, codecs, deviceId)
           == Ok(Some(DeviceInfo(deviceId, displayName + DeviceSuffix, platform, lastSeen,
                                 EncryptIdentity(c, GenerateIdentity(c, identitySeed), masterKey, identityNonce).value)))
    {
      var created := SecureStorage.Create(c, codecs, existing, password, keySalt, keyNonce, masterKey);
      if created.Err? {
        return Err(Context(created.error, "Failed to create database"));
      }
      storage := created.value;
      ghost var db0 := storage.db;

      var id := GenerateIdentity(c, identitySeed);
      var encrypted := EncryptIdentity(c, id, masterKey, identityNonce).value;
      var newProfile := UserProfile(displayName, None, None, createdAt);
      var device := DeviceInfo(deviceId, displayName + DeviceSuffix, platform, lastSeen, encrypted);
      r := StoreAccountRecords(c, codecs, id, encrypted, GenerateMessageKeys(c, messageSecret), newProfile, device,
                               identityFrame, profileFrame, deviceFrame);
      if r.Ok? && c.Laws() && codecs.RoundTrip() {
        CreateThenUnlock(c, codecs, existing, password, keySalt, keyNonce, masterKey);
        UnlockReadsRecord(c, codecs, db0, storage.db, password);
        IdentityRoundTrip(c, id, masterKey, identityNonce);
      }
    }

    /** The three records `create_account` stores once the store exists
        (identity, profile, device, in that order), and the fields each
        successful store sets; the first failing store ends it. The
        master-key record is left as it is. */
    method StoreAccountRecords(c: Suite, codecs: Codecs, id: IdentityKeyPair, encrypted: EncryptedIdentityKeys,
                               keys: MessageKeyPair, newProfile: UserProfile, device: DeviceInfo,
                               identityFrame: Frame, profileFrame: Frame, deviceFrame: Frame) returns (r: Result<Unit>)
      requires storage != null && Valid()
      modifies this, storage
      ensures Valid() && storage == old(storage) && commands == old(commands)
      ensures var identityFits := EncodeValue(c, codecs.identity, storage.masterKey, encrypted,
                                              identityFrame.salt, identityFrame.nonce).Ok?;
        var profileFits := EncodeValue(c, codecs.profile, storage.masterKey, newProfile, profileFrame.salt, profileFrame.nonce).Ok?;
        var deviceFits := EncodeValue(c, codecs.device, storage.masterKey, device, deviceFrame.salt, deviceFrame.nonce).Ok?;
        && (r.Ok? <==> identityFits && profileFits && deviceFits)
        && (!identityFits ==> identity == old(identity) && messageKeys == old(messageKeys) && profile == old(profile))
        && (identityFits ==> identity == Some(id) && messageKeys == Some(keys))
        && (identityFits && !profileFits ==> profile == old(profile))
        && (identityFits && profileFits ==> profile == Some(newProfile))
        && (!identityFits ==> storage.db == old(storage.db))
        && (!(identityFits && profileFits) ==>
              Sled.Get(storage.db, ProfileKey()) == Sled.Get(old(storage.db), ProfileKey()))
        && (!(identityFits && profileFits && deviceFits) ==>
              Sled.Get(storage.db, DeviceKey(device.deviceId)) == Sled.Get(old(storage.db), DeviceKey(device.deviceId)))
      ensures Sled.Get(storage.db, PrefixMasterKey) == Sled.Get(old(storage.db), PrefixMasterKey)
      ensures forall k :: k != IdentityKey() && k != ProfileKey() && k != DeviceKey(device.deviceId) ==>
        Sled.Get(storage.db, k) == Sled.Get(old(storage.db), k)
      ensures r.Ok? && c.Laws() && codecs.RoundTrip() ==>
        && storage.GetIdentity(c, codecs) == Ok(Some(encrypted))
        && storage.GetProfile(c, codecs) == Ok(Some(newProfile))
        && storage.GetDevice(c, codecs, device.deviceId) == Ok(Some(device))
    {
      var store := storage;
      AccountKeysDistinct(device.deviceId);
      r := store.StoreIdentity(c, codecs, encrypted, identityFrame.salt, identityFrame.nonce);
      assert storage == store && store.Valid();
      if r.Err? {
        return;
      }
      identity := Some(id);
      messageKeys := Some(keys);

      ghost var db1 := store.db;
      r := store.StoreProfile(c, codecs, newProfile, profileFrame.salt, profileFrame.nonce);
      assert storage == store && store.Valid();
      if r.Err? {
        return;
      }
      profile := Some(newProfile);

      ghost var db2 := store.db;
      r := store.StoreDevice(c, codecs, device, deviceFrame.salt, deviceFrame.nonce);
      assert storage == store && store.Valid();
      if r.Ok? {
        ReadSameEntry(c, codecs.identity, store.masterKey, db1, store.db, IdentityKey());
        ReadSameEntry(c, codecs.profile, store.masterKey, db2, store.db, ProfileKey());
      }
    }

    /** `unlock_account`, over the tree found at the path, with the message
        key secret as a parameter. The store replaces the old one as soon
        as it is unlocked; the identity only once it has decrypted. */
    method UnlockAccount(c: Suite, codecs: Codecs, existing: seq<Sled.Entry>, password: string, messageSecret: Bytes32)
      returns (r: Result<Unit>)
      requires Valid() && Sled.Sorted(existing)
      modifies this
      ensures Valid() && commands == old(commands)
      ensures UnlockOutcome(c, codecs, existing, password).Err? ==>
        && r == Err(Context(UnlockOutcome(c, codecs, existing, password).error, "Failed to unlock database"))
        && storage == old(storage) && identity == old(identity) && messageKeys == old(messageKeys)
        && profile == old(profile)
      ensures UnlockOutcome(c, codecs, existing, password).Ok? ==>
        && storage != null && fresh(storage) && storage.db == existing
        && storage.masterKey == UnlockOutcome(c, codecs, existing, password).value
        && (storage.GetIdentity(c, codecs).Err? ==>
              && r == Err(Context(storage.GetIdentity(c, codecs).error, "Failed to get identity"))
              && identity == old(identity) && messageKeys == old(messageKeys))
        && (storage.GetIdentity(c, codecs) == Ok(None) ==>
              r == Err(Failure("No identity found")) && identity == old(identity) && messageKeys == old(messageKeys))
        && (storage.GetIdentity(c, codecs).Ok? && storage.GetIdentity(c, codecs).value.Some? ==>
              var decrypted := DecryptIdentity(c, storage.GetIdentity(c, codecs).value.value, storage.masterKey);
              && (decrypted.Err? ==>
                    && r == Err(Context(decrypted.error, "Failed to decrypt identity"))
                    && identity == old(identity) && messageKeys == old(messageKeys))
              && (decrypted.Ok? ==>
                    && identity == Some(decrypted.value) && messageKeys == Some(GenerateMessageKeys(c, messageSecret))
                    && (storage.GetProfile(c, codecs).Err? ==>
                          r == Err(Context(storage.GetProfile(c, codecs).error, "Failed to get profile")))
                    && (storage.GetProfile(c, codecs).Ok? ==> r == Ok(Unit))))
      ensures r.Err? ==> profile == old(profile)
      ensures r.Ok? ==>
        && storage != null
        && storage.GetIdentity(c, codecs).Ok? && storage.GetIdentity(c, codecs).value.Some?
        && DecryptIdentity(c, storage.GetIdentity(c, codecs).value.value, storage.masterKey).Ok?
        && identity == Some(DecryptIdentity(c, storage.GetIdentity(c, codecs).value.value, storage.masterKey).value)
        && messageKeys == Some(GenerateMessageKeys(c, messageSecret))
        && storage.GetProfile(c, codecs).Ok? && profile == storage.GetProfile(c, codecs).value
    {
      var unlocked := SecureStorage.Unlock(c, codecs, existing, password);
      if unlocked.Err? {
        return Err(Context(unlocked.error, "Failed to unlock database"));
      }
      var store := unlocked.value;
      storage := store;

      var stored := store.GetIdentity(c, codecs);
      if stored.Err? {
        return Err(Context(stored.error, "Failed to get identity"));
      }
      if stored.value.None? {
        return Err(Failure("No identity found"));
      }
      var decrypted := DecryptIdentity(c, stored.value.value, store.masterKey);
      if decrypted.Err? {
        return Err(Context(decrypted.error, "Failed to decrypt identity"));
      }
      identity := Some(decrypted.value);
      messageKeys := Some(GenerateMessageKeys(c, messageSecret));

      var loaded := store.GetProfile(c, codecs);
      if loaded.Err? {
        return Err(Context(loaded.error, "Failed to get profile"));
      }
      profile := loaded.value;
      return Ok(Unit);
    }

    /** `start_network`: `setup` is the outcome of building the network
        manager. On success the command channel opens, empty. */
    method StartNetwork(setup: Result<Unit>) returns (r: Result<Unit>)
      modifies this
      ensures setup.Err? ==> r == Err(Context(setup.error, "Failed to create network manager")) && commands == old(commands)
      ensures setup.Ok? ==> r == Ok(Unit) && commands == Some([])
      ensures storage == old(storage) && identity == old(identity) && messageKeys == old(messageKeys)
      ensures profile == old(profile)
    {
      if setup.Err? {
        return Err(Context(setup.error, "Failed to create network manager"));
      }
      commands := Some([]);
      return Ok(Unit);
    }

    /** `stop_network`: sends `Shutdown` when the channel is open (a failed
        send is ignored) and always succeeds. */
    method StopNetwork() returns (r: Result<Unit>)
      modifies this
      ensures r == Ok(Unit)
      ensures old(commands).None? ==> commands.None?
      ensures old(commands).Some? ==> commands == Some(old(commands).value + [Network.Shutdown])
      ensures storage == old(storage) && identity == old(identity) && messageKeys == old(messageKeys)
      ensures profile == old(profile)
    {
      if commands.Some? {
        commands := Some(commands.value + [Network.Shutdown]);
      }
      return Ok(Unit);
    }

    /** `send_text_message`, with the random bytes of the message id, the
        clock reading and the frame as parameters: looks up the
        conversation and its contact, then stores one outgoing text
        message and returns its id. Nothing is sent on the network. */
    method SendTextMessage(c: Suite, codecs: Codecs, conversationId: string, text: string,
                           random: Bytes16, now: Timestamp, frame: Frame) returns (r: Result<string>)
      requires storage != null && Valid()
      modifies storage
      ensures Valid()
      ensures old(storage.GetConversation(c, codecs, conversationId)).Err? ==>
        r == Err(old(storage.GetConversation(c, codecs, conversationId)).error)
      ensures old(storage.GetConversation(c, codecs, conversationId)) == Ok(None) ==>
        r == Err(Failure("Conversation not found"))
      ensures (old(storage.GetConversation(c, codecs, conversationId)).Ok?
               && old(storage.GetConversation(c, codecs, conversationId)).value.Some?) ==>
        var contact := old(storage.GetContact(c, codecs, storage.GetConversation(c, codecs, conversationId).value.value.contactId));
        && (contact.Err? ==> r == Err(contact.error))
        && (contact == Ok(None) ==> r == Err(Failure("Contact not found")))
        && (contact.Ok? && contact.value.Some? ==>
              (r.Ok? <==> EncodeValue(c, codecs.message, storage.masterKey,
                                      OutgoingText(GenerateId(random), conversationId, text, now), frame.salt, frame.nonce).Ok?))
      ensures r.Err? ==> storage.db == old(storage.db)
      ensures r.Ok? ==>
        && r.value == GenerateId(random)
        && old(storage.GetConversation(c, codecs, conversationId)).Ok?
        && old(storage.GetConversation(c, codecs, conversationId)).value.Some?
        && EncodeValue(c, codecs.message, storage.masterKey, OutgoingText(r.value, conversationId, text, now),
                       frame.salt, frame.nonce).Ok?
        && storage.db == Sled.Insert(old(storage.db), Storage.MessageKey(conversationId, r.value),
             EncodeValue(c, codecs.message, storage.masterKey, OutgoingText(r.value, conversationId, text, now),
                         frame.salt, frame.nonce).value)
      ensures r.Ok? && c.Laws() && codecs.RoundTrip() ==>
        storage.GetMessage(c, codecs, conversationId, r.value) == Ok(Some(OutgoingText(r.value, conversationId, text, now)))
    {
      var conversation := storage.GetConversation(c, codecs, conversationId);
      if conversation.Err? {
        return Err(conversation.error);
      }
      if conversation.value.None? {
        return Err(Failure("Conversation not found"));
      }
      var contact := storage.GetContact(c, codecs, conversation.value.value.contactId);
      if contact.Err? {
        return Err(contact.error);
      }
      if contact.value.None? {
        return Err(Failure("Contact not found"));
      }
      var messageId := GenerateId(random);
      var message := OutgoingText(messageId, conversationId, text, now);
      var stored := storage.StoreMessage(c, codecs, message, frame.salt, frame.nonce);
      if stored.Err? {
        return Err(stored.error);
      }
      return Ok(messageId);
    }

    /** `get_or_create_conversation`, with the random bytes of a new id and
        the clock reading as parameters: the newest conversation with the
        contact if there is one, otherwise a new one, stored. */
    method GetOrCreateConversation(c: Suite, codecs: Codecs, contactId: string, random: Bytes16, now: Timestamp,
                                   frame: Frame) returns (r: Result<Conversation>)
      requires storage != null && Valid()
      modifies storage
      ensures Valid()
      ensures var all := old(AllConversations(c, codecs.conversation, storage.masterKey, storage.db));
        && (all.Err? ==> r == Err(all.error) && storage.db == old(storage.db))
        && (all.Ok? && FirstWithContact(all.value, contactId).Some? ==>
              r == Ok(FirstWithContact(all.value, contactId).value) && storage.db == old(storage.db))
        && (all.Ok? && FirstWithContact(all.value, contactId).None? ==>
              var conv := NewConversation(GenerateId(random), contactId, now);
              && (r.Ok? <==> EncodeValue(c, codecs.conversation, storage.masterKey, conv, frame.salt, frame.nonce).Ok?)
              && (r.Ok? ==>
                    && r.value == conv
                    && storage.db == Sled.Insert(old(storage.db), ConversationKey(conv.id),
                         EncodeValue(c, codecs.conversation, storage.masterKey, conv, frame.salt, frame.nonce).value))
              && (r.Err? ==> storage.db == old(storage.db))
              && (r.Ok? && c.Laws() && codecs.RoundTrip() ==> storage.GetConversation(c, codecs, conv.id) == Ok(Some(conv))))
    {
      var found := storage.GetConversationByContact(c, codecs, contactId);
      if found.Err? {
        return Err(found.error);
      }
      if found.value.Some? {
        return Ok(found.value.value);
      }
      var conversation := NewConversation(GenerateId(random), contactId, now);
      var stored := storage.StoreConversation(c, codecs, conversation, frame.salt, frame.nonce);
      if stored.Err? {
        return Err(stored.error);
      }
      return Ok(conversation);
    }

    /** `add_contact`, with the random bytes of the id and the clock
        reading as parameters. */
    method AddContact(c: Suite, codecs: Codecs, publicKey: Bytes32, displayName: string, random: Bytes16,
                      now: Timestamp, frame: Frame) returns (r: Result<Contact>)
      requires storage != null && Valid()
      modifies storage
      ensures Valid()
      ensures r.Ok? <==> EncodeValue(c, codecs.contact, storage.masterKey,
                                      NewContact(GenerateId(random), displayName, publicKey, now), frame.salt, frame.nonce).Ok?
      ensures r.Ok? ==>
        && r.value == NewContact(GenerateId(random), displayName, publicKey, now)
        && storage.db == Sled.Insert(old(storage.db), ContactKey(r.value.id),
             EncodeValue(c, codecs.contact, storage.masterKey, r.value, frame.salt, frame.nonce).value)
      ensures r.Err? ==> storage.db == old(storage.db)
      ensures r.Ok? && c.Laws() && codecs.RoundTrip() ==> storage.GetContact(c, codecs, r.value.id) == Ok(Some(r.value))
    {
      var contact := NewContact(GenerateId(random), displayName, publicKey, now);
      var stored := storage.StoreContact(c, codecs, contact, frame.salt, frame.nonce);
      if stored.Err? {
        return Err(stored.error);
      }
      return Ok(contact);
    }

    /** `update_profile`, with the clock reading (used only when no profile
        is stored) and the frame as parameters. */
    method UpdateProfile(c: Suite, codecs: Codecs, displayName: Option<string>, statusMessage: Option<string>,
                         now: Timestamp, frame: Frame) returns (r: Result<Unit>)
      requires storage != null && Valid()
      modifies this, storage
      ensures Valid() && storage == old(storage)
      ensures old(storage.GetProfile(c, codecs)).Err? ==>
        r == Err(old(storage.GetProfile(c, codecs)).error) && storage.db == old(storage.db) && profile == old(profile)
      ensures old(storage.GetProfile(c, codecs)).Ok? ==>
        (r.Ok? <==> EncodeValue(c, codecs.profile, storage.masterKey,
                                MergeProfile(old(storage.GetProfile(c, codecs)).value, displayName, statusMessage, now),
                                frame.salt, frame.nonce).Ok?)
      ensures r.Err? ==> storage.db == old(storage.db) && profile == old(profile)
      ensures r.Ok? ==>
        && old(storage.GetProfile(c, codecs)).Ok?
        && profile == Some(MergeProfile(old(storage.GetProfile(c, codecs)).value, displayName, statusMessage, now))
        && EncodeValue(c, codecs.profile, storage.masterKey, profile.value, frame.salt, frame.nonce).Ok?
        && storage.db == Sled.Insert(old(storage.db), ProfileKey(),
             EncodeValue(c, codecs.profile, storage.masterKey, profile.value, frame.salt, frame.nonce).value)
      ensures r.Ok? && c.Laws() && codecs.RoundTrip() ==> storage.GetProfile(c, codecs) == Ok(profile)
      ensures identity == old(identity) && messageKeys == old(messageKeys) && commands == old(commands)
    {
      var stored := storage.GetProfile(c, codecs);
      if stored.Err? {
        return Err(stored.error);
      }
      var updated := if stored.value.Some? then stored.value.value else UserProfile(Anonymous, None, None, now);
      if displayName.Some? {
        updated := updated.(displayName := displayName.value);
      }
      if statusMessage.Some? {
        updated := updated.(statusMessage := statusMessage);
      }
      r := storage.StoreProfile(c, codecs, updated, frame.salt, frame.nonce);
      if r.Err? {
        return;
      }
      profile := Some(updated);
    }

    /** `get_public_key`: the identity's public key, once authenticated. */
    function GetPublicKey(): (r: Result<seq<byte>>)
      reads this
      ensures r.Err? <==> identity.None?
      ensures r.Err? ==> r.error == Failure("Not authenticated")
      ensures r.Ok? ==> r.value == identity.value.publicKey
    {
      match identity
      case None => Err(Failure("Not authenticated"))
      case Some(id) => Ok(id.publicKey)
    }

    /** `export_backup`: collects contacts, conversations and profile (the
        first failure is returned), serializes them as JSON with the
        `json` codec, and encrypts them with `EncryptBackup`, whose random
        draws are parameters. */
    method ExportBackup(c: Suite, codecs: Codecs, json: Serde.Codec<Backup>, password: string,
                        salt: Bytes32, nonce: Bytes12, backupKey: Bytes32, backupNonce: Bytes12)
      returns (r: Result<seq<byte>>)
      requires storage != null
      ensures
        var contacts := DecodeAll(c, codecs.contact, storage.masterKey, Sled.ScanPrefix(storage.db, PrefixContact),
                                  "Failed to deserialize contact");
        var conversations := AllConversations(c, codecs.conversation, storage.masterKey, storage.db);
        var stored := storage.GetProfile(c, codecs);
        && (contacts.Err? ==> r == Err(contacts.error))
        && (contacts.Ok? && conversations.Err? ==> r == Err(conversations.error))
        && (contacts.Ok? && conversations.Ok? && stored.Err? ==> r == Err(stored.error))
        && (contacts.Ok? && conversations.Ok? && stored.Ok? ==>
              r == EncryptBackup(c, codecs.masterKey,
                                 json.ser(Backup(BackupVersion, contacts.value, conversations.value, stored.value)),
                                 password, salt, nonce, backupKey, backupNonce))
    {
      var contacts := storage.GetAllContacts(c, codecs);
      if contacts.Err? {
        return Err(contacts.error);
      }
      var conversations := storage.GetAllConversations(c, codecs);
      if conversations.Err? {
        return Err(conversations.error);
      }
      var stored := storage.GetProfile(c, codecs);
      if stored.Err? {
        return Err(stored.error);
      }
      var data := json.ser(Backup(BackupVersion, contacts.value, conversations.value, stored.value));
      r := EncryptBackup(c, codecs.masterKey, data, password, salt, nonce, backupKey, backupNonce);
    }
  }

  /** The create-and-unlock scenario of `core/src/lib.rs`: an account
      created on one fresh object unlocks on a second one with the same
      password, which then holds the identity that was generated. The three
      account records are assumed to fit the AES-GCM limit. */
  method CreateAndUnlock(c: Suite, codecs: Codecs, existing: seq<Sled.Entry>, password: string, displayName: string,
                         keySalt: Bytes32, keyNonce: Bytes12, masterKey: Bytes32,
                         identitySeed: Bytes32, identityNonce: Bytes12, messageSecret: Bytes32,
                         identityFrame: Frame, profileFrame: Frame, deviceFrame: Frame,
                         createdAt: Timestamp, lastSeen: Timestamp, platform: Platform,
                         deviceRandom: Bytes16, secondRandom: Bytes16, secondSecret: Bytes32)
    returns (created: Result<Unit>, unlocked: Result<Unit>, unlockedIdentity: Option<IdentityKeyPair>)
    requires c.Laws() && codecs.RoundTrip() && Sled.Sorted(existing)
    requires var encrypted := EncryptIdentity(c, GenerateIdentity(c, identitySeed), masterKey, identityNonce).value;
      && |codecs.identity.ser(encrypted)| <= GcmMaxPlaintext
      && |codecs.profile.ser(UserProfile(displayName, None, None, createdAt))| <= GcmMaxPlaintext
      && |codecs.device.ser(DeviceInfo(GenerateId(deviceRandom), displayName + DeviceSuffix, platform, lastSeen, encrypted))|
         <= GcmMaxPlaintext
    ensures created.Ok? && unlocked.Ok?
    ensures unlockedIdentity == Some(GenerateIdentity(c, identitySeed))
  {
    CreateThenUnlock(c, codecs, existing, password, keySalt, keyNonce, masterKey);
    var chat := new SecureChat.New(None, deviceRandom);
    created := chat.CreateAccount(c, codecs, existing, password, displayName, keySalt, keyNonce, masterKey,
                                  identitySeed, identityNonce, messageSecret, identityFrame, profileFrame, deviceFrame,
                                  createdAt, lastSeen, platform);
    var db := chat.storage.db;
    var chat2 := new SecureChat.New(None, secondRandom);
    unlocked := chat2.UnlockAccount(c, codecs, db, password, secondSecret);
    unlockedIdentity := chat2.identity;
  }

  /** The keys the three account records live at differ from each other
      and from the master-key record, so each later store keeps what the
      earlier ones wrote. */
  lemma AccountKeysDistinct(deviceId: string)
    ensures IdentityKey() != PrefixMasterKey && ProfileKey() != PrefixMasterKey && ProfileKey() != IdentityKey()
    ensures DeviceKey(deviceId) != PrefixMasterKey && DeviceKey(deviceId) != IdentityKey()
    ensures DeviceKey(deviceId) != ProfileKey()
  {
    var dk := DeviceKey(deviceId);
    assert IdentityKey()[0] != PrefixMasterKey[0] && ProfileKey()[0] != PrefixMasterKey[0];
    assert dk[0] != PrefixMasterKey[0] && dk[0] != IdentityKey()[0] && dk[0] != ProfileKey()[0];
    assert ProfileKey()[0] != IdentityKey()[0];
  }

}

=== FILE: crypto.dfy ===
/** Key material and the encryption compositions of `core/src/crypto.rs`:
    the password-protected master key, the Ed25519 identity, the X25519
    message key pair with its two-Diffie-Hellman message encryption, and
    the ratchet state record. */
module Crypto {
  import opened Wrappers
  import opened Bytes
  import opened Primitives

  /** The debug rendering that the code's `map_err` formats after its
      message: the AEAD error and HKDF's length error are unit structs, so
      that text is fixed. */
  const AeadErrorDebug: string := ": Error"
  const HkdfErrorDebug: string := ": InvalidLength"

  // ===== Master key =====

  /** The stored form of the master key: the key sealed under a key derived
      from the password. */
  datatype MasterKey = MasterKey(encryptedKey: seq<byte>, salt: Bytes32, nonce: Bytes12)

  /** The first 32 bytes of the Argon2id hash of the password; the slice
      panics on a shorter hash. */
  function PasswordKey(c: Suite, password: string, salt: Bytes32): (r: Result<Bytes32>)
    ensures c.Laws() ==> r.Ok?
  {
    var h := c.argon2id(password, salt);
    if |h| < 32 then Err(Panic("range end index 32 out of range")) else Ok(h[..32])
  }

  /** `MasterKey::from_password`, with the three random draws (salt, nonce,
      master key, in that order) as parameters. */
  function FromPassword(c: Suite, password: string, salt: Bytes32, nonce: Bytes12, masterKey: Bytes32)
    : (r: Result<(MasterKey, Bytes32)>)
    ensures r.Ok? ==> r.value.1 == masterKey && r.value.0.salt == salt && r.value.0.nonce == nonce
    ensures c.Laws() ==> r.Ok?
  {
    match PasswordKey(c, password, salt)
    case Err(e) => Err(e)
    case Ok(derived) =>
      match Seal(c, derived, nonce, masterKey)
      case None => Err(Failure("Failed to encrypt master key" + AeadErrorDebug))
      case Some(ct) => Ok((MasterKey(ct, salt, nonce), masterKey))
  }

  /** `MasterKey::unlock`: re-derives the key from the password and the
      stored salt. A success means the stored ciphertext is the sealing of
      the returned key under that derived key: a wrong password can only
      fail, never yield some other key. */
  function Unlock(c: Suite, mk: MasterKey, password: string): (r: Result<Bytes32>)
    ensures c.Laws() && r.Ok? ==>
      mk.encryptedKey == c.aesGcmSeal(c.argon2id(password, mk.salt)[..32], mk.nonce, r.value)
  {
    var derived := PasswordKey(c, password, mk.salt);
    if derived.Err? then Err(derived.error)
    else
      var decrypted := c.aesGcmOpen(derived.value, mk.nonce, mk.encryptedKey);
      if decrypted.None? then Err(Failure("Failed to decrypt master key - wrong password?" + AeadErrorDebug))
      else if |decrypted.value| != 32 then Err(Panic("copy_from_slice: source slice length does not match destination"))
      else var key: Bytes32 := decrypted.value; Ok(key)
  }

  /** Unlocking a freshly derived record with the same password gives back
      the master key it was made for. */
  lemma MasterKeyRoundTrip(c: Suite, password: string, salt: Bytes32, nonce: Bytes12, masterKey: Bytes32)
    requires c.Laws()
    ensures FromPassword(c, password, salt, nonce, masterKey).Ok?
    ensures Unlock(c, FromPassword(c, password, salt, nonce, masterKey).value.0, password) == Ok(masterKey)
  {
    var derived := PasswordKey(c, password, salt).value;
    assert c.aesGcmOpen(derived, nonce, c.aesGcmSeal(derived, nonce, masterKey)) == Some(masterKey);
  }

  // ===== Identity =====

  /** The long-term Ed25519 identity. */
  datatype IdentityKeyPair = IdentityKeyPair(publicKey: seq<byte>, secretKey: Bytes32)
  {
    /** The verifying key belongs to the signing key. */
    ghost predicate Valid(c: Suite)
    {
      publicKey == c.ed25519Public(secretKey)
    }
  }

  /** `IdentityKeyPair::generate`, with the 32 random secret-key bytes as a parameter. */
  function GenerateIdentity(c: Suite, seed: Bytes32): (id: IdentityKeyPair)
    ensures id.Valid(c) && id.secretKey == seed
  {
    IdentityKeyPair(c.ed25519Public(seed), seed)
  }

  function Sign(c: Suite, id: IdentityKeyPair, message: seq<byte>): seq<byte>
  {
    c.ed25519Sign(id.secretKey, message)
  }

  function Verify(c: Suite, publicKey: seq<byte>, message: seq<byte>, signature: seq<byte>): (r: Result<Unit>)
    ensures r.Ok? <==> c.ed25519Verify(publicKey, message, signature)
  {
    if c.ed25519Verify(publicKey, message, signature) then Ok(Unit)
    else Err(Failure("Signature verification failed"))
  }

  lemma SignThenVerify(c: Suite, id: IdentityKeyPair, message: seq<byte>)
    requires c.Laws() && id.Valid(c)
    ensures Verify(c, id.publicKey, message, Sign(c, id, message)) == Ok(Unit)
  {
  }

  /** The identity as stored: public key in clear, secret key sealed under the master key. */
  datatype EncryptedIdentityKeys = EncryptedIdentityKeys(publicKey: seq<byte>, encryptedSecret: seq<byte>, nonce: Bytes12)

  /** `IdentityKeyPair::encrypt`, with the random nonce as a parameter. */
  function EncryptIdentity(c: Suite, id: IdentityKeyPair, masterKey: Bytes32, nonce: Bytes12)
    : (r: Result<EncryptedIdentityKeys>)
    ensures r.Ok? ==> r.value.publicKey == id.publicKey && r.value.nonce == nonce
    ensures r.Ok? ==> r.value.encryptedSecret == c.aesGcmSeal(masterKey, nonce, id.secretKey)
    ensures r.Ok?
  {
    match Seal(c, masterKey, nonce, id.secretKey)
    case None => Err(Failure("Failed to encrypt secret key" + AeadErrorDebug))
    case Some(ct) => Ok(EncryptedIdentityKeys(id.publicKey, ct, nonce))
  }

  /** `IdentityKeyPair::decrypt`: the public key is recomputed from the
      decrypted secret; the stored public key is never consulted. */
  function DecryptIdentity(c: Suite, enc: EncryptedIdentityKeys, masterKey: Bytes32): (r: Result<IdentityKeyPair>)
    ensures r.Ok? ==> r.value.Valid(c)
    ensures c.Laws() && r.Ok? ==> enc.encryptedSecret == c.aesGcmSeal(masterKey, enc.nonce, r.value.secretKey)
  {
    match c.aesGcmOpen(masterKey, enc.nonce, enc.encryptedSecret)
    case None => Err(Failure("Failed to decrypt identity keys" + AeadErrorDebug))
    case Some(p) =>
      if |p| != 32 then Err(Panic("copy_from_slice: source slice length does not match destination"))
      else Ok(IdentityKeyPair(c.ed25519Public(p), p))
  }

  /** Decrypting an encrypted identity under the same master key gives the
      same key pair back, so in particular the same public key. */
  lemma IdentityRoundTrip(c: Suite, id: IdentityKeyPair, masterKey: Bytes32, nonce: Bytes12)
    requires c.Laws() && id.Valid(c)
    ensures DecryptIdentity(c, EncryptIdentity(c, id, masterKey, nonce).value, masterKey) == Ok(id)
  {
    var enc := EncryptIdentity(c, id, masterKey, nonce).value;
    assert c.aesGcmOpen(masterKey, nonce, enc.encryptedSecret) == Some(id.secretKey);
  }

  // ===== Message encryption =====

  /** An X25519 key pair. */
  datatype MessageKeyPair = MessageKeyPair(publicKey: seq<byte>, secretKey: Bytes32)
  {
    ghost predicate Valid(c: Suite)
    {
      publicKey == c.x25519Public(secretKey)
    }
  }

  /** `MessageKeyPair::generate`, with the random secret as a parameter. */
  function GenerateMessageKeys(c: Suite, secret: Bytes32): (kp: MessageKeyPair)
    ensures kp.Valid(c) && kp.secretKey == secret
  {
    MessageKeyPair(c.x25519Public(secret), secret)
  }

  datatype EncryptedMessage = EncryptedMessage(
    ciphertext: seq<byte>, nonce: Bytes12, senderPubkey: seq<byte>, ephemeralPubkey: seq<byte>)

  /** The HKDF info label of message keys, the ASCII bytes of "SecureChat-v1". */
  const MessageInfo: seq<byte> := [0x53, 0x65, 0x63, 0x75, 0x72, 0x65, 0x43, 0x68, 0x61, 0x74, 0x2d, 0x76, 0x31]

  /** The AES key both sides derive: HKDF over `dh1 ‖ dh2`, 32 bytes. */
  function MessageKey(c: Suite, dh1: seq<byte>, dh2: seq<byte>): (r: Option<seq<byte>>)
    ensures r.Some?
    ensures c.Laws() ==> |r.value| == 32
  {
    Expand(c, dh1 + dh2, MessageInfo, 32)
  }

  /** The key the sender derives: static×static, then ephemeral×static. */
  function SenderKey(c: Suite, senderSecret: Bytes32, recipientPubkey: seq<byte>, ephemeralSecret: Bytes32): seq<byte>
  {
    MessageKey(c, c.x25519(senderSecret, recipientPubkey), c.x25519(ephemeralSecret, recipientPubkey)).value
  }

  /** The key the recipient derives from the two public keys in the message. */
  function RecipientKey(c: Suite, recipientSecret: Bytes32, senderPubkey: seq<byte>, ephemeralPubkey: seq<byte>): seq<byte>
  {
    MessageKey(c, c.x25519(recipientSecret, senderPubkey), c.x25519(recipientSecret, ephemeralPubkey)).value
  }

  /** Both sides derive the same key: the concatenation order and the info
      label agree, and X25519 commutes. */
  lemma {:induction false} KeyAgreement(c: Suite, senderSecret: Bytes32, recipientSecret: Bytes32, ephemeralSecret: Bytes32)
    requires c.Laws()
    ensures SenderKey(c, senderSecret, c.x25519Public(recipientSecret), ephemeralSecret)
         == RecipientKey(c, recipientSecret, c.x25519Public(senderSecret), c.x25519Public(ephemeralSecret))
  {
    assert c.x25519(senderSecret, c.x25519Public(recipientSecret)) == c.x25519(recipientSecret, c.x25519Public(senderSecret));
    assert c.x25519(ephemeralSecret, c.x25519Public(recipientSecret)) == c.x25519(recipientSecret, c.x25519Public(ephemeralSecret));
  }

  /** `MessageKeyPair::encrypt_message`, with the ephemeral secret and the
      nonce (both drawn from the OS generator) as parameters. */
  function EncryptMessage(c: Suite, sender: MessageKeyPair, recipientPubkey: seq<byte>, message: seq<byte>,
                          ephemeralSecret: Bytes32, nonce: Bytes12): (r: Result<EncryptedMessage>)
    ensures r.Ok? <==> |message| <= GcmMaxPlaintext
    ensures r.Ok? ==> r.value.senderPubkey == sender.publicKey && r.value.nonce == nonce
    ensures r.Ok? ==> r.value.ephemeralPubkey == c.x25519Public(ephemeralSecret)
    ensures r.Ok? ==> r.value.ciphertext == c.aesGcmSeal(SenderKey(c, sender.secretKey, recipientPubkey, ephemeralSecret), nonce, message)
  {
    var dh1 := c.x25519(sender.secretKey, recipientPubkey);
    var dh2 := c.x25519(ephemeralSecret, recipientPubkey);
    match MessageKey(c, dh1, dh2)
    case None => Err(Failure("HKDF expand failed" + HkdfErrorDebug))
    case Some(key) =>
      match Seal(c, key, nonce, message)
      case None => Err(Failure("Encryption failed" + AeadErrorDebug))
      case Some(ct) => Ok(EncryptedMessage(ct, nonce, sender.publicKey, c.x25519Public(ephemeralSecret)))
  }

  /** `MessageKeyPair::decrypt_message`. A success means the ciphertext is
      the sealing of the result under the recipient's derived key and the
      carried nonce: a modified ciphertext or nonce or a wrong key cannot
      yield any other plaintext. */
  function DecryptMessage(c: Suite, recipient: MessageKeyPair, enc: EncryptedMessage): (r: Result<seq<byte>>)
    ensures c.Laws() && r.Ok? ==>
      enc.ciphertext == c.aesGcmSeal(RecipientKey(c, recipient.secretKey, enc.senderPubkey, enc.ephemeralPubkey), enc.nonce, r.value)
  {
    var dh1 := c.x25519(recipient.secretKey, enc.senderPubkey);
    var dh2 := c.x25519(recipient.secretKey, enc.ephemeralPubkey);
    match MessageKey(c, dh1, dh2)
    case None => Err(Failure("HKDF expand failed" + HkdfErrorDebug))
    case Some(key) =>
      match c.aesGcmOpen(key, enc.nonce, enc.ciphertext)
      case None => Err(Failure("Decryption failed - wrong key or tampered message" + AeadErrorDebug))
      case Some(p) => Ok(p)
  }

  /** What the sender encrypts for the recipient's public key, the recipient decrypts. */
  lemma MessageRoundTrip(c: Suite, sender: MessageKeyPair, recipient: MessageKeyPair, message: seq<byte>,
                         ephemeralSecret: Bytes32, nonce: Bytes12)
    requires c.Laws() && sender.Valid(c) && recipient.Valid(c)
    requires |message| <= GcmMaxPlaintext
    ensures EncryptMessage(c, sender, recipient.publicKey, message, ephemeralSecret, nonce).Ok?
    ensures DecryptMessage(c, recipient, EncryptMessage(c, sender, recipient.publicKey, message, ephemeralSecret, nonce).value)
         == Ok(message)
  {
    KeyAgreement(c, sender.secretKey, recipient.secretKey, ephemeralSecret);
    var key := SenderKey(c, sender.secretKey, recipient.publicKey, ephemeralSecret);
    assert c.aesGcmOpen(key, nonce, c.aesGcmSeal(key, nonce, message)) == Some(message);
  }

  // ===== Ratchet state =====

  /** HKDF info labels of the ratchet step, the ASCII bytes of
      "ratchet-root", "ratchet-send" and "ratchet-recv". */
  const RootInfo: seq<byte> := [0x72, 0x61, 0x74, 0x63, 0x68, 0x65, 0x74, 0x2d, 0x72, 0x6f, 0x6f, 0x74]
  const SendInfo: seq<byte> := [0x72, 0x61, 0x74, 0x63, 0x68, 0x65, 0x74, 0x2d, 0x73, 0x65, 0x6e, 0x64]
  const RecvInfo: seq<byte> := [0x72, 0x61, 0x74, 0x63, 0x68, 0x65, 0x74, 0x2d, 0x72, 0x65, 0x63, 0x76]

  /** The three expansions of one ratchet step, all from the old root key,
      in the order the code performs them; `None` if any fails. */
  function RatchetKeys(c: Suite, rootKey: seq<byte>): (r: Option<(seq<byte>, seq<byte>, seq<byte>)>)
    ensures r.Some?
    ensures c.Laws() ==> |r.value.0| == 32 && |r.value.1| == 32 && |r.value.2| == 32
  {
    match Expand(c, rootKey, RootInfo, 32)
    case None => None
    case Some(root) =>
      match Expand(c, rootKey, SendInfo, 32)
      case None => None
      case Some(send) =>
        match Expand(c, rootKey, RecvInfo, 32)
        case None => None
        case Some(recv) => Some((root, send, recv))
  }

  /** The value of a `DoubleRatchet`, as it is serialized inside a conversation. */
  datatype RatchetState = RatchetState(
    rootKey: Bytes32,
    sendingChainKey: Option<Bytes32>,
    receivingChainKey: Option<Bytes32>,
    sendingMessageNumber: u32,
    receivingMessageNumber: u32,
    skippedMessageKeys: seq<(u32, Bytes32)>)

  /** `DoubleRatchet`: the per-conversation ratchet record. Only `initialize`
      and `ratchet` exist; nothing derives per-message keys or reads the
      skipped-key list. */
  class DoubleRatchet {
    var rootKey: Bytes32
    var sendingChainKey: Option<Bytes32>
    var receivingChainKey: Option<Bytes32>
    var sendingMessageNumber: u32
    var receivingMessageNumber: u32
    var skippedMessageKeys: seq<(u32, Bytes32)>

    /** The current field values as one record. */
    function State(): RatchetState
      reads this
    {
      RatchetState(rootKey, sendingChainKey, receivingChainKey,
                   sendingMessageNumber, receivingMessageNumber, skippedMessageKeys)
    }

    /** `DoubleRatchet::initialize`: the root key is the shared secret,
        no chain keys, both counters zero, nothing skipped. */
    constructor Initialize(sharedSecret: Bytes32)
      ensures rootKey == sharedSecret
      ensures sendingChainKey == None && receivingChainKey == None
      ensures sendingMessageNumber == 0 && receivingMessageNumber == 0
      ensures skippedMessageKeys == []
    {
      rootKey := sharedSecret;
      sendingChainKey := None;
      receivingChainKey := None;
      sendingMessageNumber := 0;
      receivingMessageNumber := 0;
      skippedMessageKeys := [];
    }

    /** `DoubleRatchet::ratchet`. The new keys are functions of the old
        root key alone (`newRemotePubkey` is not read), no field changes
        unless all three expansions succeed, and with 32-byte outputs they
        always do. */
    method Ratchet(c: Suite, newRemotePubkey: Bytes32) returns (r: Result<Unit>)
      requires c.Laws()
      modifies this
      ensures r.Ok? <==> RatchetKeys(c, old(rootKey)).Some?
      ensures r.Ok? ==>
        var keys := RatchetKeys(c, old(rootKey)).value;
        && rootKey == keys.0
        && sendingChainKey.Some? && sendingChainKey.value == keys.1
        && receivingChainKey.Some? && receivingChainKey.value == keys.2
        && sendingMessageNumber == 0 && receivingMessageNumber == 0
      ensures skippedMessageKeys == old(skippedMessageKeys)
      ensures r.Err? ==>
        && rootKey == old(rootKey)
        && sendingChainKey == old(sendingChainKey)
        && receivingChainKey == old(receivingChainKey)
        && sendingMessageNumber == old(sendingMessageNumber)
        && receivingMessageNumber == old(receivingMessageNumber)
    {
      var newRoot := Expand(c, rootKey, RootInfo, 32);
      if newRoot.None? {
        return Err(Failure("Ratchet root derivation failed" + HkdfErrorDebug));
      }
      var sending := Expand(c, rootKey, SendInfo, 32);
      if sending.None? {
        return Err(Failure("Ratchet send derivation failed" + HkdfErrorDebug));
      }
      var receiving := Expand(c, rootKey, RecvInfo, 32);
      if receiving.None? {
        return Err(Failure("Ratchet recv derivation failed" + HkdfErrorDebug));
      }
      rootKey := newRoot.value;
      sendingChainKey := Some(sending.value);
      receivingChainKey := Some(receiving.value);
      sendingMessageNumber := 0;
      receivingMessageNumber := 0;
      return Ok(Unit);
    }
  }
}

=== FILE: hex.dfy ===
/** Lower-case hexadecimal, as `blake3::Hash::to_hex` writes a digest. */
module Hex {
  import opened Bytes

  function Nibble(v: int): char
    requires 0 <= v < 16
  {
    if v < 10 then ('0' as int + v) as char else ('a' as int + (v - 10)) as char
  }

  predicate IsLowerHexDigit(c: char)
  {
    '0' <= c <= '9' || 'a' <= c <= 'f'
  }

  function Encode(b: seq<byte>): (s: string)
    ensures |s| == 2 * |b|
  {
    if b == [] then [] else [Nibble(b[0] / 16), Nibble(b[0] % 16)] + Encode(b[1..])
  }

  /** The first `2k` digits are the encoding of the first `k` bytes. */
  lemma {:induction false} EncodePrefix(b: seq<byte>, k: nat)
    requires k <= |b|
    ensures Encode(b)[..2 * k] == Encode(b[..k])
  {
    if k > 0 {
      EncodePrefix(b[1..], k - 1);
      assert b[..k][1..] == b[1..][..k - 1];
    }
  }

  lemma {:induction false} EncodeDigits(b: seq<byte>)
    ensures forall i :: 0 <= i < |Encode(b)| ==> IsLowerHexDigit(Encode(b)[i])
  {
    if b != [] {
      EncodeDigits(b[1..]);
      var s := Encode(b);
      forall i | 0 <= i < |s| ensures IsLowerHexDigit(s[i]) {
        if i >= 2 {
          assert s[i] == Encode(b[1..])[i - 2];
        }
      }
    }
  }
}

=== FILE: network.dfy ===
/** The networking layer of `core/src/network.rs` that is not swarm I/O:
    the event and command vocabularies, the default configuration, the
    stop decision of the command loop, the peer table and the contact QR
    string. */
module Network {
  import opened Wrappers
  import opened Bytes
  import opened Protocol
  import Serde
  import Base64

  datatype NetworkEvent =
    | MessageReceived(peerId: string, message: ProtocolMessage)
    | PeerDiscovered(peerId: string, addrs: seq<string>)
    | PeerConnected(peerId: string)
    | PeerDisconnected(peerId: string)
    | Connected
    | Disconnected

  datatype NetworkConfig = NetworkConfig(
    listenAddrs: seq<string>,
    bootstrapPeers: seq<string>,
    enableMdns: bool,
    topic: string)

  /** `NetworkConfig::default`: TCP and QUIC on any interface and port,
      no bootstrap peers, mDNS on, gossip topic "securechat-v1". */
  function DefaultConfig(): (cfg: NetworkConfig)
    ensures cfg.listenAddrs == ["/ip4/0.0.0.0/tcp/0", "/ip4/0.0.0.0/udp/0/quic-v1"]
    ensures cfg.bootstrapPeers == [] && cfg.enableMdns && cfg.topic == "securechat-v1"
  {
    NetworkConfig(["/ip4/0.0.0.0/tcp/0", "/ip4/0.0.0.0/udp/0/quic-v1"], [], true, "securechat-v1")
  }

  datatype NetworkCommand =
    | SendMessage(target: Option<string>, message: ProtocolMessage)
    | ConnectPeer(addr: string)
    | DisconnectPeer(peerId: string)
    | Shutdown

  /** `NetworkManager::handle_command`: `Ok(true)` asks the loop to stop.
      `parse` is what parsing an address as a multiaddr gives (its error is
      passed on as it is), `dial` what dialling the parsed address gives
      (its error is reported as "Failed to dial peer"); publish and
      disconnect failures are ignored by the code. Serializing a message
      never fails in the model, so "Failed to serialize message" never
      applies. */
  function HandleCommand(codec: Serde.Codec<ProtocolMessage>, parse: string -> Result<Unit>,
                         dial: string -> Result<Unit>, cmd: NetworkCommand): (r: Result<bool>)
    ensures r == Ok(true) <==> cmd.Shutdown?
    ensures r.Err? <==> cmd.ConnectPeer? && (parse(cmd.addr).Err? || dial(cmd.addr).Err?)
    ensures cmd.ConnectPeer? && parse(cmd.addr).Err? ==> r == Err(parse(cmd.addr).error)
    ensures cmd.ConnectPeer? && parse(cmd.addr).Ok? && dial(cmd.addr).Err? ==>
      r == Err(Context(dial(cmd.addr).error, "Failed to dial peer"))
  {
    match cmd
    case SendMessage(_, message) =>
      (match Serde.Serialize(codec, message)
       case Err(e) => Err(Context(e, "Failed to serialize message"))
       case Ok(_) => Ok(false))
    case ConnectPeer(addr) =>
      if parse(addr).Err? then Err(parse(addr).error)
      else if dial(addr).Err? then Err(Context(dial(addr).error, "Failed to dial peer"))
      else Ok(false)
    case DisconnectPeer(_) => Ok(false)
    case Shutdown => Ok(true)
  }

  /** The command side of `NetworkManager::run`: commands are handled in
      order; the loop ends on a stop request, when the channel closes (the
      commands run out), or with the first error. Returns how many
      commands were consumed. */
  method RunCommands(codec: Serde.Codec<ProtocolMessage>, parse: string -> Result<Unit>, dial: string -> Result<Unit>,
                     commands: seq<NetworkCommand>) returns (r: Result<nat>)
    ensures r.Ok? ==> r.value <= |commands|
    ensures r.Ok? ==> forall i :: 0 <= i < r.value ==> HandleCommand(codec, parse, dial, commands[i]).Ok?
    ensures r.Ok? ==> forall i :: 0 <= i < r.value - 1 ==> !commands[i].Shutdown?
    ensures r.Ok? && r.value < |commands| ==> r.value > 0 && commands[r.value - 1].Shutdown?
    ensures r.Ok? ==> forall i :: 0 <= i < |commands| && HandleCommand(codec, parse, dial, commands[i]).Err? ==> i >= r.value
    ensures r.Err? ==>
      exists i :: 0 <= i < |commands|
        && (forall j :: 0 <= j < i ==> HandleCommand(codec, parse, dial, commands[j]) == Ok(false))
        && HandleCommand(codec, parse, dial, commands[i]).Err?
        && r.error == HandleCommand(codec, parse, dial, commands[i]).error
  {
    var i := 0;
    while i < |commands|
      invariant 0 <= i <= |commands|
      invariant forall j :: 0 <= j < i ==> HandleCommand(codec, parse, dial, commands[j]) == Ok(false)
    {
      var stop := HandleCommand(codec, parse, dial, commands[i]);
      if stop.Err? {
        return Err(stop.error);
      }
      if stop.value {
        return Ok(i + 1);
      }
      i := i + 1;
    }
    return Ok(i);
  }

  /** A clock reading of `std::time::Instant`. */
  type Instant = int

  datatype PeerInfo = PeerInfo(
    peerId: string,
    publicKey: Bytes32,
    displayName: Option<string>,
    lastSeen: Instant,
    addresses: seq<string>,
    trusted: bool)

  /** `PeerManager`: known peers keyed by peer id. */
  class PeerManager {
    var knownPeers: map<string, PeerInfo>

    /** Each peer is filed under its own id. */
    ghost predicate Valid()
      reads this
    {
      forall id :: id in knownPeers ==> knownPeers[id].peerId == id
    }

    constructor ()
      ensures knownPeers == map[] && Valid()
    {
      knownPeers := map[];
    }

    /** `add_peer`: inserts, or replaces the entry with the same id. */
    method AddPeer(info: PeerInfo)
      requires Valid()
      modifies this
      ensures Valid()
      ensures knownPeers == old(knownPeers)[info.peerId := info]
      ensures GetPeer(info.peerId) == Some(info)
      ensures forall id :: id != info.peerId ==> GetPeer(id) == old(GetPeer(id))
    {
      knownPeers := knownPeers[info.peerId := info];
    }

    /** `get_peer`. */
    function GetPeer(peerId: string): (r: Option<PeerInfo>)
      reads this
      ensures r.Some? <==> peerId in knownPeers
      ensures Valid() && r.Some? ==> r.value.peerId == peerId
    {
      if peerId in knownPeers then Some(knownPeers[peerId]) else None
    }

    /** `update_last_seen`, with the clock reading as a parameter: an
        unknown id changes nothing; a known one changes only that peer's
        `last_seen`. */
    method UpdateLastSeen(peerId: string, now: Instant)
      requires Valid()
      modifies this
      ensures Valid()
      ensures peerId !in old(knownPeers) ==> knownPeers == old(knownPeers)
      ensures peerId in old(knownPeers) ==> knownPeers == old(knownPeers)[peerId := old(knownPeers)[peerId].(lastSeen := now)]
      ensures knownPeers.Keys == old(knownPeers.Keys)
    {
      if peerId in knownPeers {
        knownPeers := knownPeers[peerId := knownPeers[peerId].(lastSeen := now)];
      }
    }

    /** `get_trusted_peers`: every stored peer with `trusted` set, each
        once, in the map's iteration order (any order here). */
    method GetTrustedPeers() returns (r: seq<PeerInfo>)
      requires Valid()
      ensures forall p :: p in r <==> p in knownPeers.Values && p.trusted
      ensures forall i, j :: 0 <= i < j < |r| ==> r[i].peerId != r[j].peerId
    {
      var remaining := knownPeers.Keys;
      r := [];
      while remaining != {}
        invariant remaining <= knownPeers.Keys
        invariant forall p :: p in r <==> p.peerId in knownPeers.Keys - remaining && knownPeers[p.peerId] == p && p.trusted
        invariant forall i, j :: 0 <= i < j < |r| ==> r[i].peerId != r[j].peerId
        decreases |remaining|
      {
        var id :| id in remaining;
        var peer := knownPeers[id];
        if peer.trusted {
          r := r + [peer];
        }
        remaining := remaining - {id};
      }
    }
  }

  const QrPrefix: string := "securechat://contact?key="
  const QrNameField: string := "&name="

  /** The key part of a contact QR is always 44 Base64 characters. */
  lemma QrKeyLength(publicKey: Bytes32)
    ensures |Base64.Encode(publicKey)| == 44
  {
    Base64.EncodeLength(publicKey);
  }

  /** `utils::generate_contact_qr`: the key in standard Base64 (always 44
      characters for 32 bytes), then the display name exactly as given,
      with no escaping. */
  function GenerateContactQr(publicKey: Bytes32, displayName: string): (qr: string)
    ensures |qr| == |QrPrefix| + 44 + |QrNameField| + |displayName|
    ensures qr[..|QrPrefix|] == QrPrefix
    ensures Base64.Decode(qr[|QrPrefix|..|QrPrefix| + 44]) == Some(publicKey)
    ensures qr[|QrPrefix| + 44..|QrPrefix| + 44 + |QrNameField|] == QrNameField
    ensures qr[|QrPrefix| + 44 + |QrNameField|..] == displayName
  {
    QrKeyLength(publicKey);
    Base64.DecodeEncode(publicKey);
    var key := Base64.Encode(publicKey);
    ConcatParts(QrPrefix, key, QrNameField, displayName);
    QrPrefix + key + QrNameField + displayName
  }

  /** The key part of a contact QR is exactly the standard Base64 of the
      key: the decoder accepts only canonical encodings, so the part that
      decodes to the key is that encoding. */
  lemma QrKeyCanonical(publicKey: Bytes32, displayName: string)
    ensures var qr := GenerateContactQr(publicKey, displayName);
      qr[|QrPrefix|..|QrPrefix| + 44] == Base64.Encode(publicKey)
  {
    var qr := GenerateContactQr(publicKey, displayName);
    Base64.EncodeDecode(qr[|QrPrefix|..|QrPrefix| + 44], publicKey);
  }

  /** Each part of a four-part concatenation sits at its offset. */
  lemma ConcatParts(a: string, b: string, c: string, d: string)
    ensures var s := a + b + c + d;
      && |s| == |a| + |b| + |c| + |d|
      && s[..|a|] == a && s[|a|..|a| + |b|] == b
      && s[|a| + |b|..|a| + |b| + |c|] == c && s[|a| + |b| + |c|..] == d
  {
  }

  /** `utils::parse_contact_qr`: not implemented by the code; every input
      is rejected, so it does not invert `GenerateContactQr`. */
  function ParseContactQr(qr: string): (r: Result<(string, Bytes32)>)
    ensures r.Err? && r.error == Failure("QR parsing not implemented")
  {
    Err(Failure("QR parsing not implemented"))
  }
}

=== FILE: primitives.dfy ===
/** The cryptographic primitives the code calls into, as function values
    with only the algebraic laws the model relies on. Nothing here is an
    implementation of AES-256-GCM, X25519, HKDF, Argon2id, Ed25519 or
    BLAKE3: each is whatever function a `Suite` holds, and every property
    proved about the code holds for every `Suite` that satisfies `Laws`. */
module Primitives {
  import opened Wrappers
  import opened Bytes

  /** Output length of SHA-256, the hash under HKDF. */
  const HashLen: nat := 32

  /** Longest plaintext AES-GCM accepts: 2^39 - 256 bits, section 5.2.1.1 of
      NIST SP 800-38D. */
  const GcmMaxPlaintext: nat := 0x10_0000_0000 - 32

  datatype Suite = Suite(
    /** AES-256-GCM encryption and decryption: (key, nonce, input). */
    aesGcmSeal: (seq<byte>, seq<byte>, seq<byte>) -> seq<byte>,
    aesGcmOpen: (seq<byte>, seq<byte>, seq<byte>) -> Option<seq<byte>>,
    /** X25519 (RFC 7748): the public key of a secret, and the shared
        secret of (own secret, peer public key). */
    x25519Public: seq<byte> -> seq<byte>,
    x25519: (seq<byte>, seq<byte>) -> seq<byte>,
    /** HKDF-SHA256 (RFC 5869) with no salt: extract from the input keying
        material, then expand with (info, length). */
    hkdfSha256: (seq<byte>, seq<byte>, nat) -> seq<byte>,
    /** Argon2id with default parameters: the raw hash of (password, salt). */
    argon2id: (string, seq<byte>) -> seq<byte>,
    /** Ed25519: verifying key of a signing key, signature, strict verification. */
    ed25519Public: seq<byte> -> seq<byte>,
    ed25519Sign: (seq<byte>, seq<byte>) -> seq<byte>,
    ed25519Verify: (seq<byte>, seq<byte>, seq<byte>) -> bool,
    /** BLAKE3 digest. */
    blake3: seq<byte> -> seq<byte>)
  {
    /** What the model assumes of the primitives. The AEAD is idealised:
        opening succeeds on exactly the ciphertexts sealing produces under
        the same key and nonce, and then yields what was sealed. */
    ghost predicate Laws()
    {
      && (forall k, n, p {:trigger aesGcmOpen(k, n, aesGcmSeal(k, n, p))} :: aesGcmOpen(k, n, aesGcmSeal(k, n, p)) == Some(p))
      && (forall k, n, ct :: aesGcmOpen(k, n, ct).Some? ==> ct == aesGcmSeal(k, n, aesGcmOpen(k, n, ct).value))
      && (forall s :: |x25519Public(s)| == 32)
      && (forall a, p :: |x25519(a, p)| == 32)
      && (forall a, b :: x25519(a, x25519Public(b)) == x25519(b, x25519Public(a)))
      && (forall ikm, info, len :: |hkdfSha256(ikm, info, len)| == len)
      && (forall pw, salt :: |argon2id(pw, salt)| >= 32)
      && (forall sk :: |ed25519Public(sk)| == 32)
      && (forall sk, m :: ed25519Verify(ed25519Public(sk), m, ed25519Sign(sk, m)))
      && (forall m :: |blake3(m)| == 32)
    }
  }

  /** `Aes256Gcm::encrypt`: fails only on an over-long plaintext. */
  function Seal(c: Suite, key: seq<byte>, nonce: seq<byte>, plaintext: seq<byte>): (r: Option<seq<byte>>)
    ensures r.Some? <==> |plaintext| <= GcmMaxPlaintext
  {
    if |plaintext| > GcmMaxPlaintext then None else Some(c.aesGcmSeal(key, nonce, plaintext))
  }

  /** `Hkdf::<Sha256>::new(None, ikm).expand(info, okm)` for an output of
      `len` bytes: section 2.3 of RFC 5869 allows at most 255 * HashLen. */
  function Expand(c: Suite, ikm: seq<byte>, info: seq<byte>, len: nat): (r: Option<seq<byte>>)
    ensures r.Some? <==> len <= 255 * HashLen
    ensures c.Laws() && r.Some? ==> |r.value| == len
  {
    if len > 255 * HashLen then None else Some(c.hkdfSha256(ikm, info, len))
  }

  /** A toy AEAD: the "ciphertext" is key, nonce and plaintext side by side. */
  function ToySeal(k: seq<byte>, n: seq<byte>, p: seq<byte>): seq<byte>
  {
    k + n + p
  }

  function ToyOpen(k: seq<byte>, n: seq<byte>, ct: seq<byte>): Option<seq<byte>>
  {
    if |ct| >= |k| + |n| && ct[..|k|] == k && ct[|k|..|k| + |n|] == n then Some(ct[|k| + |n|..]) else None
  }

  lemma ToyOpenSeal(k: seq<byte>, n: seq<byte>, p: seq<byte>)
    ensures ToyOpen(k, n, ToySeal(k, n, p)) == Some(p)
  {
    var ct := k + n + p;
    assert ct[..|k|] == k && ct[|k|..|k| + |n|] == n && ct[|k| + |n|..] == p;
  }

  lemma ToyOpenOnlySealed(k: seq<byte>, n: seq<byte>, ct: seq<byte>)
    requires ToyOpen(k, n, ct).Some?
    ensures ct == ToySeal(k, n, ToyOpen(k, n, ct).value)
  {
    assert ct == ct[..|k|] + ct[|k|..|k| + |n|] + ct[|k| + |n|..];
  }

  /** A toy suite satisfies `Laws`, so assuming them assumes nothing false. */
  lemma LawsSatisfiable()
    ensures exists c: Suite :: c.Laws()
  {
    var c := Suite(
      ToySeal,
      ToyOpen,
      (s: seq<byte>) => Zeros(32),
      (a: seq<byte>, p: seq<byte>) => Zeros(32),
      (ikm: seq<byte>, info: seq<byte>, len: nat) => Zeros(len),
      (pw: string, salt: seq<byte>) => Zeros(32),
      (sk: seq<byte>) => Zeros(32),
      (sk: seq<byte>, m: seq<byte>) => [],
      (pk: seq<byte>, m: seq<byte>, sig: seq<byte>) => true,
      (m: seq<byte>) => Zeros(32));
    forall k, n, p ensures ToyOpen(k, n, ToySeal(k, n, p)) == Some(p) {
      ToyOpenSeal(k, n, p);
    }
    forall k, n, ct | ToyOpen(k, n, ct).Some?
      ensures ct == ToySeal(k, n, ToyOpen(k, n, ct).value)
    {
      ToyOpenOnlySealed(k, n, ct);
    }
    assert c.Laws();
  }
}

=== FILE: protocol.dfy ===
/** The value types exchanged and stored by the application
    (`core/src/protocol.rs`) and their few operations. */
module Protocol {
  import opened Wrappers
  import opened Bytes
  import opened Primitives
  import opened Crypto
  import Serde
  import Utf8
  import Hex
  import Base64

  /** An `OffsetDateTime`, as an instant on a single integer time line. */
  type Timestamp = int

  /** The raw bits of an IEEE 754 `f64` / `f32`; the model never computes with them. */
  datatype F64 = F64(bits: bv64)
  datatype F32 = F32(bits: bv32)

  datatype Contact = Contact(
    id: string,
    displayName: string,
    publicKey: Bytes32,
    addedAt: Timestamp,
    lastSeen: Option<Timestamp>,
    verified: bool,
    blocked: bool)

  /** Message bodies. The source's `Contact` variant is `ContactCard` here,
      apart from the `Contact` record above. */
  datatype MessageContent =
    | Text(text: string)
    | Image(data: seq<byte>, mimeType: string, caption: Option<string>)
    | File(data: seq<byte>, filename: string, mimeType: string)
    | Voice(data: seq<byte>, durationSecs: u32)
    | Location(latitude: F64, longitude: F64, accuracy: Option<F32>)
    | ContactCard(name: string, publicKey: Bytes32)

  datatype MessageEnvelope = MessageEnvelope(
    id: string,
    senderId: string,
    recipientId: string,
    timestamp: Timestamp,
    encryptedContent: EncryptedMessage,
    signature: seq<byte>,
    replyTo: Option<string>)

  /** A message as stored locally, decrypted. */
  datatype LocalMessage = LocalMessage(
    id: string,
    conversationId: string,
    senderId: string,
    isOutgoing: bool,
    content: MessageContent,
    timestamp: Timestamp,
    sent: bool,
    delivered: bool,
    read: bool,
    replyTo: Option<string>)

  datatype Conversation = Conversation(
    id: string,
    contactId: string,
    createdAt: Timestamp,
    updatedAt: Timestamp,
    lastMessagePreview: Option<string>,
    unreadCount: u32,
    archived: bool,
    pinned: bool,
    ratchetState: Option<RatchetState>)

  datatype UserProfile = UserProfile(
    displayName: string,
    statusMessage: Option<string>,
    avatar: Option<seq<byte>>,
    createdAt: Timestamp)

  datatype Platform = Linux | Windows | Android | MacOS | IOS | Unknown

  datatype DeviceInfo = DeviceInfo(
    deviceId: string,
    deviceName: string,
    platform: Platform,
    lastSeen: Timestamp,
    identityKey: EncryptedIdentityKeys)

  /** Messages of the peer-to-peer protocol (the `display_name` of a contact
      request is `requesterName` here). `ContactRequest` carries a key
      bundle and `ContactResponse` optionally one, both as nested messages. */
  datatype ProtocolMessage =
    | KeyBundle(identityKey: Bytes32, signedPrekey: Bytes32, signedPrekeySignature: seq<byte>,
                oneTimePrekeys: seq<Bytes32>)
    | Encrypted(envelope: MessageEnvelope)
    | DeliveryReceipt(messageId: string, timestamp: Timestamp)
    | ReadReceipt(messageId: string, timestamp: Timestamp)
    | Typing(conversationId: string, isTyping: bool)
    | ProfileUpdate(displayName: Option<string>, statusMessage: Option<string>, avatarHash: Option<string>)
    | ContactRequest(requesterName: string, message: string, keyBundle: ProtocolMessage)
    | ContactResponse(accepted: bool, responseBundle: Option<ProtocolMessage>)
    | SyncRequest(deviceId: string, nonce: Bytes32)
    | SyncData(conversations: seq<Conversation>, contacts: seq<Contact>, settings: map<string, string>)

  /** `generate_id`: standard Base64 of 16 random bytes (given here as a
      parameter); 24 characters, and it decodes back to those bytes. */
  function GenerateId(random: Bytes16): (id: string)
    ensures |id| == 24
    ensures Base64.Decode(id) == Some(random)
  {
    IdLength(random);
    Base64.DecodeEncode(random);
    Base64.Encode(random)
  }

  lemma IdLength(random: Bytes16)
    ensures |Base64.Encode(random)| == 24
  {
    Base64.EncodeLength(random);
  }

  /** `Contact::new`, with the clock reading as a parameter: a fresh contact
      is unverified, unblocked and has never been seen. */
  function NewContact(id: string, displayName: string, publicKey: Bytes32, now: Timestamp): (ct: Contact)
    ensures ct.id == id && ct.displayName == displayName && ct.publicKey == publicKey
    ensures ct.addedAt == now && ct.lastSeen == None && !ct.verified && !ct.blocked
  {
    Contact(id, displayName, publicKey, now, None, false, false)
  }

  /** `Contact::fingerprint`: the first 32 characters of the lowercase hex
      BLAKE3 digest of the public key, i.e. the hex of its first 16 bytes. */
  function Fingerprint(c: Suite, contact: Contact): (f: string)
    requires c.Laws()
    ensures |f| == 32
    ensures f == Hex.Encode(c.blake3(contact.publicKey)[..16])
    ensures forall i :: 0 <= i < |f| ==> Hex.IsLowerHexDigit(f[i])
  {
    var digest := c.blake3(contact.publicKey);
    Hex.EncodePrefix(digest, 16);
    Hex.EncodeDigits(digest);
    Hex.Encode(digest)[..32]
  }

  /** Longest text, in UTF-8 bytes, shown whole in a preview. */
  const PreviewLimit: nat := 100

  /** `LocalMessage::preview_text`. Slicing a text at byte 100 panics when
      that byte is inside a multi-byte character. */
  function PreviewText(m: LocalMessage): (r: Result<string>)
    ensures m.content.Text? && Utf8.ByteLen(m.content.text) <= PreviewLimit ==> r == Ok(m.content.text)
    ensures m.content.Text? && Utf8.ByteLen(m.content.text) > PreviewLimit && r.Ok? ==>
      && |r.value| >= 3
      && r.value[|r.value| - 3..] == "..."
      && r.value[..|r.value| - 3] <= m.content.text
      && Utf8.ByteLen(r.value[..|r.value| - 3]) == PreviewLimit
    ensures r.Err? <==>
      && m.content.Text?
      && Utf8.ByteLen(m.content.text) > PreviewLimit
      && forall k :: 0 <= k <= |m.content.text| ==> Utf8.ByteLen(m.content.text[..k]) != PreviewLimit
    ensures m.content.Image? ==>
      r == Ok(if m.content.caption.Some? then m.content.caption.value else "\U{1F4F7} Image")
    ensures m.content.File? ==> r == Ok("\U{1F4CE} " + m.content.filename)
    ensures m.content.Voice? ==> r == Ok("\U{1F3A4} Voice message")
    ensures m.content.Location? ==> r == Ok("\U{1F4CD} Location")
    ensures m.content.ContactCard? ==> r == Ok("\U{1F464} Contact: " + m.content.name)
  {
    match m.content
    case Text(text) =>
      if Utf8.ByteLen(text) > PreviewLimit then
        match Utf8.BoundaryPrefix(text, PreviewLimit)
        case None =>
          Utf8.BoundaryPrefixNone(text, PreviewLimit);
          Err(Panic("byte index 100 is not a char boundary"))
        case Some(p) =>
          assert text[..|p|] == p;
          assert (p + "...")[..|p|] == p;
          Ok(p + "...")
      else Ok(text)
    case Image(_, _, caption) => Ok(if caption.Some? then caption.value else "\U{1F4F7} Image")
    case File(_, filename, _) => Ok("\U{1F4CE} " + filename)
    case Voice(_, _) => Ok("\U{1F3A4} Voice message")
    case Location(_, _, _) => Ok("\U{1F4CD} Location")
    case ContactCard(name, _) => Ok("\U{1F464} Contact: " + name)
  }

  /** A text preview is never longer than 103 bytes: the limit plus "...". */
  lemma TextPreviewBound(m: LocalMessage)
    requires m.content.Text? && PreviewText(m).Ok?
    ensures Utf8.ByteLen(PreviewText(m).value) <= PreviewLimit + 3
  {
    var r := PreviewText(m).value;
    if Utf8.ByteLen(m.content.text) > PreviewLimit {
      var p := r[..|r| - 3];
      assert r == p + "...";
      Utf8.ByteLenAppend(p, "...");
      Utf8.AsciiByteLen("...");
    }
  }

  /** A text of 99 ASCII letters and one two-byte character is 101 bytes
      long, and byte 100 falls inside the last character: the preview of
      such a message panics. */
  lemma PreviewTextPanics(m: LocalMessage)
    requires m.content == Text(seq(99, _ => 'a') + ['\U{E9}'])
    ensures PreviewText(m).Err? && PreviewText(m).error.Panic?
  {
    var a: string := seq(99, _ => 'a');
    var t := m.content.text;
    Utf8.AsciiByteLen(a);
    Utf8.ByteLenAppend(a, ['\U{E9}']);
    assert Utf8.ByteLen(['\U{E9}']) == 2;
    forall k | 0 <= k <= |t| ensures Utf8.ByteLen(t[..k]) != PreviewLimit {
      if k < |t| {
        assert t[..k] == a[..k];
        Utf8.AsciiByteLen(a[..k]);
      } else {
        assert t[..k] == t;
      }
    }
  }

  /** The evidently intended `preview_text`: a long text is cut at the last
      character boundary not after byte 100, so no message makes it panic. */
  function PreviewTextCorrected(m: LocalMessage): (r: string)
    ensures m.content.Text? && Utf8.ByteLen(m.content.text) <= PreviewLimit ==> r == m.content.text
    ensures m.content.Text? && Utf8.ByteLen(m.content.text) > PreviewLimit ==>
      && |r| >= 3
      && r[|r| - 3..] == "..."
      && r[..|r| - 3] <= m.content.text
      && Utf8.ByteLen(r[..|r| - 3]) <= PreviewLimit
      && |r| - 3 < |m.content.text|
      && Utf8.ByteLen(m.content.text[..|r| - 2]) > PreviewLimit
    ensures !m.content.Text? ==> PreviewText(m) == Ok(r)
  {
    match m.content
    case Text(text) =>
      if Utf8.ByteLen(text) > PreviewLimit then
        var p := Utf8.FloorPrefix(text, PreviewLimit);
        assert (p + "...")[..|p|] == p;
        p + "..."
      else text
    case _ => PreviewText(m).value
  }

  /** Wherever the code does not panic, the corrected preview is the one it gives. */
  lemma PreviewTextCorrectedAgrees(m: LocalMessage)
    requires PreviewText(m).Ok?
    ensures PreviewText(m) == Ok(PreviewTextCorrected(m))
  {
    if m.content.Text? && Utf8.ByteLen(m.content.text) > PreviewLimit {
      Utf8.FloorPrefixAgrees(m.content.text, PreviewLimit);
    }
  }

  /** `Conversation::new`, with the generated id and the clock reading as parameters. */
  function NewConversation(id: string, contactId: string, now: Timestamp): (conv: Conversation)
    ensures conv.id == id && conv.contactId == contactId
    ensures conv.createdAt == now && conv.updatedAt == conv.createdAt
    ensures conv.lastMessagePreview == None && conv.unreadCount == 0
    ensures !conv.archived && !conv.pinned && conv.ratchetState == None
  {
    Conversation(id, contactId, now, now, None, 0, false, false, None)
  }

  /** `MessageEnvelope::serialize` / `deserialize` over a bincode codec. */
  function SerializeEnvelope(codec: Serde.Codec<MessageEnvelope>, e: MessageEnvelope): (r: Result<seq<byte>>)
    ensures codec.RoundTrips() ==> r.Ok? && DeserializeEnvelope(codec, r.value) == Ok(e)
  {
    Serde.Serialize(codec, e)
  }

  function DeserializeEnvelope(codec: Serde.Codec<MessageEnvelope>, data: seq<byte>): (r: Result<MessageEnvelope>)
    ensures r.Err? ==> r.error == Failure("Failed to deserialize message envelope")
  {
    Serde.Deserialize(codec, data, "Failed to deserialize message envelope")
  }
}

=== FILE: serde.dfy ===
/** Serialization as the code uses it: bincode for stored records and
    envelopes, serde_json for the exported key store. The wire formats are
    not modelled; a codec is any pair of functions that round-trips. */
module Serde {
  import opened Wrappers
  import opened Bytes

  datatype Codec<!T(!new)> = Codec(ser: T -> seq<byte>, de: seq<byte> -> Option<T>)
  {
    /** Deserializing what was serialized gives the value back. */
    ghost predicate RoundTrips()
    {
      forall x {:trigger ser(x)} :: de(ser(x)) == Some(x)
    }
  }

  /** `bincode::serialize`: in the model it never fails. */
  function Serialize<T(!new)>(codec: Codec<T>, x: T): (r: Result<seq<byte>>)
    ensures r.Ok? && codec.RoundTrips() ==> codec.de(r.value) == Some(x)
    ensures r.Ok?
  {
    Ok(codec.ser(x))
  }

  /** `bincode::deserialize` with the caller's error context. */
  function Deserialize<T(!new)>(codec: Codec<T>, data: seq<byte>, context: string): (r: Result<T>)
    ensures r.Ok? <==> codec.de(data).Some?
    ensures r.Err? ==> r.error == Failure(context)
  {
    match codec.de(data)
    case None => Err(Failure(context))
    case Some(x) => Ok(x)
  }
}

=== FILE: sled.dfy ===
/** The embedded key-value store underneath the storage layer, as the code
    uses it: point reads, inserts and removals, and prefix scans in key
    order. The tree is a list of entries with strictly increasing keys.
    Keys are compared as strings; UTF-8 preserves code-point order
    (section 1 of RFC 3629), so this is the byte order the store uses. */
module Sled {
  import opened Wrappers
  import opened Bytes

  datatype Entry = Entry(key: string, value: seq<byte>)

  /** Strict lexicographic order on keys. */
  predicate Below(a: string, b: string)
    decreases |a|
  {
    if a == [] then b != []
    else b != [] && (a[0] < b[0] || (a[0] == b[0] && Below(a[1..], b[1..])))
  }

  lemma {:induction false} BelowIrreflexive(a: string)
    ensures !Below(a, a)
    decreases |a|
  {
    if a != [] {
      BelowIrreflexive(a[1..]);
    }
  }

  lemma {:induction false} BelowTransitive(a: string, b: string, c: string)
    requires Below(a, b) && Below(b, c)
    ensures Below(a, c)
    decreases |a|
  {
    if a != [] && a[0] == b[0] && b[0] == c[0] {
      BelowTransitive(a[1..], b[1..], c[1..]);
    }
  }

  lemma {:induction false} BelowTotal(a: string, b: string)
    requires a != b
    ensures Below(a, b) || Below(b, a)
    decreases |a|
  {
    if a != [] && b != [] && a[0] == b[0] {
      assert a == [a[0]] + a[1..] && b == [b[0]] + b[1..];
      BelowTotal(a[1..], b[1..]);
    }
  }

  /** Keys strictly increase along the tree. */
  ghost predicate Sorted(db: seq<Entry>)
  {
    forall i, j :: 0 <= i < j < |db| ==> Below(db[i].key, db[j].key)
  }

  /** `Tree::get`. */
  function Get(db: seq<Entry>, key: string): (r: Option<seq<byte>>)
    ensures r.Some? ==> Entry(key, r.value) in db
    ensures r.None? ==> forall i :: 0 <= i < |db| ==> db[i].key != key
  {
    if db == [] then None
    else if db[0].key == key then Some(db[0].value)
    else Get(db[1..], key)
  }

  /** `Tree::insert`: replaces the value of an existing key, otherwise adds
      the entry at its place in key order. */
  function Insert(db: seq<Entry>, key: string, value: seq<byte>): (r: seq<Entry>)
    ensures forall e :: e in r ==> e == Entry(key, value) || e in db
  {
    if db == [] then [Entry(key, value)]
    else if db[0].key == key then [Entry(key, value)] + db[1..]
    else if Below(key, db[0].key) then [Entry(key, value)] + db
    else [db[0]] + Insert(db[1..], key, value)
  }

  /** `Tree::remove`. */
  function Remove(db: seq<Entry>, key: string): (r: seq<Entry>)
    ensures forall e :: e in r <==> e in db && e.key != key
  {
    if db == [] then []
    else if db[0].key == key then Remove(db[1..], key)
    else [db[0]] + Remove(db[1..], key)
  }

  /** `Tree::scan_prefix`: the entries whose key starts with `prefix`, in
      tree order. */
  function ScanPrefix(db: seq<Entry>, prefix: string): (r: seq<Entry>)
    ensures forall e :: e in r <==> e in db && prefix <= e.key
    ensures |r| <= |db|
  {
    if db == [] then []
    else if prefix <= db[0].key then [db[0]] + ScanPrefix(db[1..], prefix)
    else ScanPrefix(db[1..], prefix)
  }

  /** A sorted tree stays sorted under insertion. */
  lemma {:induction false} InsertSorted(db: seq<Entry>, key: string, value: seq<byte>)
    requires Sorted(db)
    ensures Sorted(Insert(db, key, value))
  {
    if db == [] {
    } else if db[0].key == key {
    } else if Below(key, db[0].key) {
      var r := Insert(db, key, value);
      forall i, j | 0 <= i < j < |r| ensures Below(r[i].key, r[j].key) {
        if i == 0 && j > 1 {
          BelowTransitive(key, db[0].key, db[j - 1].key);
        }
      }
    } else {
      BelowTotal(key, db[0].key);
      InsertSorted(db[1..], key, value);
      var rest := Insert(db[1..], key, value);
      var r := [db[0]] + rest;
      forall j | 0 < j < |r| ensures Below(r[0].key, r[j].key) {
        assert r[j] in rest;
      }
    }
  }

  lemma {:induction false} RemoveSorted(db: seq<Entry>, key: string)
    requires Sorted(db)
    ensures Sorted(Remove(db, key))
  {
    if db != [] {
      RemoveSorted(db[1..], key);
      var rest := Remove(db[1..], key);
      if db[0].key != key {
        var r := [db[0]] + rest;
        forall j | 0 < j < |r| ensures Below(r[0].key, r[j].key) {
          assert r[j] in rest;
        }
      }
    }
  }

  lemma {:induction false} ScanPrefixSorted(db: seq<Entry>, prefix: string)
    requires Sorted(db)
    ensures Sorted(ScanPrefix(db, prefix))
  {
    if db != [] {
      ScanPrefixSorted(db[1..], prefix);
      var rest := ScanPrefix(db[1..], prefix);
      if prefix <= db[0].key {
        var r := [db[0]] + rest;
        forall j | 0 < j < |r| ensures Below(r[0].key, r[j].key) {
          assert r[j] in rest;
        }
      }
    }
  }

  /** Reading back: an inserted key maps to the new value, every other key
      to what it mapped to before. */
  lemma {:induction false} GetInsert(db: seq<Entry>, key: string, value: seq<byte>, other: string)
    ensures Get(Insert(db, key, value), other) == if other == key then Some(value) else Get(db, other)
  {
    if db != [] && db[0].key != key && !Below(key, db[0].key) {
      GetInsert(db[1..], key, value, other);
    }
  }

  /** A removed key is absent; every other key is untouched. */
  lemma {:induction false} GetRemove(db: seq<Entry>, key: string, other: string)
    ensures Get(Remove(db, key), other) == if other == key then None else Get(db, other)
  {
    if db != [] {
      GetRemove(db[1..], key, other);
    }
  }

  /** In a sorted tree each key occurs at most once, so `Get` finds the
      value of any entry present. */
  lemma {:induction false} GetSorted(db: seq<Entry>, e: Entry)
    requires Sorted(db) && e in db
    ensures Get(db, e.key) == Some(e.value)
  {
    if db[0] != e {
      assert e in db[1..];
      if db[0].key == e.key {
        var j :| 0 <= j < |db| && db[j] == e;
        BelowIrreflexive(e.key);
      }
      GetSorted(db[1..], e);
    }
  }

  /** Inserting a key outside a prefix leaves the scan of that prefix as it was. */
  lemma {:induction false} ScanPrefixInsertOther(db: seq<Entry>, prefix: string, key: string, value: seq<byte>)
    requires !(prefix <= key)
    ensures ScanPrefix(Insert(db, key, value), prefix) == ScanPrefix(db, prefix)
  {
    if db != [] && db[0].key != key && !Below(key, db[0].key) {
      ScanPrefixInsertOther(db[1..], prefix, key, value);
      assert ([db[0]] + Insert(db[1..], key, value))[1..] == Insert(db[1..], key, value);
    } else if db != [] {
      var r := Insert(db, key, value);
      assert r[1..] == (if db[0].key == key then db[1..] else db);
    }
  }

  /** Inserting a key under a prefix that had no entries makes that entry
      the whole scan. */
  lemma {:induction false} ScanPrefixInsertFirst(db: seq<Entry>, prefix: string, key: string, value: seq<byte>)
    requires prefix <= key && ScanPrefix(db, prefix) == []
    ensures ScanPrefix(Insert(db, key, value), prefix) == [Entry(key, value)]
  {
    if db == [] {
    } else if db[0].key == key {
      assert false;
    } else if Below(key, db[0].key) {
      assert ([Entry(key, value)] + db)[1..] == db;
    } else {
      assert !(prefix <= db[0].key);
      ScanPrefixInsertFirst(db[1..], prefix, key, value);
      assert ([db[0]] + Insert(db[1..], key, value))[1..] == Insert(db[1..], key, value);
    }
  }
}

=== FILE: sorting.dfy ===
/** `slice::sort_by` with a comparator that compares one integer key:
    a stable sort, here an insertion sort working from the back that puts
    each element in front of the later elements with an equal key. */
module Sorting {

  predicate SortedBy<T>(s: seq<T>, key: T -> int)
  {
    forall i, j :: 0 <= i < j < |s| ==> key(s[i]) <= key(s[j])
  }

  /** Inserts `x` into `s` in front of the first element whose key is not smaller. */
  function InsertBy<T>(x: T, s: seq<T>, key: T -> int): (r: seq<T>)
    ensures |r| == |s| + 1
  {
    if s == [] || key(x) <= key(s[0]) then [x] + s
    else [s[0]] + InsertBy(x, s[1..], key)
  }

  /** Insertion adds `x` and loses nothing. */
  lemma {:induction false} InsertByPermutes<T>(x: T, s: seq<T>, key: T -> int)
    ensures multiset(InsertBy(x, s, key)) == multiset(s) + multiset{x}
  {
    if s != [] && key(x) > key(s[0]) {
      InsertByPermutes(x, s[1..], key);
      assert s == [s[0]] + s[1..];
    }
  }

  lemma {:induction false} InsertBySorted<T>(x: T, s: seq<T>, key: T -> int)
    requires SortedBy(s, key)
    ensures SortedBy(InsertBy(x, s, key), key)
  {
    if s != [] && key(x) > key(s[0]) {
      InsertBySorted(x, s[1..], key);
      InsertByPermutes(x, s[1..], key);
      var rest := InsertBy(x, s[1..], key);
      forall j | 0 <= j < |rest| ensures key(s[0]) <= key(rest[j]) {
        assert rest[j] in multiset(rest);
        assert rest[j] == x || rest[j] in multiset(s[1..]);
      }
    }
  }

  /** The sort: `key`-ascending. A descending sort is this one on the
      negated key. */
  function SortBy<T>(s: seq<T>, key: T -> int): (r: seq<T>)
    ensures multiset(r) == multiset(s)
    ensures |r| == |s|
    ensures SortedBy(r, key)
  {
    if s == [] then []
    else
      assert s == [s[0]] + s[1..];
      InsertBySorted(s[0], SortBy(s[1..], key), key);
      InsertByPermutes(s[0], SortBy(s[1..], key), key);
      InsertBy(s[0], SortBy(s[1..], key), key)
  }

  /** The elements whose key is `k`, in their order in `s`. */
  function WithKey<T>(s: seq<T>, key: T -> int, k: int): seq<T>
  {
    if s == [] then [] else (if key(s[0]) == k then [s[0]] else []) + WithKey(s[1..], key, k)
  }

  lemma {:induction false} InsertByWithKey<T>(x: T, s: seq<T>, key: T -> int, k: int)
    ensures WithKey(InsertBy(x, s, key), key, k) == (if key(x) == k then [x] else []) + WithKey(s, key, k)
  {
    var r := InsertBy(x, s, key);
    if s != [] && key(x) > key(s[0]) {
      InsertByWithKey(x, s[1..], key, k);
      assert r[0] == s[0] && r[1..] == InsertBy(x, s[1..], key);
    } else {
      assert r[0] == x && r[1..] == s;
    }
  }

  /** Stability: among elements with equal keys the sort keeps the input order. */
  lemma {:induction false} SortByStable<T>(s: seq<T>, key: T -> int, k: int)
    ensures WithKey(SortBy(s, key), key, k) == WithKey(s, key, k)
  {
    if s != [] {
      SortByStable(s[1..], key, k);
      InsertByWithKey(s[0], SortBy(s[1..], key), key, k);
    }
  }
}

=== FILE: storage.dfy ===
/** The encrypted local store (`core/src/storage.rs`): records are
    bincode-serialized, sealed under the master key with a fresh nonce, and
    kept in the key-value tree under a per-kind key prefix. */
module Storage {
  import opened Wrappers
  import opened Bytes
  import opened Primitives
  import opened Protocol
  import Crypto
  import Serde
  import Sled
  import Sorting
  import Utf8

  // ===== Key layout =====

  const PrefixMasterKey: string := "mk:"
  const PrefixIdentity: string := "id:"
  const PrefixContact: string := "ct:"
  const PrefixConversation: string := "cv:"
  const PrefixMessage: string := "msg:"
  const PrefixProfile: string := "pf:"
  const PrefixDevice: string := "dv:"
  const PrefixSettings: string := "st:"

  const Prefixes: seq<string> := [PrefixMasterKey, PrefixIdentity, PrefixContact, PrefixConversation,
                                  PrefixMessage, PrefixProfile, PrefixDevice, PrefixSettings]

  function IdentityKey(): string { PrefixIdentity + "self" }
  function ContactKey(id: string): string { PrefixContact + id }
  function ConversationKey(id: string): string { PrefixConversation + id }
  function MessagePrefix(conversationId: string): string { PrefixMessage + conversationId + "/" }
  function MessageKey(conversationId: string, messageId: string): string { MessagePrefix(conversationId) + messageId }
  function ProfileKey(): string { PrefixProfile + "self" }
  function DeviceKey(id: string): string { PrefixDevice + id }
  function SettingKey(key: string): string { PrefixSettings + key }

  /** The kinds of record live in separate namespaces: no key starts with
      two different prefixes. */
  lemma PrefixesExclusive(key: string, i: nat, j: nat)
    requires i < |Prefixes| && j < |Prefixes| && i != j
    requires Prefixes[i] <= key
    ensures !(Prefixes[j] <= key)
  {
    assert key[0] == Prefixes[i][0] && key[1] == Prefixes[i][1];
  }

  /** Scanning one conversation's message prefix picks exactly that
      conversation's messages, provided conversation ids all have one
      length (generated ids are 24 characters). */
  lemma MessagePrefixSelects(conversationId: string, other: string, messageId: string)
    requires |conversationId| == |other|
    ensures MessagePrefix(conversationId) <= MessageKey(other, messageId) <==> conversationId == other
  {
    var p := MessagePrefix(conversationId);
    var k := MessageKey(other, messageId);
    if p <= k {
      assert conversationId == p[4..4 + |conversationId|] == k[4..4 + |other|] == other;
    }
  }

  // ===== Framing =====

  /** Length of the frame header: a 16-byte salt, then a 12-byte nonce. */
  const FrameHeader: nat := 28

  /** `SecureStorage::encrypt`, with the random salt and nonce as parameters. */
  function Encrypt(c: Suite, masterKey: Bytes32, data: seq<byte>, salt: Bytes16, nonce: Bytes12): (r: Result<seq<byte>>)
    ensures r.Ok? <==> |data| <= GcmMaxPlaintext
    ensures r.Ok? ==>
      var ct := c.aesGcmSeal(masterKey, nonce, data);
      && |r.value| == FrameHeader + |ct|
      && r.value[..16] == salt && r.value[16..FrameHeader] == nonce && r.value[FrameHeader..] == ct
  {
    match Seal(c, masterKey, nonce, data)
    case None => Err(Failure("Encryption failed"))
    case Some(ct) => Ok(salt + nonce + ct)
  }

  /** `SecureStorage::decrypt`: too-short input is rejected before the
      cipher is used; the salt is skipped, the nonce read from bytes
      16..28. A success means the rest is the sealing of the result. */
  function Decrypt(c: Suite, masterKey: Bytes32, data: seq<byte>): (r: Result<seq<byte>>)
    ensures |data| < FrameHeader ==> r == Err(Failure("Invalid encrypted data"))
    ensures c.Laws() && r.Ok? ==> data[FrameHeader..] == c.aesGcmSeal(masterKey, data[16..FrameHeader], r.value)
  {
    if |data| < FrameHeader then Err(Failure("Invalid encrypted data"))
    else
      match c.aesGcmOpen(masterKey, data[16..FrameHeader], data[FrameHeader..])
      case None => Err(Failure("Decryption failed"))
      case Some(p) => Ok(p)
  }

  lemma FrameRoundTrip(c: Suite, masterKey: Bytes32, data: seq<byte>, salt: Bytes16, nonce: Bytes12)
    requires c.Laws() && |data| <= GcmMaxPlaintext
    ensures Decrypt(c, masterKey, Encrypt(c, masterKey, data, salt, nonce).value) == Ok(data)
  {
    var frame := Encrypt(c, masterKey, data, salt, nonce).value;
    assert c.aesGcmOpen(masterKey, nonce, c.aesGcmSeal(masterKey, nonce, data)) == Some(data);
  }

  /** The salt plays no part in decryption. */
  lemma DecryptIgnoresSalt(c: Suite, masterKey: Bytes32, data: seq<byte>, salt: Bytes16)
    requires |data| >= FrameHeader
    ensures Decrypt(c, masterKey, salt + data[16..]) == Decrypt(c, masterKey, data)
  {
    var d := salt + data[16..];
    assert d[16..FrameHeader] == data[16..FrameHeader];
    assert d[FrameHeader..] == data[FrameHeader..];
  }

  // ===== Records =====

  /** The bincode codecs of every stored record type. */
  datatype Codecs = Codecs(
    masterKey: Serde.Codec<Crypto.MasterKey>,
    identity: Serde.Codec<Crypto.EncryptedIdentityKeys>,
    contact: Serde.Codec<Contact>,
    conversation: Serde.Codec<Conversation>,
    message: Serde.Codec<LocalMessage>,
    profile: Serde.Codec<UserProfile>,
    device: Serde.Codec<DeviceInfo>)
  {
    ghost predicate RoundTrip()
    {
      && masterKey.RoundTrips() && identity.RoundTrips() && contact.RoundTrips()
      && conversation.RoundTrips() && message.RoundTrips() && profile.RoundTrips() && device.RoundTrips()
    }
  }

  /** The stored bytes of a record: serialized, then framed and sealed. */
  function EncodeValue<T(!new)>(c: Suite, codec: Serde.Codec<T>, masterKey: Bytes32, value: T,
                                salt: Bytes16, nonce: Bytes12): (r: Result<seq<byte>>)
    ensures r.Ok? <==> |codec.ser(value)| <= GcmMaxPlaintext
  {
    match Serde.Serialize(codec, value)
    case Err(e) => Err(e)
    case Ok(bytes) => Encrypt(c, masterKey, bytes, salt, nonce)
  }

  /** A stored record back: decrypt, then deserialize with the caller's
      error context. */
  function DecodeValue<T(!new)>(c: Suite, codec: Serde.Codec<T>, masterKey: Bytes32, data: seq<byte>,
                                context: string): (r: Result<T>)
    ensures |data| < FrameHeader ==> r == Err(Failure("Invalid encrypted data"))
  {
    match Decrypt(c, masterKey, data)
    case Err(e) => Err(e)
    case Ok(bytes) => Serde.Deserialize(codec, bytes, context)
  }

  lemma ValueRoundTrip<T(!new)>(c: Suite, codec: Serde.Codec<T>, masterKey: Bytes32, value: T,
                                salt: Bytes16, nonce: Bytes12, context: string)
    requires c.Laws() && codec.RoundTrips()
    requires EncodeValue(c, codec, masterKey, value, salt, nonce).Ok?
    ensures DecodeValue(c, codec, masterKey, EncodeValue(c, codec, masterKey, value, salt, nonce).value, context) == Ok(value)
  {
    var bytes := codec.ser(value);
    FrameRoundTrip(c, masterKey, bytes, salt, nonce);
  }

  /** `SecureStorage::get` on a tree: absent is `Ok(None)`. */
  function Read<T(!new)>(c: Suite, codec: Serde.Codec<T>, masterKey: Bytes32, db: seq<Sled.Entry>, key: string)
    : (r: Result<Option<T>>)
    ensures Sled.Get(db, key).None? <==> r == Ok(None)
  {
    match Sled.Get(db, key)
    case None => Ok(None)
    case Some(data) =>
      match DecodeValue(c, codec, masterKey, data, "Failed to deserialize value")
      case Err(e) => Err(e)
      case Ok(v) => Ok(Some(v))
  }

  /** `get` after `put` at the same key returns the stored value. */
  lemma ReadAfterWrite<T(!new)>(c: Suite, codec: Serde.Codec<T>, masterKey: Bytes32, db: seq<Sled.Entry>,
                                key: string, value: T, salt: Bytes16, nonce: Bytes12)
    requires c.Laws() && codec.RoundTrips()
    requires EncodeValue(c, codec, masterKey, value, salt, nonce).Ok?
    ensures Read(c, codec, masterKey, Sled.Insert(db, key, EncodeValue(c, codec, masterKey, value, salt, nonce).value), key)
         == Ok(Some(value))
  {
    var stored := EncodeValue(c, codec, masterKey, value, salt, nonce).value;
    Sled.GetInsert(db, key, stored, key);
    ValueRoundTrip(c, codec, masterKey, value, salt, nonce, "Failed to deserialize value");
  }

  /** `get` after `delete` at the same key returns `None`. */
  lemma ReadAfterDelete<T(!new)>(c: Suite, codec: Serde.Codec<T>, masterKey: Bytes32, db: seq<Sled.Entry>, key: string)
    ensures Read(c, codec, masterKey, Sled.Remove(db, key), key) == Ok(None)
  {
    Sled.GetRemove(db, key, key);
  }

  /** A read depends only on the entry at its key. */
  lemma ReadSameEntry<T(!new)>(c: Suite, codec: Serde.Codec<T>, masterKey: Bytes32, db: seq<Sled.Entry>,
                               other: seq<Sled.Entry>, key: string)
    requires Sled.Get(db, key) == Sled.Get(other, key)
    ensures Read(c, codec, masterKey, db, key) == Read(c, codec, masterKey, other, key)
  {
  }

  /** Decodes every entry in order, stopping at the first failure. */
  function DecodeAll<T(!new)>(c: Suite, codec: Serde.Codec<T>, masterKey: Bytes32, entries: seq<Sled.Entry>,
                              context: string): (r: Result<seq<T>>)
    ensures r.Ok? ==> |r.value| == |entries|
    ensures r.Ok? ==> forall i :: 0 <= i < |entries| ==>
      DecodeValue(c, codec, masterKey, entries[i].value, context) == Ok(r.value[i])
    decreases |entries|
  {
    if entries == [] then Ok([])
    else
      var last := |entries| - 1;
      match DecodeAll(c, codec, masterKey, entries[..last], context)
      case Err(e) => Err(e)
      case Ok(vs) =>
        match DecodeValue(c, codec, masterKey, entries[last].value, context)
        case Err(e) => Err(e)
        case Ok(v) => Ok(vs + [v])
  }

  /** Once a prefix fails, the whole list fails with the same error. */
  lemma {:induction false} DecodeAllPrefixErr<T(!new)>(c: Suite, codec: Serde.Codec<T>, masterKey: Bytes32,
                                                        entries: seq<Sled.Entry>, context: string, i: nat)
    requires i <= |entries|
    requires DecodeAll(c, codec, masterKey, entries[..i], context).Err?
    ensures DecodeAll(c, codec, masterKey, entries, context) == DecodeAll(c, codec, masterKey, entries[..i], context)
    decreases |entries| - i
  {
    if i < |entries| {
      var shorter := entries[..|entries| - 1];
      assert shorter[..i] == entries[..i];
      DecodeAllPrefixErr(c, codec, masterKey, shorter, context, i);
    } else {
      assert entries[..i] == entries;
    }
  }

  /** One more entry: the list decodes further exactly when the entry does. */
  lemma DecodeAllStep<T(!new)>(c: Suite, codec: Serde.Codec<T>, masterKey: Bytes32, entries: seq<Sled.Entry>,
                               context: string, i: nat, values: seq<T>)
    requires i < |entries| && DecodeAll(c, codec, masterKey, entries[..i], context) == Ok(values)
    ensures var v := DecodeValue(c, codec, masterKey, entries[i].value, context);
      && (v.Ok? ==> DecodeAll(c, codec, masterKey, entries[..i + 1], context) == Ok(values + [v.value]))
      && (v.Err? ==> DecodeAll(c, codec, masterKey, entries[..i + 1], context) == Err(v.error))
  {
    assert entries[..i + 1][..i] == entries[..i];
  }

  function Min(a: nat, b: nat): nat { if a < b then a else b }

  function TimestampOf(m: LocalMessage): int { m.timestamp }

  /** The sort key of the newest-first conversation order. */
  function NewestFirst(conv: Conversation): int { -conv.updatedAt }

  /** `get_messages`: the first `limit` entries under the conversation's
      prefix, in key order, then sorted by timestamp. The limit applies in
      key (message id) order, so these need not be the latest messages. */
  function MessagesPage(c: Suite, codec: Serde.Codec<LocalMessage>, masterKey: Bytes32, db: seq<Sled.Entry>,
                        conversationId: string, limit: nat): (r: Result<seq<LocalMessage>>)
    ensures var items := Sled.ScanPrefix(db, MessagePrefix(conversationId));
      var d := DecodeAll(c, codec, masterKey, items[..Min(limit, |items|)], "Failed to deserialize message");
      && (r.Err? <==> d.Err?)
      && (r.Err? ==> r.error == d.error)
      && (r.Ok? ==> multiset(r.value) == multiset(d.value))
    ensures r.Ok? ==>
      var items := Sled.ScanPrefix(db, MessagePrefix(conversationId));
      && |r.value| == Min(limit, |items|)
      && Sorting.SortedBy(r.value, TimestampOf)
      && forall m :: m in r.value ==>
           exists i :: 0 <= i < Min(limit, |items|)
             && DecodeValue(c, codec, masterKey, items[i].value, "Failed to deserialize message") == Ok(m)
  {
    var items := Sled.ScanPrefix(db, MessagePrefix(conversationId));
    match DecodeAll(c, codec, masterKey, items[..Min(limit, |items|)], "Failed to deserialize message")
    case Err(e) => Err(e)
    case Ok(ms) =>
      var sorted := Sorting.SortBy(ms, TimestampOf);
      assert forall m :: m in sorted ==> m in multiset(ms);
      Ok(sorted)
  }

  /** Index of the first message with the given id (`Iterator::position`). */
  function Position(ms: seq<LocalMessage>, id: string): (r: Option<nat>)
    ensures r.Some? ==> r.value < |ms| && ms[r.value].id == id
    ensures r.Some? ==> forall j :: 0 <= j < r.value ==> ms[j].id != id
    ensures r.None? ==> forall j :: 0 <= j < |ms| ==> ms[j].id != id
  {
    if ms == [] then None
    else if ms[0].id == id then Some(0)
    else match Position(ms[1..], id)
      case None => None
      case Some(p) => Some(p + 1)
  }

  /** The window `get_messages_before` returns from the sorted messages:
      up to `limit` messages immediately before the anchor (never the
      anchor itself), or the last `limit` messages when there is no anchor. */
  function WindowBefore(ms: seq<LocalMessage>, beforeId: string, limit: nat): (r: seq<LocalMessage>)
    ensures |r| <= limit
    ensures forall m :: m in r ==> m.id != beforeId || Position(ms, beforeId).None?
    ensures Position(ms, beforeId).Some? ==>
      var pos := Position(ms, beforeId).value;
      && |r| == Min(pos, limit)
      && forall i :: 0 <= i < |r| ==> r[i] == ms[pos - |r| + i]
    ensures Position(ms, beforeId).None? ==>
      && |r| == Min(|ms|, limit)
      && forall i :: 0 <= i < |r| ==> r[i] == ms[|ms| - |r| + i]
  {
    match Position(ms, beforeId)
    case Some(pos) =>
      var start := if pos >= limit then pos - limit else 0;
      ms[start..pos]
    case None =>
      var start := if |ms| >= limit then |ms| - limit else 0;
      ms[start..]
  }

  /** `get_all_conversations` on a tree: every conversation record,
      newest `updated_at` first. */
  function AllConversations(c: Suite, codec: Serde.Codec<Conversation>, masterKey: Bytes32, db: seq<Sled.Entry>)
    : (r: Result<seq<Conversation>>)
    ensures var d := DecodeAll(c, codec, masterKey, Sled.ScanPrefix(db, PrefixConversation), "Failed to deserialize conversation");
      && (r.Err? <==> d.Err?)
      && (r.Err? ==> r.error == d.error)
      && (r.Ok? ==> multiset(r.value) == multiset(d.value))
    ensures r.Ok? ==>
      var items := Sled.ScanPrefix(db, PrefixConversation);
      && |r.value| == |items|
      && (forall i, j :: 0 <= i < j < |r.value| ==> r.value[i].updatedAt >= r.value[j].updatedAt)
  {
    var items := Sled.ScanPrefix(db, PrefixConversation);
    match DecodeAll(c, codec, masterKey, items, "Failed to deserialize conversation")
    case Err(e) => Err(e)
    case Ok(convs) =>
      var sorted := Sorting.SortBy(convs, NewestFirst);
      assert forall i, j :: 0 <= i < j < |sorted| ==> NewestFirst(sorted[i]) <= NewestFirst(sorted[j]);
      Ok(sorted)
  }

  /** The first conversation with the given contact. */
  function FirstWithContact(convs: seq<Conversation>, contactId: string): (r: Option<Conversation>)
    ensures r.Some? ==>
      exists i :: 0 <= i < |convs| && convs[i] == r.value && convs[i].contactId == contactId
        && forall j :: 0 <= j < i ==> convs[j].contactId != contactId
    ensures r.None? <==> forall i :: 0 <= i < |convs| ==> convs[i].contactId != contactId
  {
    if convs == [] then None
    else if convs[0].contactId == contactId then Some(convs[0])
    else
      var r := FirstWithContact(convs[1..], contactId);
      if r.Some? then
        var i :| 0 <= i < |convs[1..]| && convs[1..][i] == r.value && convs[1..][i].contactId == contactId
          && forall j :: 0 <= j < i ==> convs[1..][j].contactId != contactId;
        assert convs[i + 1] == r.value;
        r
      else r
  }

  /** `get_setting` on a tree: settings are stored as plain UTF-8, not
      encrypted. */
  function ReadSetting(db: seq<Sled.Entry>, key: string): (r: Result<Option<string>>)
    ensures Sled.Get(db, SettingKey(key)).None? <==> r == Ok(None)
    ensures r.Ok? && r.value.Some? ==> Sled.Get(db, SettingKey(key)) == Some(Utf8.Encode(r.value.value))
  {
    match Sled.Get(db, SettingKey(key))
    case None => Ok(None)
    case Some(data) =>
      match Utf8.Decode(data)
      case None => Err(Failure("Invalid UTF-8 in setting"))
      case Some(s) =>
        Utf8.DecodeInjective(data, s);
        Ok(Some(s))
  }

  lemma SettingRoundTrip(db: seq<Sled.Entry>, key: string, value: string)
    ensures ReadSetting(Sled.Insert(db, SettingKey(key), Utf8.Encode(value)), key) == Ok(Some(value))
  {
    Sled.GetInsert(db, SettingKey(key), Utf8.Encode(value), SettingKey(key));
    Utf8.DecodeEncode(value);
  }

  // ===== Opening =====

  /** `SecureStorage::open` on the tree found at the path: only an explicit
      master key opens it; a stored master-key record still needs `unlock`. */
  function OpenOutcome(codecs: Codecs, existing: seq<Sled.Entry>, masterKey: Option<Bytes32>): (r: Result<Bytes32>)
    ensures r.Ok? <==> masterKey.Some?
    ensures r.Ok? ==> r.value == masterKey.value
    ensures masterKey.None? && Sled.Get(existing, PrefixMasterKey).None? ==>
      r == Err(Failure("New database needs master key generation"))
    ensures masterKey.None? && Sled.Get(existing, PrefixMasterKey).Some? ==>
      r == Err(Failure(if codecs.masterKey.de(Sled.Get(existing, PrefixMasterKey).value).Some?
                       then "Database exists but needs unlock"
                       else "Failed to deserialize master key"))
  {
    if masterKey.Some? then Ok(masterKey.value)
    else
      match Sled.Get(existing, PrefixMasterKey)
      case None => Err(Failure("New database needs master key generation"))
      case Some(data) =>
        match Serde.Deserialize(codecs.masterKey, data, "Failed to deserialize master key")
        case Err(e) => Err(e)
        case Ok(_) => Err(Failure("Database exists but needs unlock"))
  }

  /** `SecureStorage::create`, with the three random draws of
      `MasterKey::from_password` as parameters: the tree with the
      serialized master-key record stored (unencrypted) under "mk:", and
      the master key. */
  function CreateOutcome(c: Suite, codecs: Codecs, existing: seq<Sled.Entry>, password: string,
                         salt: Bytes32, nonce: Bytes12, masterKey: Bytes32): (r: Result<(seq<Sled.Entry>, Bytes32)>)
    ensures c.Laws() ==> r.Ok?
    ensures r.Ok? <==> Crypto.FromPassword(c, password, salt, nonce, masterKey).Ok?
    ensures r.Err? ==> r.error == Context(Crypto.FromPassword(c, password, salt, nonce, masterKey).error,
                                          "Failed to generate master key")
    ensures r.Ok? ==> r.value.1 == masterKey
    ensures r.Ok? ==> forall k :: k != PrefixMasterKey ==> Sled.Get(r.value.0, k) == Sled.Get(existing, k)
    ensures r.Ok? ==> Sled.Get(r.value.0, PrefixMasterKey)
                      == Some(codecs.masterKey.ser(Crypto.FromPassword(c, password, salt, nonce, masterKey).value.0))
  {
    match Crypto.FromPassword(c, password, salt, nonce, masterKey)
    case Err(e) => Err(Context(e, "Failed to generate master key"))
    case Ok((store, key)) =>
      match Serde.Serialize(codecs.masterKey, store)
      case Err(e) => Err(Context(e, "Failed to serialize master key"))
      case Ok(bytes) =>
        var db := Sled.Insert(existing, PrefixMasterKey, bytes);
        assert forall k :: Sled.Get(db, k) == if k == PrefixMasterKey then Some(bytes) else Sled.Get(existing, k) by {
          forall k ensures Sled.Get(db, k) == if k == PrefixMasterKey then Some(bytes) else Sled.Get(existing, k) {
            Sled.GetInsert(existing, PrefixMasterKey, bytes, k);
          }
        }
        Ok((db, key))
  }

  /** `SecureStorage::unlock`: the master key recovered from the stored
      record with the password. A failed unlock is reported as a wrong
      password; a panic inside it stays a panic. */
  function UnlockOutcome(c: Suite, codecs: Codecs, existing: seq<Sled.Entry>, password: string): (r: Result<Bytes32>)
    ensures Sled.Get(existing, PrefixMasterKey).None? ==> r == Err(Failure("No master key found"))
    ensures Sled.Get(existing, PrefixMasterKey).Some? && codecs.masterKey.de(Sled.Get(existing, PrefixMasterKey).value).None? ==>
      r == Err(Failure("Failed to deserialize master key"))
    ensures Sled.Get(existing, PrefixMasterKey).Some? && codecs.masterKey.de(Sled.Get(existing, PrefixMasterKey).value).Some? ==>
      var u := Crypto.Unlock(c, codecs.masterKey.de(Sled.Get(existing, PrefixMasterKey).value).value, password);
      && (u.Ok? ==> r == Ok(u.value))
      && (u.Err? ==> r == Err(Context(u.error, "Failed to unlock database - wrong password?")))
    ensures r.Ok? ==>
      var stored := Sled.Get(existing, PrefixMasterKey);
      && stored.Some? && codecs.masterKey.de(stored.value).Some?
      && Crypto.Unlock(c, codecs.masterKey.de(stored.value).value, password) == Ok(r.value)
  {
    match Sled.Get(existing, PrefixMasterKey)
    case None => Err(Failure("No master key found"))
    case Some(data) =>
      match Serde.Deserialize(codecs.masterKey, data, "Failed to deserialize master key")
      case Err(e) => Err(e)
      case Ok(stored) =>
        match Crypto.Unlock(c, stored, password)
        case Err(e) => Err(Context(e, "Failed to unlock database - wrong password?"))
        case Ok(key) => Ok(key)
  }

  /** A database created with a password unlocks with that password to the
      same master key. */
  lemma CreateThenUnlock(c: Suite, codecs: Codecs, existing: seq<Sled.Entry>, password: string,
                         salt: Bytes32, nonce: Bytes12, masterKey: Bytes32)
    requires c.Laws() && codecs.RoundTrip()
    ensures CreateOutcome(c, codecs, existing, password, salt, nonce, masterKey).Ok?
    ensures UnlockOutcome(c, codecs, CreateOutcome(c, codecs, existing, password, salt, nonce, masterKey).value.0, password)
         == Ok(masterKey)
  {
    Crypto.MasterKeyRoundTrip(c, password, salt, nonce, masterKey);
    var store := Crypto.FromPassword(c, password, salt, nonce, masterKey).value.0;
    var bytes := codecs.masterKey.ser(store);
    Sled.GetInsert(existing, PrefixMasterKey, bytes, PrefixMasterKey);
  }

  /** Unlocking reads the master-key record and nothing else, so any two
      trees that agree on it unlock alike. */
  lemma UnlockReadsRecord(c: Suite, codecs: Codecs, db: seq<Sled.Entry>, other: seq<Sled.Entry>, password: string)
    requires Sled.Get(db, PrefixMasterKey) == Sled.Get(other, PrefixMasterKey)
    ensures UnlockOutcome(c, codecs, db, password) == UnlockOutcome(c, codecs, other, password)
  {
  }

  // ===== The store object =====

  /** `SecureStorage`: the open tree and the unlocked master key. */
  class SecureStorage {
    var db: seq<Sled.Entry>
    const masterKey: Bytes32

    ghost predicate Valid()
      reads this
    {
      Sled.Sorted(db)
    }

    constructor FromParts(db: seq<Sled.Entry>, masterKey: Bytes32)
      requires Sled.Sorted(db)
      ensures this.db == db && this.masterKey == masterKey && Valid()
    {
      this.db := db;
      this.masterKey := masterKey;
    }

    /** `SecureStorage::open`, over the tree found at the path. */
    static method Open(codecs: Codecs, existing: seq<Sled.Entry>, masterKey: Option<Bytes32>)
      returns (r: Result<SecureStorage>)
      requires Sled.Sorted(existing)
      ensures r.Ok? <==> OpenOutcome(codecs, existing, masterKey).Ok?
      ensures r.Err? ==> r.error == OpenOutcome(codecs, existing, masterKey).error
      ensures r.Ok? ==>
        && fresh(r.value) && r.value.Valid() && r.value.db == existing
        && r.value.masterKey == OpenOutcome(codecs, existing, masterKey).value
    {
      var outcome := OpenOutcome(codecs, existing, masterKey);
      if outcome.Err? {
        return Err(outcome.error);
      }
      var s := new SecureStorage.FromParts(existing, outcome.value);
      return Ok(s);
    }

    /** `SecureStorage::create`. */
    static method Create(c: Suite, codecs: Codecs, existing: seq<Sled.Entry>, password: string,
                         salt: Bytes32, nonce: Bytes12, masterKey: Bytes32) returns (r: Result<SecureStorage>)
      requires Sled.Sorted(existing)
      ensures r.Ok? <==> CreateOutcome(c, codecs, existing, password, salt, nonce, masterKey).Ok?
      ensures r.Err? ==> r.error == CreateOutcome(c, codecs, existing, password, salt, nonce, masterKey).error
      ensures r.Ok? ==>
        && fresh(r.value) && r.value.Valid()
        && r.value.db == CreateOutcome(c, codecs, existing, password, salt, nonce, masterKey).value.0
        && r.value.masterKey == masterKey
    {
      var outcome := CreateOutcome(c, codecs, existing, password, salt, nonce, masterKey);
      if outcome.Err? {
        return Err(outcome.error);
      }
      Sled.InsertSorted(existing, PrefixMasterKey, codecs.masterKey.ser(Crypto.FromPassword(c, password, salt, nonce, masterKey).value.0));
      var s := new SecureStorage.FromParts(outcome.value.0, outcome.value.1);
      return Ok(s);
    }

    /** `SecureStorage::unlock`. */
    static method Unlock(c: Suite, codecs: Codecs, existing: seq<Sled.Entry>, password: string)
      returns (r: Result<SecureStorage>)
      requires Sled.Sorted(existing)
      ensures r.Ok? <==> UnlockOutcome(c, codecs, existing, password).Ok?
      ensures r.Err? ==> r.error == UnlockOutcome(c, codecs, existing, password).error
      ensures r.Ok? ==>
        && fresh(r.value) && r.value.Valid() && r.value.db == existing
        && r.value.masterKey == UnlockOutcome(c, codecs, existing, password).value
    {
      var outcome := UnlockOutcome(c, codecs, existing, password);
      if outcome.Err? {
        return Err(outcome.error);
      }
      var s := new SecureStorage.FromParts(existing, outcome.value);
      return Ok(s);
    }

    /** `SecureStorage::put`, with the frame's random salt and nonce as
        parameters. Every other key keeps its value. */
    method Put<T(!new)>(c: Suite, codec: Serde.Codec<T>, key: string, value: T, salt: Bytes16, nonce: Bytes12)
      returns (r: Result<Unit>)
      requires Valid()
      modifies this
      ensures Valid()
      ensures r.Ok? <==> EncodeValue(c, codec, masterKey, value, salt, nonce).Ok?
      ensures r.Ok? ==> db == Sled.Insert(old(db), key, EncodeValue(c, codec, masterKey, value, salt, nonce).value)
      ensures r.Err? ==> db == old(db)
      ensures r.Ok? && c.Laws() && codec.RoundTrips() ==> Read(c, codec, masterKey, db, key) == Ok(Some(value))
      ensures forall k :: k != key ==> Sled.Get(db, k) == Sled.Get(old(db), k)
    {
      var stored := EncodeValue(c, codec, masterKey, value, salt, nonce);
      if stored.Err? {
        return Err(stored.error);
      }
      Sled.InsertSorted(db, key, stored.value);
      forall k | k != key ensures Sled.Get(Sled.Insert(db, key, stored.value), k) == Sled.Get(db, k) {
        Sled.GetInsert(db, key, stored.value, k);
      }
      if c.Laws() && codec.RoundTrips() {
        ReadAfterWrite(c, codec, masterKey, db, key, value, salt, nonce);
      }
      db := Sled.Insert(db, key, stored.value);
      return Ok(Unit);
    }

    /** `SecureStorage::delete`: the key is absent afterwards, every other
        key keeps its value. */
    method Delete(key: string)
      requires Valid()
      modifies this
      ensures Valid()
      ensures db == Sled.Remove(old(db), key)
      ensures Sled.Get(db, key) == None
      ensures forall k :: k != key ==> Sled.Get(db, k) == Sled.Get(old(db), k)
    {
      Sled.RemoveSorted(db, key);
      forall k ensures Sled.Get(Sled.Remove(db, key), k) == if k == key then None else Sled.Get(db, k) {
        Sled.GetRemove(db, key, k);
      }
      db := Sled.Remove(db, key);
    }

    /** The loop shared by the `get_all_*` and `get_messages_before`
        scans: decrypt and deserialize each entry in order, returning the
        first error. */
    method LoadAll<T(!new)>(c: Suite, codec: Serde.Codec<T>, entries: seq<Sled.Entry>, context: string)
      returns (r: Result<seq<T>>)
      ensures r == DecodeAll(c, codec, masterKey, entries, context)
    {
      var values: seq<T> := [];
      var i := 0;
      while i < |entries|
        invariant 0 <= i <= |entries|
        invariant DecodeAll(c, codec, masterKey, entries[..i], context) == Ok(values)
      {
        var v := DecodeValue(c, codec, masterKey, entries[i].value, context);
        DecodeAllStep(c, codec, masterKey, entries, context, i, values);
        if v.Err? {
          DecodeAllPrefixErr(c, codec, masterKey, entries, context, i + 1);
          return Err(v.error);
        }
        values := values + [v.value];
        i := i + 1;
      }
      assert entries[..i] == entries;
      return Ok(values);
    }

    // ----- Typed records -----

    method StoreIdentity(c: Suite, codecs: Codecs, identity: Crypto.EncryptedIdentityKeys, salt: Bytes16, nonce: Bytes12)
      returns (r: Result<Unit>)
      requires Valid()
      modifies this
      ensures Valid()
      ensures r.Ok? <==> EncodeValue(c, codecs.identity, masterKey, identity, salt, nonce).Ok?
      ensures r.Ok? ==> db == Sled.Insert(old(db), IdentityKey(), EncodeValue(c, codecs.identity, masterKey, identity, salt, nonce).value)
      ensures r.Err? ==> db == old(db)
      ensures r.Ok? && c.Laws() && codecs.RoundTrip() ==> GetIdentity(c, codecs) == Ok(Some(identity))
      ensures forall k :: k != IdentityKey() ==> Sled.Get(db, k) == Sled.Get(old(db), k)
    {
      r := Put(c, codecs.identity, IdentityKey(), identity, salt, nonce);
    }

    function GetIdentity(c: Suite, codecs: Codecs): Result<Option<Crypto.EncryptedIdentityKeys>>
      reads this
    {
      Read(c, codecs.identity, masterKey, db, IdentityKey())
    }

    method StoreContact(c: Suite, codecs: Codecs, contact: Contact, salt: Bytes16, nonce: Bytes12)
      returns (r: Result<Unit>)
      requires Valid()
      modifies this
      ensures Valid()
      ensures r.Ok? <==> EncodeValue(c, codecs.contact, masterKey, contact, salt, nonce).Ok?
      ensures r.Ok? ==> db == Sled.Insert(old(db), ContactKey(contact.id), EncodeValue(c, codecs.contact, masterKey, contact, salt, nonce).value)
      ensures r.Err? ==> db == old(db)
      ensures r.Ok? && c.Laws() && codecs.RoundTrip() ==> GetContact(c, codecs, contact.id) == Ok(Some(contact))
      ensures forall k :: k != ContactKey(contact.id) ==> Sled.Get(db, k) == Sled.Get(old(db), k)
    {
      r := Put(c, codecs.contact, ContactKey(contact.id), contact, salt, nonce);
    }

    function GetContact(c: Suite, codecs: Codecs, id: string): Result<Option<Contact>>
      reads this
    {
      Read(c, codecs.contact, masterKey, db, ContactKey(id))
    }

    method GetAllContacts(c: Suite, codecs: Codecs) returns (r: Result<seq<Contact>>)
      ensures r == DecodeAll(c, codecs.contact, masterKey, Sled.ScanPrefix(db, PrefixContact), "Failed to deserialize contact")
    {
      r := LoadAll(c, codecs.contact, Sled.ScanPrefix(db, PrefixContact), "Failed to deserialize contact");
    }

    method DeleteContact(id: string)
      requires Valid()
      modifies this
      ensures Valid()
      ensures db == Sled.Remove(old(db), ContactKey(id))
      ensures forall codecs: Codecs, c: Suite {:trigger GetContact(c, codecs, id)} :: GetContact(c, codecs, id) == Ok(None)
    {
      Delete(ContactKey(id));
    }

    method StoreConversation(c: Suite, codecs: Codecs, conv: Conversation, salt: Bytes16, nonce: Bytes12)
      returns (r: Result<Unit>)
      requires Valid()
      modifies this
      ensures Valid()
      ensures r.Ok? <==> EncodeValue(c, codecs.conversation, masterKey, conv, salt, nonce).Ok?
      ensures r.Ok? ==> db == Sled.Insert(old(db), ConversationKey(conv.id), EncodeValue(c, codecs.conversation, masterKey, conv, salt, nonce).value)
      ensures r.Err? ==> db == old(db)
      ensures r.Ok? && c.Laws() && codecs.RoundTrip() ==> GetConversation(c, codecs, conv.id) == Ok(Some(conv))
      ensures forall k :: k != ConversationKey(conv.id) ==> Sled.Get(db, k) == Sled.Get(old(db), k)
    {
      r := Put(c, codecs.conversation, ConversationKey(conv.id), conv, salt, nonce);
    }

    function GetConversation(c: Suite, codecs: Codecs, id: string): Result<Option<Conversation>>
      reads this
    {
      Read(c, codecs.conversation, masterKey, db, ConversationKey(id))
    }

    /** `get_all_conversations`: newest `updated_at` first. */
    method GetAllConversations(c: Suite, codecs: Codecs) returns (r: Result<seq<Conversation>>)
      ensures r == AllConversations(c, codecs.conversation, masterKey, db)
    {
      var loaded := LoadAll(c, codecs.conversation, Sled.ScanPrefix(db, PrefixConversation), "Failed to deserialize conversation");
      if loaded.Err? {
        return Err(loaded.error);
      }
      return Ok(Sorting.SortBy(loaded.value, NewestFirst));
    }

    /** `get_conversation_by_contact`: the first conversation, newest
        first, whose contact matches. */
    method GetConversationByContact(c: Suite, codecs: Codecs, contactId: string) returns (r: Result<Option<Conversation>>)
      ensures AllConversations(c, codecs.conversation, masterKey, db).Err? ==>
        r == Err(AllConversations(c, codecs.conversation, masterKey, db).error)
      ensures AllConversations(c, codecs.conversation, masterKey, db).Ok? ==>
        r == Ok(FirstWithContact(AllConversations(c, codecs.conversation, masterKey, db).value, contactId))
    {
      var all := GetAllConversations(c, codecs);
      if all.Err? {
        return Err(all.error);
      }
      var convs := all.value;
      var i := 0;
      while i < |convs|
        invariant 0 <= i <= |convs|
        invariant FirstWithContact(convs, contactId) == FirstWithContact(convs[i..], contactId)
      {
        if convs[i].contactId == contactId {
          return Ok(Some(convs[i]));
        }
        assert convs[i..][1..] == convs[i + 1..];
        i := i + 1;
      }
      return Ok(None);
    }

    method StoreMessage(c: Suite, codecs: Codecs, message: LocalMessage, salt: Bytes16, nonce: Bytes12)
      returns (r: Result<Unit>)
      requires Valid()
      modifies this
      ensures Valid()
      ensures r.Ok? <==> EncodeValue(c, codecs.message, masterKey, message, salt, nonce).Ok?
      ensures r.Ok? ==> db == Sled.Insert(old(db), MessageKey(message.conversationId, message.id),
                                          EncodeValue(c, codecs.message, masterKey, message, salt, nonce).value)
      ensures r.Err? ==> db == old(db)
      ensures r.Ok? && c.Laws() && codecs.RoundTrip() ==>
        GetMessage(c, codecs, message.conversationId, message.id) == Ok(Some(message))
      ensures forall k :: k != MessageKey(message.conversationId, message.id) ==> Sled.Get(db, k) == Sled.Get(old(db), k)
    {
      r := Put(c, codecs.message, MessageKey(message.conversationId, message.id), message, salt, nonce);
    }

    function GetMessage(c: Suite, codecs: Codecs, conversationId: string, messageId: string): Result<Option<LocalMessage>>
      reads this
    {
      Read(c, codecs.message, masterKey, db, MessageKey(conversationId, messageId))
    }

    /** `get_messages`: stops reading once `limit` messages are held, then
        sorts them by timestamp. */
    method GetMessages(c: Suite, codecs: Codecs, conversationId: string, limit: nat) returns (r: Result<seq<LocalMessage>>)
      ensures r == MessagesPage(c, codecs.message, masterKey, db, conversationId, limit)
    {
      var items := Sled.ScanPrefix(db, MessagePrefix(conversationId));
      ghost var taken := items[..Min(limit, |items|)];
      var messages: seq<LocalMessage> := [];
      var i := 0;
      while i < |items|
        invariant 0 <= i <= |items| && i <= limit && |messages| == i
        invariant DecodeAll(c, codecs.message, masterKey, items[..i], "Failed to deserialize message") == Ok(messages)
      {
        if |messages| >= limit {
          break;
        }
        var m := DecodeValue(c, codecs.message, masterKey, items[i].value, "Failed to deserialize message");
        DecodeAllStep(c, codecs.message, masterKey, items, "Failed to deserialize message", i, messages);
        if m.Err? {
          assert taken[..i + 1] == items[..i + 1];
          DecodeAllPrefixErr(c, codecs.message, masterKey, taken, "Failed to deserialize message", i + 1);
          return Err(m.error);
        }
        messages := messages + [m.value];
        i := i + 1;
      }
      assert items[..i] == taken;
      return Ok(Sorting.SortBy(messages, TimestampOf));
    }

    /** `get_messages_before`: all of the conversation's messages sorted by
        timestamp, then the window before the anchor message. */
    method GetMessagesBefore(c: Suite, codecs: Codecs, conversationId: string, beforeId: string, limit: nat)
      returns (r: Result<seq<LocalMessage>>)
      ensures var all := DecodeAll(c, codecs.message, masterKey, Sled.ScanPrefix(db, MessagePrefix(conversationId)),
                                   "Failed to deserialize message");
        && (all.Err? ==> r == Err(all.error))
        && (all.Ok? ==> r == Ok(WindowBefore(Sorting.SortBy(all.value, TimestampOf), beforeId, limit)))
    {
      var loaded := LoadAll(c, codecs.message, Sled.ScanPrefix(db, MessagePrefix(conversationId)), "Failed to deserialize message");
      if loaded.Err? {
        return Err(loaded.error);
      }
      var messages := Sorting.SortBy(loaded.value, TimestampOf);
      return Ok(WindowBefore(messages, beforeId, limit));
    }

    method DeleteMessage(conversationId: string, messageId: string)
      requires Valid()
      modifies this
      ensures Valid()
      ensures db == Sled.Remove(old(db), MessageKey(conversationId, messageId))
      ensures Sled.Get(db, MessageKey(conversationId, messageId)) == None
    {
      Delete(MessageKey(conversationId, messageId));
    }

    method StoreProfile(c: Suite, codecs: Codecs, profile: UserProfile, salt: Bytes16, nonce: Bytes12)
      returns (r: Result<Unit>)
      requires Valid()
      modifies this
      ensures Valid()
      ensures r.Ok? <==> EncodeValue(c, codecs.profile, masterKey, profile, salt, nonce).Ok?
      ensures r.Ok? ==> db == Sled.Insert(old(db), ProfileKey(), EncodeValue(c, codecs.profile, masterKey, profile, salt, nonce).value)
      ensures r.Err? ==> db == old(db)
      ensures r.Ok? && c.Laws() && codecs.RoundTrip() ==> GetProfile(c, codecs) == Ok(Some(profile))
      ensures forall k :: k != ProfileKey() ==> Sled.Get(db, k) == Sled.Get(old(db), k)
    {
      r := Put(c, codecs.profile, ProfileKey(), profile, salt, nonce);
    }

    function GetProfile(c: Suite, codecs: Codecs): Result<Option<UserProfile>>
      reads this
    {
      Read(c, codecs.profile, masterKey, db, ProfileKey())
    }

    /** `set_setting`: the value's UTF-8 bytes, stored without encryption. */
    method SetSetting(key: string, value: string)
      requires Valid()
      modifies this
      ensures Valid()
      ensures db == Sled.Insert(old(db), SettingKey(key), Utf8.Encode(value))
      ensures GetSetting(key) == Ok(Some(value))
    {
      Sled.InsertSorted(db, SettingKey(key), Utf8.Encode(value));
      SettingRoundTrip(db, key, value);
      db := Sled.Insert(db, SettingKey(key), Utf8.Encode(value));
    }

    function GetSetting(key: string): Result<Option<string>>
      reads this
    {
      ReadSetting(db, key)
    }

    method StoreDevice(c: Suite, codecs: Codecs, device: DeviceInfo, salt: Bytes16, nonce: Bytes12)
      returns (r: Result<Unit>)
      requires Valid()
      modifies this
      ensures Valid()
      ensures r.Ok? <==> EncodeValue(c, codecs.device, masterKey, device, salt, nonce).Ok?
      ensures r.Ok? ==> db == Sled.Insert(old(db), DeviceKey(device.deviceId), EncodeValue(c, codecs.device, masterKey, device, salt, nonce).value)
      ensures r.Err? ==> db == old(db)
      ensures r.Ok? && c.Laws() && codecs.RoundTrip() ==> GetDevice(c, codecs, device.deviceId) == Ok(Some(device))
      ensures forall k :: k != DeviceKey(device.deviceId) ==> Sled.Get(db, k) == Sled.Get(old(db), k)
    {
      r := Put(c, codecs.device, DeviceKey(device.deviceId), device, salt, nonce);
    }

    function GetDevice(c: Suite, codecs: Codecs, deviceId: string): Result<Option<DeviceInfo>>
      reads this
    {
      Read(c, codecs.device, masterKey, db, DeviceKey(deviceId))
    }

    method GetAllDevices(c: Suite, codecs: Codecs) returns (r: Result<seq<DeviceInfo>>)
      ensures r == DecodeAll(c, codecs.device, masterKey, Sled.ScanPrefix(db, PrefixDevice), "Failed to deserialize device")
    {
      r := LoadAll(c, codecs.device, Sled.ScanPrefix(db, PrefixDevice), "Failed to deserialize device");
    }
  }
}

=== FILE: utf8.dfy ===
/** UTF-8, the byte form of a Rust `String` (`as_bytes`, `len`,
    `String::from_utf8`). A Dafny `char` is a Unicode scalar value, so a
    `string` is exactly what a Rust `String` holds. */
module Utf8 {
  import opened Wrappers
  import opened Bytes

  /** Number of bytes UTF-8 uses for one scalar value. */
  function CharLen(c: char): (n: nat)
    ensures 1 <= n <= 4
  {
    var v := c as int;
    if v < 0x80 then 1 else if v < 0x800 then 2 else if v < 0x1_0000 then 3 else 4
  }

  /** `s.len()`: the length in bytes, not in characters. */
  function ByteLen(s: string): nat
  {
    if s == [] then 0 else CharLen(s[0]) + ByteLen(s[1..])
  }

  /** The encoding of one scalar value: its bits in groups of six, the
      lowest group last. */
  function EncodeChar(c: char): (b: seq<byte>)
    ensures |b| == CharLen(c)
  {
    var v := c as int;
    var v1 := v / 0x40;
    var v2 := v1 / 0x40;
    if v < 0x80 then [v]
    else if v < 0x800 then [0xC0 + v1, 0x80 + v % 0x40]
    else if v < 0x1_0000 then [0xE0 + v2, 0x80 + v1 % 0x40, 0x80 + v % 0x40]
    else [0xF0 + v2 / 0x40, 0x80 + v2 % 0x40, 0x80 + v1 % 0x40, 0x80 + v % 0x40]
  }

  /** `s.as_bytes()`. */
  function Encode(s: string): (b: seq<byte>)
    ensures |b| == ByteLen(s)
  {
    if s == [] then [] else EncodeChar(s[0]) + Encode(s[1..])
  }

  predicate IsContinuation(b: byte)
  {
    0x80 <= b < 0xC0
  }

  predicate IsScalar(v: int)
  {
    0 <= v < 0xD800 || 0xE000 <= v < 0x11_0000
  }

  /** Decodes the first scalar value of `b` under the well-formedness rules
      of the Unicode standard (table 3-7: no overlong forms, no surrogates,
      nothing above U+10FFFF), giving the value and the bytes it used. */
  function DecodeFirst(b: seq<byte>): (r: Option<(char, nat)>)
    requires |b| > 0
    ensures r.Some? ==> 1 <= r.value.1 <= |b|
  {
    var b0 := b[0] as int;
    if b0 < 0x80 then Some((b0 as char, 1))
    else if 0xC2 <= b0 < 0xE0 then
      if |b| < 2 || !IsContinuation(b[1]) then None
      else Some((((b0 - 0xC0) * 0x40 + (b[1] as int - 0x80)) as char, 2))
    else if 0xE0 <= b0 < 0xF0 then
      if |b| < 3 || !IsContinuation(b[1]) || !IsContinuation(b[2]) then None
      else
        var v := (b0 - 0xE0) * 0x1000 + (b[1] as int - 0x80) * 0x40 + (b[2] as int - 0x80);
        if v < 0x800 || !IsScalar(v) then None else Some((v as char, 3))
    else if 0xF0 <= b0 < 0xF5 then
      if |b| < 4 || !IsContinuation(b[1]) || !IsContinuation(b[2]) || !IsContinuation(b[3]) then None
      else
        var v := (b0 - 0xF0) * 0x4_0000 + (b[1] as int - 0x80) * 0x1000 + (b[2] as int - 0x80) * 0x40 + (b[3] as int - 0x80);
        if v < 0x1_0000 || !IsScalar(v) then None else Some((v as char, 4))
    else None
  }

  /** `String::from_utf8`: `None` on any ill-formed sequence. */
  function Decode(b: seq<byte>): Option<string>
    decreases |b|
  {
    if b == [] then Some([])
    else match DecodeFirst(b)
      case None => None
      case Some((c, n)) =>
        match Decode(b[n..])
        case None => None
        case Some(rest) => Some([c] + rest)
  }

  lemma DecodeFirstOfEncoded(c: char, rest: seq<byte>)
    ensures DecodeFirst(EncodeChar(c) + rest) == Some((c, CharLen(c)))
  {
    var v := c as int;
    if v < 0x80 {
    } else if v < 0x800 {
      DecodeTwoOfEncoded(c, rest);
    } else if v < 0x1_0000 {
      DecodeThreeOfEncoded(c, rest);
    } else {
      DecodeFourOfEncoded(c, rest);
    }
  }

  lemma DecodeTwoOfEncoded(c: char, rest: seq<byte>)
    requires 0x80 <= c as int < 0x800
    ensures DecodeFirst(EncodeChar(c) + rest) == Some((c, 2))
  {
    var v := c as int;
    var v1 := v / 0x40;
    var b := EncodeChar(c) + rest;
    assert b[0] == 0xC0 + v1 && b[1] == 0x80 + v % 0x40;
    assert v == v1 * 0x40 + v % 0x40;
  }

  lemma DecodeThreeOfEncoded(c: char, rest: seq<byte>)
    requires 0x800 <= c as int < 0x1_0000
    ensures DecodeFirst(EncodeChar(c) + rest) == Some((c, 3))
  {
    var v := c as int;
    var v1 := v / 0x40;
    var v2 := v1 / 0x40;
    var b := EncodeChar(c) + rest;
    assert b[0] == 0xE0 + v2 && b[1] == 0x80 + v1 % 0x40 && b[2] == 0x80 + v % 0x40;
    assert v == v1 * 0x40 + v % 0x40 && v1 == v2 * 0x40 + v1 % 0x40;
  }

  lemma DecodeFourOfEncoded(c: char, rest: seq<byte>)
    requires 0x1_0000 <= c as int
    ensures DecodeFirst(EncodeChar(c) + rest) == Some((c, 4))
  {
    var v := c as int;
    var v1 := v / 0x40;
    var v2 := v1 / 0x40;
    var v3 := v2 / 0x40;
    var b := EncodeChar(c) + rest;
    assert b[0] == 0xF0 + v3 && b[1] == 0x80 + v2 % 0x40 && b[2] == 0x80 + v1 % 0x40 && b[3] == 0x80 + v % 0x40;
    assert v == v1 * 0x40 + v % 0x40 && v1 == v2 * 0x40 + v1 % 0x40 && v2 == v3 * 0x40 + v2 % 0x40;
  }

  /** Splitting off the low six bits. */
  lemma SixBits(hi: nat, lo: nat)
    requires lo < 0x40
    ensures (hi * 0x40 + lo) / 0x40 == hi && (hi * 0x40 + lo) % 0x40 == lo
  {
  }

  lemma DecodeTwoEncodes(b: seq<byte>)
    requires |b| >= 2 && 0xC2 <= b[0] < 0xE0 && IsContinuation(b[1])
    ensures DecodeFirst(b) == Some((((b[0] - 0xC0) * 0x40 + (b[1] as int - 0x80)) as char, 2))
    ensures EncodeChar(DecodeFirst(b).value.0) == b[..2]
  {
    SixBits(b[0] - 0xC0, b[1] - 0x80);
  }

  lemma DecodeThreeEncodes(b: seq<byte>)
    requires |b| >= 3 && 0xE0 <= b[0] < 0xF0 && DecodeFirst(b).Some?
    ensures DecodeFirst(b).value.1 == 3
    ensures EncodeChar(DecodeFirst(b).value.0) == b[..3]
  {
    var x, y, z: int := b[0] - 0xE0, b[1] - 0x80, b[2] - 0x80;
    SixBits(x * 0x40 + y, z);
    SixBits(x, y);
    assert x * 0x1000 + y * 0x40 + z == (x * 0x40 + y) * 0x40 + z;
  }

  lemma DecodeFourEncodes(b: seq<byte>)
    requires |b| >= 4 && 0xF0 <= b[0] < 0xF5 && DecodeFirst(b).Some?
    ensures DecodeFirst(b).value.1 == 4
    ensures EncodeChar(DecodeFirst(b).value.0) == b[..4]
  {
    var w, x, y, z: int := b[0] - 0xF0, b[1] - 0x80, b[2] - 0x80, b[3] - 0x80;
    SixBits((w * 0x40 + x) * 0x40 + y, z);
    SixBits(w * 0x40 + x, y);
    SixBits(w, x);
    assert w * 0x4_0000 + x * 0x1000 + y * 0x40 + z == ((w * 0x40 + x) * 0x40 + y) * 0x40 + z;
  }

  /** The strict decoder reads back only the encoder's own output. */
  lemma DecodeFirstEncodes(b: seq<byte>)
    requires |b| > 0 && DecodeFirst(b).Some?
    ensures CharLen(DecodeFirst(b).value.0) == DecodeFirst(b).value.1
    ensures EncodeChar(DecodeFirst(b).value.0) == b[..DecodeFirst(b).value.1]
  {
    if 0xC2 <= b[0] < 0xE0 {
      DecodeTwoEncodes(b);
    } else if 0xE0 <= b[0] < 0xF0 {
      DecodeThreeEncodes(b);
    } else if 0xF0 <= b[0] {
      DecodeFourEncodes(b);
    }
  }

  /** A successful decode is the encoding of its first scalar value
      followed by a successful decode of what remains. */
  lemma DecodeSplit(b: seq<byte>) returns (n: nat, c: char, tail: string)
    requires b != [] && Decode(b).Some?
    ensures 1 <= n <= |b| && b == EncodeChar(c) + b[n..]
    ensures Decode(b[n..]) == Some(tail) && Decode(b).value == [c] + tail
  {
    n := DecodeFirst(b).value.1;
    c := DecodeFirst(b).value.0;
    tail := Decode(b[n..]).value;
    DecodeFirstEncodes(b);
    assert b == b[..n] + b[n..];
  }

  /** Decoding is injective: a successful decode inverts `Encode`. */
  lemma {:induction false} DecodeInjective(b: seq<byte>, s: string)
    requires Decode(b) == Some(s)
    ensures Encode(s) == b
    decreases |b|
  {
    if b != [] {
      var n, c, tail := DecodeSplit(b);
      DecodeInjective(b[n..], tail);
      EncodeCons(c, tail);
    }
  }

  lemma EncodeCons(c: char, s: string)
    ensures Encode([c] + s) == EncodeChar(c) + Encode(s)
  {
    assert ([c] + s)[1..] == s;
  }

  /** Decoding what was encoded gives the string back. */
  lemma {:induction false} DecodeEncode(s: string)
    ensures Decode(Encode(s)) == Some(s)
  {
    if s != [] {
      var b := Encode(s);
      assert b == EncodeChar(s[0]) + Encode(s[1..]);
      DecodeFirstOfEncoded(s[0], Encode(s[1..]));
      assert b[CharLen(s[0])..] == Encode(s[1..]);
      DecodeEncode(s[1..]);
      assert [s[0]] + s[1..] == s;
    }
  }

  lemma {:induction false} ByteLenAppend(a: string, b: string)
    ensures ByteLen(a + b) == ByteLen(a) + ByteLen(b)
  {
    if a != [] {
      assert (a + b)[0] == a[0] && (a + b)[1..] == a[1..] + b;
      ByteLenAppend(a[1..], b);
    } else {
      assert a + b == b;
    }
  }

  /** Every ASCII string has one byte per character. */
  lemma {:induction false} AsciiByteLen(s: string)
    requires forall i :: 0 <= i < |s| ==> s[i] as int < 0x80
    ensures ByteLen(s) == |s|
  {
    if s != [] {
      AsciiByteLen(s[1..]);
    }
  }

  /** The prefix of `s` that is exactly `n` bytes long, when byte `n` is a
      character boundary of `s`; `None` where `&s[..n]` would panic. */
  function BoundaryPrefix(s: string, n: nat): (r: Option<string>)
    ensures r.Some? ==> r.value <= s && ByteLen(r.value) == n
  {
    if n == 0 then Some([])
    else if s == [] || CharLen(s[0]) > n then None
    else match BoundaryPrefix(s[1..], n - CharLen(s[0]))
      case None => None
      case Some(p) => assert ([s[0]] + p)[1..] == p; Some([s[0]] + p)
  }

  /** `BoundaryPrefix` misses only when no prefix of `s` is `n` bytes long. */
  lemma {:induction false} BoundaryPrefixNone(s: string, n: nat)
    requires BoundaryPrefix(s, n).None?
    ensures forall k :: 0 <= k <= |s| ==> ByteLen(s[..k]) != n
  {
    forall k | 0 <= k <= |s| ensures ByteLen(s[..k]) != n {
      if k > 0 {
        assert s[..k][1..] == s[1..][..k - 1];
        assert ByteLen(s[..k]) == CharLen(s[0]) + ByteLen(s[1..][..k - 1]);
        if CharLen(s[0]) <= n {
          BoundaryPrefixNone(s[1..], n - CharLen(s[0]));
        }
      }
    }
  }

  /** The longest prefix of `s` at most `n` bytes long: `s` cut at the last
      character boundary not after byte `n`. */
  function FloorPrefix(s: string, n: nat): (r: string)
    ensures r <= s && ByteLen(r) <= n
    ensures r != s ==> ByteLen(s[..|r| + 1]) > n
  {
    if s == [] then []
    else if CharLen(s[0]) > n then
      assert s[..1][1..] == [];
      []
    else
      var p := FloorPrefix(s[1..], n - CharLen(s[0]));
      assert ([s[0]] + p)[1..] == p;
      assert p != s[1..] ==> s[..|p| + 2][1..] == s[1..][..|p| + 1];
      [s[0]] + p
  }

  /** Where byte `n` is a boundary, cutting there and cutting at the last
      boundary not after it agree. */
  lemma {:induction false} FloorPrefixAgrees(s: string, n: nat)
    requires BoundaryPrefix(s, n).Some?
    ensures FloorPrefix(s, n) == BoundaryPrefix(s, n).value
  {
    if n > 0 {
      FloorPrefixAgrees(s[1..], n - CharLen(s[0]));
    }
  }
}

=== FILE: wrappers.dfy ===
/** Option and Result, the two failure-carrying shapes the Rust code uses
    (`Option<T>` and `anyhow::Result<T>`). */
module Wrappers {

  datatype Option<+T> = None | Some(value: T)

  /** What went wrong: an `Err` the code returns, or a panic it would raise
      (a `copy_from_slice` of the wrong length, a `str` slice that is not on
      a character boundary). */
  datatype Error = Failure(message: string) | Panic(message: string)

  datatype Result<+T> = Ok(value: T) | Err(error: Error)

  /** `anyhow::Context::context` on an error: the error is reported under
      the given message. A panic is not an error and passes through. */
  function Context(e: Error, message: string): (r: Error)
    ensures r.Panic? <==> e.Panic?
    ensures r.Panic? ==> r == e
    ensures r.Failure? ==> r.message == message
  {
    if e.Panic? then e else Failure(message)
  }

  /** The `()` of `Result<()>`. */
  datatype Unit = Unit
}
